=== FILE: README.md ===
# JBAC AI Trading Coach: a verified model of the paper-trading core

The JBAC AI Trading Coach is a paper-trading and coaching application. This project models
its Python back end and its two AWS Lambda handlers in Dafny and proves properties of the
model.

**The ledger.** The core is the paper-trading ledger: how cash, positions and trade history
change when a trade runs. The ledger exists in three versions, each modelled separately:
- **`PortfolioSim`**: the in-memory simulator behind `paper_trade`. It is a class whose
  fields are mutated on a fresh copy.
- **`DynamoLedger`**: the DynamoDB service. It validates trades, maintains the position list
  with weighted average cost, and recomputes portfolio totals. Its tables are maps and
  sequences.
- **`LocalStorage`**: the file-backed development store, with no validation. It is a class
  over ordered maps.

**What surrounds the ledger.**
- **Handler logic from the API (`AppViews`, `TradeAnalysis`)**:
  - unwrapping of Lambda replies;
  - position repricing;
  - FIFO win/loss matching;
  - the keyword classifiers of the trade analysis.
- **`Auth`**: bearer parsing and the ordered checks of register, login, Google sign-in and
  password change.
- **The market-data Lambda (`MarketHandler`)**.
- **The agents Lambda and the Bedrock client (`LlmAgents`, `BedrockClient`, `ModelRequest`)**:
  - request shapes per model family;
  - Nova message conversion;
  - reply, token and truncation handling.
- **`LlmLogger`**: the LLM audit log and its statistics fold.
- **`Ollama`**: the Ollama prompt assembly.
- **`Config`, `CheckConfig`**: the configuration helpers and the configuration check.

**Shared modules.**
- `Json` holds Python/JSON values.
- `Text` holds Python's string methods on ASCII text:
  - `strip`, `split(',')`, `split()` and `join`;
  - `lower`, `upper` and `capitalize`;
  - slicing with `[:n]`;
  - string ordering.
- `TradeOrder` holds the newest-first sort.
- `TrackedSymbols` holds list append and `list.remove`.
- `LambdaEvent` holds the event parsing shared by both Lambdas.

**Conventions.**
- Money, prices and quantities are `real`.
- Stores are maps, with the insertion order of a Python dict kept as a sequence of keys.
- Everything the code calls but cannot see is a function-typed parameter or a datatype
  describing its possible outcomes:
  - the network, AWS, bcrypt, JWT, the clock and uuids;
  - `json.dumps`/`json.loads` and Python's `str()`.

## Model

| member | source | states |
|---|---|---|
| PortfolioSim.EnsurePosition | backend/services/portfolio_sim.py:13-19 | the returned index holds the first position for the symbol; the list is unchanged when one exists, otherwise exactly one zero position is appended |
| PortfolioSim.Ensured | backend/services/portfolio_sim.py:13-19 | the list and index `ensure_position` leaves always point at a position of the symbol |
| PortfolioSim.IndexOf | backend/services/portfolio_sim.py:14-16 | the first position with the symbol, and None exactly when there is none |
| PortfolioSim.Apply | backend/services/portfolio_sim.py:21-41 | a buy costing more than cash fails with "Insufficient cash"; any other side holding fewer shares fails with "Insufficient shares"; otherwise cash moves by quantity*price and exactly one trade is appended to the history |
| PortfolioSim.ExecuteTrade | backend/services/portfolio_sim.py:21-41 | works on a fresh copy, so the caller's state is never changed; the result (or error) is the one `Apply` gives |
| PortfolioSim.ApplyBuy | backend/services/portfolio_sim.py:23-31 | proof step for `ExecuteTrade`: the covered-buy branch of `Apply` in closed form (cash lowered by quantity*price, the quantity merged into the ensured position); the properties of a buy are `TradeMovesHolding`, `BuyWeightedAverage` and `BuyConservesBookValue` |
| PortfolioSim.ApplySell | backend/services/portfolio_sim.py:32-39 | proof step for `ExecuteTrade`: the covered-sell branch of `Apply` in closed form (cash raised by quantity*price, the ensured position lowered); the properties of a sell are `TradeMovesHolding`, `TradeKeepsPositions` and `SellToZeroResetsAverage` |
| PortfolioSim.TradeMovesHolding | backend/services/portfolio_sim.py:27-37 | a trade moves the traded symbol's holding by exactly the quantity (up for a buy, down otherwise) and leaves every other symbol's holding unchanged |
| PortfolioSim.TradeKeepsSymbolsUnique | backend/services/portfolio_sim.py:13-19 | a trade never gives a symbol a second position |
| PortfolioSim.TradeKeepsPositions | backend/services/portfolio_sim.py:36-39 | no position is ever removed, even one sold down to zero |
| PortfolioSim.BuyWeightedAverage | backend/services/portfolio_sim.py:29-31 | after a buy the average price is the quantity-weighted mean of the old average and the fill price |
| PortfolioSim.Bought | backend/services/portfolio_sim.py:29-31 | definition: the quantity grows and the average becomes the weighted mean over the floored divisor; its property is `BuyWeightedAverage` |
| PortfolioSim.Held | backend/services/portfolio_sim.py:14-16 | definition: the quantity of the symbol's first position, 0 without one; `TradeMovesHolding` is stated over it |
| PortfolioSim.CostBasis | backend/services/portfolio_sim.py:30 | definition: the sum of quantity times average price; `BuyConservesBookValue` is stated over it |
| PortfolioSim.SellToZeroResetsAverage | backend/services/portfolio_sim.py:36-39 | selling the whole holding succeeds, leaves quantity 0 and resets the average price to 0 |
| PortfolioSim.BuyConservesBookValue | backend/services/portfolio_sim.py:27-31 | a buy turns cash into cost basis one for one: cash plus the book's cost basis is unchanged |
| PortfolioSim.EnsuredIndex | backend/services/portfolio_sim.py:13-19 | the ensured index is where the symbol is found afterwards |
| PortfolioSim.PortfolioState.constructor | backend/services/portfolio_sim.py:22 | the fresh copy holds exactly the given cash, positions and history |
| PortfolioSim.CostBasisUpdate | backend/services/portfolio_sim.py:30-31 | replacing one position changes the cost basis by the difference of the two positions' quantity times average |
| DynamoCodec.DecimalToFloat | backend/services/dynamodb_service.py:75-83 | no Decimal is left; a Decimal leaf becomes the float of the same value; dict keys and list lengths are kept; other leaves are returned unchanged |
| DynamoCodec.FloatToDecimal | backend/services/dynamodb_service.py:86-94 | no float is left; a float leaf becomes the Decimal of the same value; dict keys and list lengths are kept; other leaves are returned unchanged |
| DynamoCodec.DecimalToFloatFixes | backend/services/dynamodb_service.py:75-83 | a value without decimals is a fixed point, so the conversion is idempotent |
| DynamoCodec.FloatToDecimalFixes | backend/services/dynamodb_service.py:86-94 | a value without floats is a fixed point, so the conversion is idempotent |
| DynamoCodec.StoreLoadRoundTrip | backend/services/dynamodb_service.py:75-94 | converting a decimal-free item for storage and back gives the item itself |
| DynamoCodec.LoadStoreRoundTrip | backend/services/dynamodb_service.py:75-94 | converting a float-free item for reading and back gives the item itself |
| DynamoCodec.KeptMembers | backend/services/dynamodb_service.py:209-210 | the written entries are exactly the update entries whose key is not the primary key |
| DynamoCodec.Kept | backend/services/dynamodb_service.py:209-210 | never longer than the updates; its members are fixed by `KeptMembers` and `KeptEmpty` |
| DynamoCodec.Clauses | backend/services/dynamodb_service.py:211-213 | one `#k = :k` clause per kept key, in order |
| DynamoCodec.Recorded | backend/services/dynamodb_service.py:214-215 | definition: the names and values maps hold `#k -> k` and `:k -> value` for every kept entry, and no other key of either map; `BuildUpdate` ensures it |
| DynamoCodec.StrayValueNotRecorded | backend/services/dynamodb_service.py:214-215 | a values map with a `:zzz` placeholder for a key that is not written does not satisfy `Recorded` |
| DynamoCodec.BuildUpdate | backend/services/dynamodb_service.py:205-220 | "No valid fields to update" exactly when every key is the primary key; otherwise "SET " then one `#k = :k` clause per kept key, in order, joined by ", ", with `#k` naming k and `:k` holding its value, and no placeholder for a key that is not written |
| DynamoCodec.KeptEmpty | backend/services/dynamodb_service.py:217-218 | nothing is kept exactly when every key is the primary key |
| DynamoCodec.PrefixInjective | backend/services/dynamodb_service.py:211-212 | distinct keys get distinct placeholders |
| DynamoCodec.BuildPortfolioUpdate | backend/services/dynamodb_service.py:344-361 | update_portfolio converts every value with float_to_decimal first, so each written value is the converted one and holds no float |
| DynamoLedger.FirstIndex | backend/services/dynamodb_service.py:453-457 | the index of the first position with the symbol, and None exactly when there is none |
| DynamoLedger.NewPositionMetrics | backend/services/dynamodb_service.py:460-473 | the written position's P&L is quantity times the price move; its percentage is that P&L over the cost basis, or 0 when the basis is not positive |
| DynamoLedger.PositionsAfterEffect | backend/services/dynamodb_service.py:475-483 | the four cases: an existing position is replaced in place (quantity > 0) or removed; a new one is appended only when quantity > 0; every other symbol's lookup is unchanged |
| DynamoLedger.PositionsAfter | backend/services/dynamodb_service.py:475-483 | definition: the found position is replaced (positive quantity) or popped, an absent one appended only with a positive quantity; its properties are `PositionsAfterEffect` and `PositionsAfterPositive` |
| DynamoLedger.RemoveAtEffect | backend/services/dynamodb_service.py:476-478 | popping a position removes its symbol and keeps every other lookup |
| DynamoLedger.PositionsAfterPositive | backend/services/dynamodb_service.py:475-483 | the list never gains a position with a non-positive quantity |
| DynamoLedger.WithTotalsConsistent | backend/services/dynamodb_service.py:486-490 | after recomputation, total_value = balance + sum of current values, total_pnl = total_value - initial_value, and pnl_percent is 0 when initial_value is not positive |
| DynamoLedger.WithTotals | backend/services/dynamodb_service.py:486-499 | definition: the new position list with total_value, total_invested, total_pnl and pnl_percent recomputed; its property is `WithTotalsConsistent` |
| DynamoLedger.AfterUpdateInvariants | backend/services/dynamodb_service.py:446-499 | update_position keeps one position per symbol and positive quantities, and leaves the totals consistent |
| DynamoLedger.LedgerService.GetPosition | backend/services/dynamodb_service.py:501-511 | the first stored position with the symbol; None for an unknown portfolio or an absent symbol |
| DynamoLedger.LedgerService.constructor | backend/services/dynamodb_service.py:28 | the service starts with exactly the given portfolio and trade tables |
| DynamoLedger.UniqueFirstIndex | backend/services/dynamodb_service.py:453-457 | in a list with one position per symbol, the lookup of a position's symbol finds that position |
| DynamoLedger.LedgerService.UpdatePosition | backend/services/dynamodb_service.py:425-499 | an unknown portfolio raises and nothing is written; otherwise the stored portfolio becomes the updated list with recomputed totals |
| DynamoLedger.Validate | backend/services/dynamodb_service.py:551-561 | the first failing check: a buy costing more than the balance; a sell with no position or too few shares; any other side |
| DynamoLedger.NewBalance | backend/services/dynamodb_service.py:563-567 | definition: the balance lowered by quantity*price for a buy and raised for a sell; used by `Execute` and `Record` |
| DynamoLedger.Record | backend/services/dynamodb_service.py:570-585 | definition: the trade item written, with total amount quantity*price and the balances before and after |
| DynamoLedger.MergedAvg | backend/services/dynamodb_service.py:601-602 | definition: the weighted average cost after a buy; its property is `BuyMergesAtWeightedAverage` |
| DynamoLedger.Settle | backend/services/dynamodb_service.py:594-610 | the position step never rejects and keeps the new balance and the recorded trade; what it does to the positions is proved per case in `BuyMergesAtWeightedAverage`, `BuyOpensPosition`, `SellKeepsCostOrRemoves` and `FailedAfterWriteNeedsNegativeBuy` |
| DynamoLedger.Execute | backend/services/dynamodb_service.py:543-612 | a trade is rejected exactly when validation fails, with nothing written; otherwise balance_after is balance_before minus quantity*price for a buy and plus it for a sell, and the trade record is written |
| DynamoLedger.ExecuteKeepsInvariants | backend/services/dynamodb_service.py:563-610 | after a completed trade the totals are consistent, and a book with one position per symbol and positive quantities stays so |
| DynamoLedger.BuyMergesAtWeightedAverage | backend/services/dynamodb_service.py:596-603 | a buy into a held symbol leaves its quantity summed and its average cost the quantity-weighted mean |
| DynamoLedger.BuyOpensPosition | backend/services/dynamodb_service.py:604-605 | a buy of a symbol not held opens exactly the record `(quantity, price, price)` when the quantity is positive and leaves the symbol absent otherwise; every other symbol's position is unchanged |
| DynamoLedger.SellKeepsCostOrRemoves | backend/services/dynamodb_service.py:607-610 | a sell keeps the average cost of the remaining shares, and a sell of the whole holding removes the position |
| DynamoLedger.LedgerService.ExecuteTrade | backend/services/dynamodb_service.py:517-616 | an unknown portfolio raises; otherwise the trade and the portfolio tables end as `Execute` says, and the returned item or error matches its outcome |
| DynamoLedger.LedgerService.SettlePosition | backend/services/dynamodb_service.py:594-612 | after the trade and balance writes, only this portfolio changes, to `Settle`'s result; the error is returned exactly when the division fails |
| DynamoLedger.LedgerService.AddTrackedSymbol | backend/services/dynamodb_service.py:377-388 | an unknown portfolio raises; an absent symbol is appended, and a tracked one leaves the portfolio as it was |
| DynamoLedger.LedgerService.RemoveTrackedSymbol | backend/services/dynamodb_service.py:390-401 | an unknown portfolio raises; a tracked symbol loses its first occurrence, and an absent one leaves the portfolio as it was |
| DynamoLedger.GetUserTrades | backend/services/dynamodb_service.py:696-710 | the merged trades of all portfolios, sorted newest first by timestamp and cut to `limit`; every trade comes from one of the lists |
| DynamoLedger.ConcatMember | backend/services/dynamodb_service.py:699-705 | every merged trade comes from one of the per-portfolio lists |
| DynamoLedger.FailedAfterWriteNeedsNegativeBuy | backend/services/dynamodb_service.py:552-602 | the only way to fail after the writes is a buy whose negative quantity exactly cancels the holding |
| DynamoLedger.NegativeBuyFailsAfterWrite | backend/services/dynamodb_service.py:552-602 | with 5 shares held, buying -5 at 10 passes validation, writes the trade and the raised balance, then fails with the positions untouched |
| DynamoLedger.ExecuteCheckedNeverFailsAfterWrite | backend/services/dynamodb_service.py:551-610 | with a positive-quantity check in front, a trade is either refused before any write or completes |
| DynamoLedger.ExecuteChecked | backend/services/dynamodb_service.py:551-561 | the corrected trade: a non-positive quantity is rejected before validation, otherwise the same outcome as `Execute` |
| TrackedSymbols.RemoveFirst | backend/services/dynamodb_service.py:397-398 | `list.remove` drops exactly one occurrence of the symbol, by multiset and length; which one is fixed by `RemoveFirstSplits` |
| TrackedSymbols.RemoveFirstOthers | backend/services/dynamodb_service.py:397-398 | removing a symbol keeps the membership of every other symbol |
| TrackedSymbols.FirstAt | backend/services/dynamodb_service.py:397-398 | the index of the first occurrence: it holds the symbol and no earlier entry does |
| TrackedSymbols.RemoveFirstSplits | backend/services/dynamodb_service.py:397-398 | `list.remove` cuts out exactly the first occurrence and keeps every other symbol in its order |
| TrackedSymbols.RemoveFirstGone | backend/services/local_storage.py:194-195 | in a duplicate-free list, removing a symbol removes it altogether and keeps every other symbol |
| TrackedSymbols.TrackedSymbolsEffect | backend/services/local_storage.py:179-199 | adding never creates a duplicate and leaves the symbol tracked; removing leaves it untracked and every other symbol as it was |
| TradeOrder.SortNewestFirst | backend/services/dynamodb_service.py:708 | the sort is a permutation of its input, ordered newest first |
| TradeOrder.Insert | backend/services/dynamodb_service.py:708 | insertion adds exactly the one element (length and multiset) and puts it or the old head first; `InsertNewestFirst` shows it keeps the order |
| TradeOrder.NewestFirst | backend/services/local_storage.py:248 | definition: every trade's key is at least the next one's, the order `sorted(..., reverse=True)` gives |
| TradeOrder.InsertNewestFirst | backend/services/local_storage.py:248 | inserting into a newest-first list keeps it newest first |
| TradeOrder.PrefixNewestFirst | backend/services/local_storage.py:248 | a prefix taken with `[:limit]` of a newest-first list is newest first |
| LocalStorage.Store.CreateUser | backend/services/local_storage.py:58-83 | the new record (active, empty preferences, no default portfolio) is stored under the new id at the end of the key order; nothing else changes |
| LocalStorage.Store.constructor | backend/services/local_storage.py:20-36 | the store starts with three empty tables in a consistent state |
| LocalStorage.Store.PortfolioValues | backend/services/local_storage.py:159 | `portfolios.values()`: entry i is the portfolio under the i-th key in insertion order, and these are exactly the stored portfolios |
| LocalStorage.Store.TradeValues | backend/services/local_storage.py:243 | `trades.values()`: entry i is the trade under the i-th key in insertion order, and these are exactly the stored trades |
| LocalStorage.Store.GetUserById | backend/services/local_storage.py:85-88 | the stored record, or None exactly when the id is unknown |
| LocalStorage.UserByEmail | backend/services/local_storage.py:90-96 | the first record in store order with the email; None exactly when no record has it |
| LocalStorage.UserByOauth | backend/services/local_storage.py:98-105 | the first record in store order with the provider and OAuth id; None exactly when none has them |
| LocalStorage.Store.GetUserByEmail | backend/services/local_storage.py:90-96 | the loop returns `UserByEmail` |
| LocalStorage.Store.GetUserByOauth | backend/services/local_storage.py:98-105 | the loop returns `UserByOauth` |
| LocalStorage.Store.UpdateUser | backend/services/local_storage.py:107-115 | an unknown id gives None and writes nothing; otherwise the updates are merged and `updated_at` is stamped |
| LocalStorage.Store.UpdateDefaultPortfolio | backend/services/local_storage.py:117-119 | true exactly when the user exists, and then only that record's default portfolio and stamp change |
| LocalStorage.Store.CreatePortfolio | backend/services/local_storage.py:125-149 | the new portfolio has balance and total equal to the initial value, no positions and is active; nothing else changes |
| LocalStorage.Store.GetPortfolio | backend/services/local_storage.py:151-154 | the stored portfolio, or None exactly when the id is unknown |
| LocalStorage.ActiveOf | backend/services/local_storage.py:159 | exactly the portfolios owned by the user and still active |
| LocalStorage.ActiveOfAppend | backend/services/local_storage.py:159 | the filter keeps the store's order: filtering a concatenation filters each part in turn |
| LocalStorage.Store.UserPortfolios | backend/services/local_storage.py:156-159 | exactly the stored portfolios owned by the user and still active, filtered out of `values()` in key order |
| LocalStorage.Store.DeletePortfolio | backend/services/local_storage.py:171-177 | true exactly when the portfolio exists, and then only its `is_active` becomes false; otherwise nothing changes |
| LocalStorage.Store.AddTrackedSymbol | backend/services/local_storage.py:179-188 | None for an unknown portfolio; otherwise the symbol is appended only when absent |
| LocalStorage.Store.RemoveTrackedSymbol | backend/services/local_storage.py:190-199 | None for an unknown portfolio; otherwise the first occurrence is removed when present |
| LocalStorage.Store.ExecuteTrade | backend/services/local_storage.py:201-237 | an unknown portfolio fails before any write; otherwise the trade is stored and the balance moves by quantity*price (down for "buy", up for any other side), with no validation |
| LocalStorage.BuyThenSellRestoresBalance | backend/services/local_storage.py:228-233 | a buy followed by any other side of the same size and price, in either order, leaves the balance as it was |
| LocalStorage.BalanceAfter | backend/services/local_storage.py:228-233 | definition: a buy pays quantity*price and any other side receives it; its property is `BuyThenSellRestoresBalance` |
| LocalStorage.TradesOf | backend/services/local_storage.py:243-246 | exactly the trades of the portfolio, of the symbol when a non-empty one is given |
| LocalStorage.TradesOfAppend | backend/services/local_storage.py:243-246 | the trade filter keeps the store's order: filtering a concatenation filters each part in turn |
| LocalStorage.Store.PortfolioTrades | backend/services/local_storage.py:239-248 | `sorted(matching, reverse=True)[:limit]`: the matching trades sorted newest first by `executed_at`, cut to `limit` (min(limit, count) of them for a non-negative limit); only this portfolio's (and symbol's) stored trades, and all of them as a multiset when `limit` allows |
| LocalStorage.ValuesAtMembers | backend/services/local_storage.py:93 | `values()` in key order holds exactly the stored values |
| LocalStorage.InsertKeyOrdered | backend/services/local_storage.py:79 | assigning a key keeps the key order consistent with the dict |
| LocalStorage.InsertKey | backend/services/local_storage.py:79 | definition: a new key goes to the end of the key order, an existing one keeps its place |
| LocalStorage.NewUser | backend/services/local_storage.py:66-78 | definition: the record `create_user` stores; `Store.CreateUser` ensures it is stored |
| AppViews.ExtractLambdaResponse | backend/app.py:55-66 | a dict with `body` gives the body's `response` or `str(body)`; a dict with only `response` gives it; anything else gives `str(result)` |
| AppViews.UnwrapsEnvelope | backend/app.py:57-65 | the API Gateway envelope, a dict body and a bare `{"response": text}` all unwrap to text |
| AppViews.UnwrapsMissingResponse | backend/app.py:62 | a body without `response` answers with its own `str()` |
| AppViews.Repriced | backend/app.py:351-357 | current value is quantity*price, unrealized P&L is quantity times the price move, and the percentage is over the cost basis, or 0 when the basis is not positive |
| AppViews.Refreshed | backend/app.py:350-359 | definition: a position repriced when its quote came back, untouched otherwise; `RefreshPrices` is the loop that applies it |
| AppViews.MarketValue | backend/app.py:362 | definition: the sum of quantity times quote; `RefreshedSum` relates it to the total |
| AppViews.RefreshPrices | backend/app.py:348-359 | every position with a quote is repriced and every other one is left as it was, in order |
| AppViews.PortfolioDetail | backend/app.py:348-363 | positions refreshed, total_value = balance + sum of current values, and no other field changes |
| AppViews.RefreshedSum | backend/app.py:362-363 | with every symbol quoted, the total is the cash plus the holdings' market value |
| AppViews.Row | backend/app.py:795-826 | a quoted position is valued at the quote with pnl = (price - avg) * quantity; a failed quote or a zero average falls back to the average price with pnl 0 |
| AppViews.Rows | backend/app.py:795-826 | one row per position, in order |
| AppViews.Valuation | backend/app.py:791-829 | the rows, positions_value as the sum of their values, and total_value = cash + positions_value |
| AppViews.UnpricedValueIsCostBasis | backend/app.py:814-829 | with no quotes the holdings are worth their cost basis |
| AppViews.RowsValueSnoc | backend/app.py:804-818 | the positions value grows by each row's value as rows are added |
| AppViews.TallyBounds | backend/app.py:838-855 | wins plus losses never exceed the matched sells, which never exceed the sells |
| AppViews.Step | backend/app.py:839-853 | definition: one trade of the FIFO loop; properties in `BuyOpensAtBack`, `SellMatchesOldestBuy` and `UnmatchedSellIgnored` |
| AppViews.Tallied | backend/app.py:838-855 | definition: the FIFO loop over the whole history; properties in `TallyBounds` and `TradeStatistics` |
| AppViews.UnmatchedSellIgnored | backend/app.py:847-848 | a sell with no open buy of its symbol changes nothing |
| AppViews.SellMatchesOldestBuy | backend/app.py:846-853 | from any loop state, a sell with an open buy of its symbol adds (sell - oldest buy price) * min of the quantities to the pnl, pops that oldest lot, keeps the later lots and every other symbol's, and counts one matched sell |
| AppViews.BuyOpensAtBack | backend/app.py:839-845 | from any loop state, a buy appends its lot behind the open lots of its symbol, leaves every other symbol's lots and changes no counter |
| AppViews.FifoExample | backend/app.py:838-853 | for example, buy, buy, sell of one symbol scores the sell against the first buy and leaves the second open |
| AppViews.WinRateBounds | backend/app.py:857 | the win rate lies between 0 and 100 |
| AppViews.WinRate | backend/app.py:857 | definition: winning / total * 100, or 0 with no trades; its property is `WinRateBounds` |
| AppViews.TradeStatistics | backend/app.py:832-855 | the loop's counters and total pnl are the FIFO tally's, and wins plus losses never exceed the sells |
| AppViews.PortfolioMetrics | backend/app.py:791-867 | the metrics dict: cash, positions value, total, trade count, the FIFO tally and a win rate between 0 and 100 |
| TradeAnalysis.FirstMentioned | backend/app.py:901-904 | the first listed ticker the text contains, or None when it contains none |
| TradeAnalysis.DetectSymbol | backend/app.py:897-904 | None exactly when no ticker occurs in the upper-cased idea; otherwise a listed ticker's market symbol, with "-USD" for BTC and ETH |
| TradeAnalysis.MarketSymbol | backend/app.py:903 | definition: BTC and ETH get "-USD", other tickers are kept |
| TradeAnalysis.BitcoinFirst | backend/app.py:898-904 | mentioning "btc" in any case selects BTC-USD, whatever else is mentioned |
| TradeAnalysis.Action | backend/app.py:937 | "buy" exactly when the lower-cased idea contains "buy", then "sell", then "hold" |
| TradeAnalysis.Recommendation | backend/app.py:982-991 | BUY exactly when "BUY" occurs without "DON'T" or "NOT"; otherwise SELL, WAIT and HOLD in that order |
| TradeAnalysis.NotVetoesBuy | backend/app.py:984 | any occurrence of "not", even inside another word, vetoes BUY |
| Auth.ExtractToken | backend/services/auth_service.py:161-168 | a token comes back only from a present header, and it is one whitespace-free word |
| Auth.ExtractBearer | backend/services/auth_service.py:164-168 | "Bearer <token>", with the scheme in any case, yields the token |
| Auth.ExtractRejects | backend/services/auth_service.py:164-166 | another scheme, a lone word, or three words (`len(parts) != 2`) yield nothing |
| Auth.DefaultDisplayName | backend/services/auth_service.py:208-209 | `email.split('@')[0]`: a prefix of the email without '@' that runs up to the first '@', or is the whole email when there is none |
| Auth.IsActive | backend/services/auth_service.py:249 | definition: `user.get('is_active', True)` is truthy |
| Auth.HasPassword | backend/services/auth_service.py:253 | definition: `user.get('password_hash')` is truthy |
| Auth.PasswordMatches | backend/services/auth_service.py:256 | definition: the stored hash is a string and verifies against the password |
| Auth.TokenFor | backend/services/auth_service.py:224 | definition: the token issued for the record's user_id and email |
| Auth.GoogleName | backend/services/auth_service.py:295 | definition: the claims' name, or the email up to its first '@' (see `DefaultDisplayName`) |
| Auth.CurrentUser | backend/services/auth_service.py:347-365 | for a header whose bearer token decodes to a payload with `user_id` the non-empty string `id` of a stored user, the result is that user when active and None otherwise; any result is the active stored user the token names, so a missing header, an undecodable token or a missing, empty or non-string `user_id` gives None |
| Auth.NamesUser | backend/services/auth_service.py:347-358 | the header's bearer token decodes to a payload whose `user_id` is the non-empty string `id` |
| Auth.CurrentUserByToken | backend/services/auth_service.py:347-365 | a bearer token whose payload names a stored user gives that user if active, nobody otherwise |
| Auth.RequireAuth | backend/services/auth_service.py:380-383 | fails with "Authentication required" exactly when `get_current_user` gives None |
| Auth.AuthService.RegisterUser | backend/services/auth_service.py:195-227 | email, then password length, then uniqueness are checked before any write; on success exactly one user is created with the default display name when none is given |
| Auth.AuthService.constructor | backend/services/auth_service.py:52-54 | the service holds the given store and crypto functions |
| Auth.AuthService.LoginUser | backend/services/auth_service.py:244-263 | unknown email, deactivated account, OAuth-only account and wrong password are rejected in that order; otherwise the found user and its token |
| Auth.AuthService.AuthenticateGoogle | backend/services/auth_service.py:282-330 | a verification ValueError keeps its message, any other failure or unreadable claims give "Invalid Google token", and readable claims sign in as `SignInGoogle` says |
| Auth.AuthService.SignInGoogle | backend/services/auth_service.py:298-323 | an existing Google user must be active; otherwise the email must be unused, and a Google user without a password is created |
| Auth.AuthService.RegisterGoogle | backend/services/auth_service.py:300-312 | a taken email is rejected with nothing written; otherwise exactly one Google user is created |
| Auth.AuthService.ChangePassword | backend/services/auth_service.py:410-433 | user exists, has a password, the old one verifies and the new one has 8 characters, in that order; only the hash and the update stamp change |
| Auth.ChangePasswordKeepsOtherFields | backend/services/auth_service.py:430 | a password change leaves every other field of the record as it was |
| LambdaEvent.RequestOf | market_data/handler.py:196-199 | without `body` the event is the request; a dict body is used as is; a string body is decoded; anything else raises |
| LambdaEvent.DeliveriesAgree | llm_agents/handler.py:233-236 | the event itself, a decoded body and an encoded body give the same request |
| MarketHandler.CandleOf | market_data/handler.py:110-117 | a candle carries exactly its row's fields and no indicators |
| MarketHandler.Candles | market_data/handler.py:99-127 | one candle per fetched row, in row order; none when the fetch failed |
| MarketHandler.GetCandles | market_data/handler.py:106-120 | the loop produces `Candles` |
| MarketHandler.LatestPrice | market_data/handler.py:71-96 | None exactly when there are no rows, otherwise the last row as a candle |
| MarketHandler.WithDefaults | market_data/handler.py:136-139 | the price fields are kept, RSI is 50 and both averages are the close |
| MarketHandler.FillMissing | market_data/handler.py:170-176 | only a candle without indicators gets the defaults |
| MarketHandler.SetDefaults | market_data/handler.py:133-140 | every candle gets the defaults in place |
| MarketHandler.FillDefaults | market_data/handler.py:167-177 | every candle without indicators gets the defaults in place |
| MarketHandler.AddIndicators | market_data/handler.py:130-177 | under fifty candles the defaults are set in place and the same list returned; otherwise the computed list, or the filled-in input when the computation raised |
| MarketHandler.Handle | market_data/handler.py:180-264 | 500 when parsing raises; 400 without a symbol; get_latest 200 or 404; get_candles 200 with its count; get_with_indicators 404 on no candles, else 200 with its count; 400 with the three valid actions otherwise |
| MarketHandler.Indicated | market_data/handler.py:233-243 | the candles reported for a non-empty list: a series under fifty candles keeps its length and order, every candle keeping its price fields and getting RSI 50 and both averages at its close; a longer series gets the computed list, or, when the computation raises, keeps its length and fills only the candles without indicators |
| MarketHandler.FallbackMatchesDefaults | market_data/handler.py:167-177 | fetched candles have no indicators, so the fallback gives the same candles as the short-series defaults |
| ModelRequest.FamilyOf | llm_agents/handler.py:108-109 | Claude exactly for "anthropic.claude" ids, Nova exactly for other "amazon.nova" ids |
| ModelRequest.NovaMessage | llm_agents/handler.py:124-139 | role (default "user") and content, a string being wrapped as one text block and anything else kept |
| ModelRequest.NovaMessages | llm_agents/handler.py:122-139 | the conversion is never longer than its input |
| ModelRequest.NovaNeedsDicts | llm_agents/handler.py:124-126 | the conversion succeeds exactly when every message is a dict |
| ModelRequest.NovaAppend | llm_agents/handler.py:122-139 | the conversion keeps order: a concatenation converts to the concatenation of the parts' conversions, and fails exactly when a part fails; with `NovaSingle` this fixes the output message by message |
| ModelRequest.NovaDropsSystem | llm_agents/handler.py:128-129 | no system message survives, and every converted message has a role |
| ModelRequest.NovaSingle | backend/services/bedrock_client.py:159-177 | one message converts to nothing when it is a system message and to its Nova form otherwise |
| ModelRequest.ConvertNova | backend/services/bedrock_client.py:159-177 | the appending loop produces `NovaMessages` |
| ModelRequest.RequestBody | llm_agents/handler.py:111-156 | the Claude, generic and Nova bodies: their keys, the system prompt's place, and the messages passed or converted |
| ModelRequest.ReplyText | llm_agents/handler.py:173-187 | Claude's first content block's text, `missing` for a generic reply |
| ModelRequest.NovaReplyText | llm_agents/handler.py:184-187 | Nova's first block of `output.message.content`; any missing level gives `missing` |
| ModelRequest.Tokens | backend/services/bedrock_client.py:222-252 | no usage gives an empty map, a generic reply's usage is copied, the others are normalised to two keys |
| ModelRequest.TokensRenamed | backend/services/bedrock_client.py:222-247 | Nova's camel-case counts land under the same keys as Claude's |
| LlmAgents.SystemPromptFor | llm_agents/handler.py:105 | a known agent's prompt, the coach's for any other name |
| LlmAgents.UnknownAgentIsCoach | llm_agents/handler.py:105 | any name outside the four agents is coached |
| LlmAgents.WithContext | llm_agents/handler.py:251-257 | with a truthy context and a non-empty list whose first dict has role "user" and a content, exactly that message's content becomes the context block followed by the old content and the rest is kept; a falsy context or list, or another role, leaves the messages as they are; None exactly where Python raises (first element not a dict, or a user message without content) |
| LlmAgents.ContextOnlyForUser | llm_agents/handler.py:255 | a first message with another role is never given the context |
| LlmAgents.Handle | llm_agents/handler.py:216-281 | 500 when parsing raises; 400 "messages are required" with Bedrock not called; otherwise the body sent and the 200 or 500 reply per Bedrock outcome |
| BedrockClient.MessageList | backend/services/bedrock_client.py:146 | the caller's messages sent as a list of dicts, in order |
| BedrockClient.Request | backend/services/bedrock_client.py:138-194 | the request for a list of message dicts always exists and is a dict |
| BedrockClient.Answer | backend/services/bedrock_client.py:211-261 | the reply text, with the truncation note added exactly once when the stop reason is max_tokens or length |
| BedrockClient.ErrorText | backend/services/bedrock_client.py:134-135 | definition: the bracketed error text for an uninitialised client, a service error with its code, or any other exception; `InvokeReasoner` ensures it is the returned text on failure |
| BedrockClient.GenericReplyIsBody | backend/services/bedrock_client.py:248-250 | a generic reply's text is its whole body, never marked truncated |
| BedrockClient.InvokeReasoner | backend/services/bedrock_client.py:109-301 | failures become "[Bedrock Error: ...]" text instead of raising; one entry is logged, with error None exactly on success, and its length, tokens and metadata |
| LlmLogger.Entry | backend/services/llm_logger.py:59-73 | the response cut to 500 characters (None when empty), its full length, success exactly when error is None, and empty dicts for missing tokens and metadata |
| LlmLogger.Bump | backend/services/llm_logger.py:128-131 | one more for the key, every other count unchanged, so the table's sum grows by one |
| LlmLogger.FoldConsistent | backend/services/llm_logger.py:120-142 | the provider and model tables each sum to the request count, errors never exceed it, and only non-zero durations are kept |
| LlmLogger.Counted | backend/services/llm_logger.py:125-142 | definition: the counters after one decoded entry; `StepConsistent` shows it keeps the tables summing to the request count |
| LlmLogger.Step | backend/services/llm_logger.py:120-142 | definition: one line of the pass (blank lines skipped, the first undecodable line stops the pass); properties in `StepConsistent` and `StepWhenFailed` |
| LlmLogger.Fold | backend/services/llm_logger.py:119-142 | definition: the pass over all lines; properties in `FoldConsistent`, `FailedStays` and `StatsOfWrittenLog` |
| LlmLogger.Report | backend/services/llm_logger.py:144-150 | definition: the returned stats, with the average duration 0 when the pass failed or kept no duration |
| LlmLogger.StepConsistent | backend/services/llm_logger.py:120-142 | one line of the pass keeps both tables summing to the request count and errors at most the requests |
| LlmLogger.StepWhenFailed | backend/services/llm_logger.py:146-148 | after a decoding failure a further line changes nothing |
| LlmLogger.FoldNext | backend/services/llm_logger.py:120-142 | the pass over one more line is one more step of the fold |
| LlmLogger.Written | backend/services/llm_logger.py:82-83 | a log written one entry at a time has one line per entry |
| LlmLogger.TransactionLog.constructor | backend/services/llm_logger.py:33 | a log starts with no file |
| LlmLogger.FailedStays | backend/services/llm_logger.py:118-148 | once a line fails to decode, later lines change nothing |
| LlmLogger.Tally | backend/services/llm_logger.py:121-142 | one line of the pass: blank lines skipped, then the counters as the fold step says |
| LlmLogger.TransactionLog.Log | backend/services/llm_logger.py:36-88 | the entry is built as `Entry` says and appended as one line; a failed write leaves the file as it was |
| LlmLogger.TransactionLog.TransactionStats | backend/services/llm_logger.py:91-150 | the four zeros without a file; otherwise the report of the fold over the lines, the average over kept durations |
| LlmLogger.StatsOfWrittenLog | backend/services/llm_logger.py:36-150 | a log written only by `log_llm_transaction` reads back one request per entry and one error per failed call |
| Ollama.Part | backend/services/ollama_client.py:51-53 | "Role: content" with the role capitalised and the defaults "user" and "" |
| Ollama.PromptParts | backend/services/ollama_client.py:49-55 | the system prompt, one part per message in order and the assistant cue: messages + 2 parts |
| Ollama.ErrorText | backend/services/ollama_client.py:77-79 | the error text starts "[Ollama Error: " with the exception and ends with "]" |
| Ollama.InvokeReasoner | backend/services/ollama_client.py:32-79 | the payload holds the joined prompt, stream off, the temperature and num_predict = max_tokens; the reply's `response` or "", or the error text |
| Ollama.PromptFraming | backend/services/ollama_client.py:55-56 | the prompt opens with the system prompt and a blank line and closes with a blank line and the assistant cue |
| Ollama.EmptyHistoryPrompt | backend/services/ollama_client.py:49-56 | with no history the prompt is the system prompt and the cue |
| Ollama.MissingRoleIsUser | backend/services/ollama_client.py:51-53 | a message without a role is spoken by "User" |
| Config.CorsOriginsList | backend/config.py:47-50 | entry i is `split(',')[i].strip()`: one entry more than there are commas, each comma-free and stripped, and the parts rejoined with ',' give the setting back |
| Config.StripAll | backend/config.py:50 | each entry stripped, in order |
| Config.StripAllClean | backend/config.py:50 | stripping comma-free parts leaves them comma-free and without surrounding whitespace |
| Config.ThreeOrigins | backend/config.py:50 | three trimmed comma-free origins come back exactly as written |
| Config.DefaultCorsOrigins | backend/config.py:42-50 | the default gives the three localhost origins |
| Config.NotBothEnvironments | backend/config.py:125-131 | no environment is both production and development |
| Config.ProductionIgnoresCase | backend/config.py:125-127 | "PROD" is production and not development |
| Config.DefaultsAreDevelopment | backend/config.py:31 | the default environment is development |
| CheckConfig.CredentialIssues | backend/check_config.py:26-32 | an issue for exactly each empty or placeholder AWS credential, the access key first |
| CheckConfig.ConfigWarnings | backend/check_config.py:41-70 | a warning for exactly each of: default JWT secret, alpha_vantage without key, twelvedata without key |
| CheckConfig.Check | backend/check_config.py:14-117 | credentials only raise issues and the JWT and provider keys only warnings; the all-clear exactly when both lists are empty; exit code 1 exactly when there is an issue |
| CheckConfig.CheckDefaults | backend/check_config.py:26-117 | the shipped defaults fail with both credential issues and the JWT warning |
| Text.Capitalize | backend/services/ollama_client.py:53 | first character upper-cased, the rest lower-cased, same length |
| Text.SplitOn | backend/config.py:50 | never empty; properties in `SplitOnCount`, `SplitOnJoin`, `SplitOnFirst` and `SplitOnNoSep` |
| Text.Strip | backend/config.py:50 | definition: `RStrip` of `LStrip`; properties in `StripEnds`, `StripEmpty` and `StripTrimmed` |
| Text.SplitWhitespace | backend/services/auth_service.py:164 | every word is non-empty and free of whitespace; the two- and three-word lemmas fix small cases |
| Text.Contains | backend/app.py:901-902 | definition: `sub in s`; `ContainsAt` and `ContainsWitness` give both directions |
| Text.Join | backend/services/ollama_client.py:56 | definition: `sep.join(parts)`; properties in `JoinEnds` and `SplitOnJoin` |
| Text.LowerStr | backend/config.py:127 | `lower()` keeps the length and lower-cases each character |
| Text.UpperStr | backend/app.py:899 | `upper()` keeps the length and upper-cases each character |
| Text.StripEnds | backend/config.py:50 | `strip()` leaves no whitespace at either end |
| Text.SplitOnCount | backend/config.py:50 | `split(',')` gives one part more than there are commas |
| Text.SplitOnJoin | backend/config.py:50 | joining the parts of `split(',')` with ',' gives the string back |
| Text.StripEmpty | backend/services/llm_logger.py:121 | `strip()` empties a line exactly when it is all whitespace |
| Text.StripTrimmed | backend/config.py:50 | `strip()` leaves a trimmed string as it is |
| Text.SplitWhitespaceTwo | backend/services/auth_service.py:164 | `split()` of two words separated by a space gives the two words |
| Text.SplitWhitespaceThree | backend/services/auth_service.py:164 | `split()` of three words separated by spaces gives the three words |
| Text.SplitWhitespaceCons | backend/services/auth_service.py:164 | `split()` of a word followed by whitespace gives the word and then the words of the rest |
| Text.PyTake | backend/services/local_storage.py:248 | `[:n]` is a prefix of length min(n, len), Python's rule for negative n included |
| Text.LexLeTotal | backend/services/local_storage.py:248 | string order is total |
| Text.LexLeTrans | backend/services/local_storage.py:248 | string order is transitive |

## Left out

- Network and cloud calls are parameters: the DynamoDB tables, Lambda, Bedrock `invoke_model`, yfinance and the Ollama HTTP POST. Their outcomes are modelled as datatypes (`BedrockCall`, `PostOutcome`, `Fetch`), not performed.
- bcrypt hashing and JWT encoding/decoding are the parameters of `Auth.Crypto`. Google's `verify_oauth2_token` is the `GoogleCheck` outcome; its network call and clock skew are not modelled.
- Files are in-memory values: the JSON files of the local store, the log file of the LLM logger and `.env` loading. Directory creation and encodings are not modelled. A failed log write is the `writable` flag.
- Clocks, uuids and the measured duration are parameters. `time.sleep` retries in the price fetch are not modelled.
- Floating point is exact `real` arithmetic. This covers IEEE rounding, `Decimal(str(x))` and `int()` of durations. The `1e-9` divisor floor of the simulator is kept as an exact constant.
- Python `str()`, `json.dumps` and `json.loads` are parameters. Their output text is not modelled.
- Error messages that Python builds at run time (exception texts, `f"{x:.2f}"` amounts) are parameters (`Formats`) or left as None in the 500 replies.
- The indicator arithmetic for fifty or more candles (pandas rolling means and `ewm`) is the `IndicatorMath` parameter. backend/services/market_data.py is not part of this model.
- Text is ASCII: `lower`, `upper`, `capitalize`, `strip` and `split()` follow ASCII rules. Unicode case mapping and Unicode whitespace are not modelled.
- `LlmLogger.TransactionLog.TransactionStats`: decoded log lines are typed records (`ParsedEntry`), so a line that decodes to a value of the wrong shape is counted as a failed line with no counter changed. In Python, such a line stops the pass only after some counters have moved: a JSON line that is not an object has already bumped `total_requests` (line 125) when `entry.get` raises, and `"tokens_used": null` has already bumped the request, provider, model and error counters when `tokens.get` raises (line 137). These partial counts are returned. The model drops them, so `LlmLogger.FoldConsistent` (each table sums to the request count) holds in the model but can fail in Python for such a log.
- `Auth.AuthService.AuthenticateGoogle`: claims whose `sub`, `email` or `name` are not strings are modelled as "Invalid Google token". In Python, some of these could fail differently.
- `LlmAgents.Handle`: the in-place update of `messages[0]['content']` is modelled on values, so the aliasing between the request and the sent body is not captured. A `messages` value that is truthy but not a list is a 500 reply.
- `BedrockClient.InvokeReasoner`: the logged duration is always present. The case where the exception fires before `duration_ms` is set (logged as None) is not modelled.
- `clear_log` of backend/services/llm_logger.py and `health_check` of both stores are not modelled: they only delete a file or report counts.
- `get_trade`, `get_portfolio_trades`, `get_user_portfolios`, `update_user_preferences`, `deactivate_user` and `delete_portfolio` of the DynamoDB service are not modelled. They are single table queries or thin calls to `update_user`/`update_portfolio`, whose expression building is modelled in `DynamoCodec.BuildUpdate`.
- `Auth.CurrentUser`: a validly signed token whose `user_id` is a list or an object makes Python raise `TypeError` (an unhashable key) in the store lookup. The model returns None for it, as it does for any other `user_id` that is not a string.
- `Auth.AuthService`: the service runs over the local JSON store (`LocalStorage.Store`), the default backend when `USE_LOCAL_STORAGE` is "true" (backend/app.py:77). Its use of the DynamoDB user table is not modelled.
- FastAPI routing, HTTP status mapping, CORS middleware, logging and the HTML formatting of the trade-analysis reply are not modelled. Only the logic inside the handlers is.
- backend/services/lambda_client.py, backend/services/lambda_invoker.py, ui/app.py and test_lambdas.py are not part of this model.

## Findings

| source | as written | input that shows it | evidently intended | confidence | as-written member | corrected member |
|---|---|---|---|---|---|---|
| backend/services/dynamodb_service.py:551-610 | `execute_trade` validates only the balance for a buy, so a negative quantity passes. It writes the trade and the new balance, then divides by `new_quantity` at line 602. | holding 5 shares of AAPL, buy -5 at 10 | refuse a non-positive quantity before anything is written | not executed | DynamoLedger.NegativeBuyFailsAfterWrite | DynamoLedger.ExecuteCheckedNeverFailsAfterWrite |

In the example, the buy passes validation because it costs -50. The trade is written and the balance rises by 50. Then the division by zero (5 + -5) raises, and the position list is never updated.

=== FILE: app_views.dfy ===
/** Logic inside the API handlers of backend/app.py: unwrapping an agent Lambda's reply,
    repricing the positions of a stored portfolio, and the legacy portfolio view with its
    valuation and FIFO win/loss statistics. Market prices come from a `latest` function that
    answers None when the quote is missing or its fetch failed. */
module AppViews {
  import opened Wrappers
  import opened Json
  import opened PortfolioSim
  import DynamoLedger

  // ---------------------------------------------------------------------------------------
  // extract_lambda_response

  /** `extract_lambda_response`. `loads` is `json.loads` (None when it raises) and `str` is
      Python's `str()`; None means an exception propagates (a body that does not parse, or is
      not a dict). */
  function ExtractLambdaResponse(result: Value, loads: string -> Option<Value>, str: Value -> string): (r: Option<Value>)
    ensures r.None? ==> result.Dict? && "body" in result.fields
    ensures !result.Dict? ==> r == Some(Str(str(result)))
    ensures result.Dict? && "body" !in result.fields ==>
              r == Some(if "response" in result.fields then result.fields["response"] else Str(str(result)))
  {
    if !result.Dict? then Some(Str(str(result)))
    else if "body" in result.fields then
      var raw := result.fields["body"];
      var body := if raw.Str? then loads(raw.s) else Some(raw);
      if body.None? || !body.value.Dict? then None
      else if "response" in body.value.fields then Some(body.value.fields["response"])
      else Some(Str(str(body.value)))
    else if "response" in result.fields then Some(result.fields["response"])
    else Some(Str(str(result)))
  }

  /** The API Gateway envelope a Lambda returns, `{"statusCode": 200, "body": json.dumps({"response": text})}`,
      unwraps to `text`; so does a body left as a dict, and a bare `{"response": text}`. */
  lemma UnwrapsEnvelope(text: string, payload: string, loads: string -> Option<Value>, str: Value -> string)
    requires loads(payload) == Some(Dict(map["response" := Str(text)]))
    ensures ExtractLambdaResponse(Dict(map["statusCode" := Int(200), "body" := Str(payload)]), loads, str) == Some(Str(text))
    ensures ExtractLambdaResponse(Dict(map["statusCode" := Int(200), "body" := Dict(map["response" := Str(text)])]), loads, str)
              == Some(Str(text))
    ensures ExtractLambdaResponse(Dict(map["response" := Str(text)]), loads, str) == Some(Str(text))
  {
    var env := map["statusCode" := Int(200), "body" := Str(payload)];
    assert "body" in env && env["body"] == Str(payload);
    var env2 := map["statusCode" := Int(200), "body" := Dict(map["response" := Str(text)])];
    assert "body" in env2 && env2["body"] == Dict(map["response" := Str(text)]);
    var direct := map["response" := Str(text)];
    assert "body" !in direct;
  }

  /** A body without `response` is answered with its own text. */
  lemma UnwrapsMissingResponse(fields: map<string, Value>, loads: string -> Option<Value>, str: Value -> string)
    requires "response" !in fields
    ensures ExtractLambdaResponse(Dict(map["body" := Dict(fields)]), loads, str) == Some(Str(str(Dict(fields))))
  {
    var env := map["body" := Dict(fields)];
    assert "body" in env && env["body"] == Dict(fields);
  }

  // ---------------------------------------------------------------------------------------
  // get_portfolio_detail: repricing stored positions

  /** One stored position after a successful quote at `price`. */
  function Repriced(p: DynamoLedger.DPosition, price: real): (r: DynamoLedger.DPosition)
    ensures r.symbol == p.symbol && r.quantity == p.quantity && r.avgCost == p.avgCost
    ensures r.currentPrice == price && r.currentValue == p.quantity * price
    ensures r.unrealizedPnl == p.quantity * (price - p.avgCost)
    ensures p.quantity * p.avgCost > 0.0 ==> r.pnlPercent * (p.quantity * p.avgCost) == r.unrealizedPnl * 100.0
    ensures p.quantity * p.avgCost <= 0.0 ==> r.pnlPercent == 0.0
  {
    var value := p.quantity * price;
    var cost := p.quantity * p.avgCost;
    var pnl := value - cost;
    p.(currentPrice := price, currentValue := value, unrealizedPnl := pnl,
       pnlPercent := if cost > 0.0 then pnl / cost * 100.0 else 0.0)
  }

  /** A position as the loop leaves it: repriced when a quote came back, untouched otherwise. */
  function Refreshed(p: DynamoLedger.DPosition, latest: string -> Option<real>): DynamoLedger.DPosition {
    match latest(p.symbol)
    case Some(price) => Repriced(p, price)
    case None => p
  }

  /** The loop of lines 348-359, which updates each position dict in place. */
  method RefreshPrices(positions: seq<DynamoLedger.DPosition>, latest: string -> Option<real>)
    returns (ps: seq<DynamoLedger.DPosition>)
    ensures |ps| == |positions|
    ensures forall i :: 0 <= i < |ps| ==> ps[i] == Refreshed(positions[i], latest)
  {
    ps := positions;
    var i := 0;
    while i < |ps|
      invariant 0 <= i <= |ps| == |positions|
      invariant forall j :: 0 <= j < i ==> ps[j] == Refreshed(positions[j], latest)
      invariant forall j :: i <= j < |ps| ==> ps[j] == positions[j]
    {
      var quote := latest(ps[i].symbol);
      if quote.Some? {
        ps := ps[i := Repriced(ps[i], quote.value)];
      }
      i := i + 1;
    }
  }

  /** `get_portfolio_detail` after the ownership checks: positions repriced and
      `total_value = current_balance + Σ current_value`. */
  method PortfolioDetail(p: DynamoLedger.DPortfolio, latest: string -> Option<real>) returns (q: DynamoLedger.DPortfolio)
    ensures |q.positions| == |p.positions|
    ensures forall i :: 0 <= i < |q.positions| ==> q.positions[i] == Refreshed(p.positions[i], latest)
    ensures q.totalValue == p.currentBalance + DynamoLedger.SumValues(q.positions)
    ensures q == p.(positions := q.positions, totalValue := q.totalValue)
  {
    var ps := RefreshPrices(p.positions, latest);
    q := p.(positions := ps, totalValue := p.currentBalance + DynamoLedger.SumValues(ps));
  }

  /** Σ quantity × quote, over positions that all have a quote. */
  function MarketValue(ps: seq<DynamoLedger.DPosition>, latest: string -> Option<real>): real
    requires forall i :: 0 <= i < |ps| ==> latest(ps[i].symbol).Some?
  {
    if |ps| == 0 then 0.0 else ps[0].quantity * latest(ps[0].symbol).value + MarketValue(ps[1..], latest)
  }

  /** With every symbol quoted, the detail's total is the cash plus the market value of the
      holdings, whatever values were stored before. */
  lemma {:induction false} RefreshedSum(ps: seq<DynamoLedger.DPosition>, qs: seq<DynamoLedger.DPosition>,
                                        latest: string -> Option<real>)
    requires forall i :: 0 <= i < |ps| ==> latest(ps[i].symbol).Some?
    requires |qs| == |ps| && forall i :: 0 <= i < |qs| ==> qs[i] == Refreshed(ps[i], latest)
    ensures DynamoLedger.SumValues(qs) == MarketValue(ps, latest)
  {
    if |ps| > 0 {
      RefreshedSum(ps[1..], qs[1..], latest);
    }
  }

  // ---------------------------------------------------------------------------------------
  // get_portfolio (legacy view): valuation

  datatype PositionRow = PositionRow(symbol: string, quantity: real, avgPrice: real, currentPrice: real,
                                     value: real, pnl: real, pnlPercent: real)

  /** One row of `positions_data`. The priced branch divides by `avg_price`, so a zero average
      raises inside the try, before the value is added, and the row falls back like a failed
      quote. */
  function Row(pos: Position, latest: string -> Option<real>): (r: PositionRow)
    ensures r.symbol == pos.symbol && r.quantity == pos.quantity && r.avgPrice == pos.avgPrice
    ensures r.value == pos.quantity * r.currentPrice
    ensures r.pnl == (r.currentPrice - pos.avgPrice) * pos.quantity
    ensures pos.avgPrice != 0.0 ==> r.pnlPercent * pos.avgPrice == (r.currentPrice - pos.avgPrice) * 100.0
    ensures latest(pos.symbol).None? || pos.avgPrice == 0.0 ==>
              r.currentPrice == pos.avgPrice && r.pnl == 0.0 && r.pnlPercent == 0.0
    ensures latest(pos.symbol).Some? && pos.avgPrice != 0.0 ==> r.currentPrice == latest(pos.symbol).value
  {
    match latest(pos.symbol)
    case Some(price) =>
      if pos.avgPrice != 0.0 then
        PositionRow(pos.symbol, pos.quantity, pos.avgPrice, price, pos.quantity * price,
                    (price - pos.avgPrice) * pos.quantity, ((price - pos.avgPrice) / pos.avgPrice) * 100.0)
      else
        PositionRow(pos.symbol, pos.quantity, pos.avgPrice, pos.avgPrice, pos.quantity * pos.avgPrice, 0.0, 0.0)
    case None =>
      PositionRow(pos.symbol, pos.quantity, pos.avgPrice, pos.avgPrice, pos.quantity * pos.avgPrice, 0.0, 0.0)
  }

  function Rows(ps: seq<Position>, latest: string -> Option<real>): (r: seq<PositionRow>)
    ensures |r| == |ps|
    ensures forall i :: 0 <= i < |ps| ==> r[i] == Row(ps[i], latest)
  {
    if |ps| == 0 then [] else [Row(ps[0], latest)] + Rows(ps[1..], latest)
  }

  function RowsValue(rows: seq<PositionRow>): real {
    if |rows| == 0 then 0.0 else rows[0].value + RowsValue(rows[1..])
  }

  /** The valuation loop of lines 795-829. */
  method Valuation(s: Snapshot, latest: string -> Option<real>)
    returns (rows: seq<PositionRow>, positionsValue: real, totalValue: real)
    ensures rows == Rows(s.positions, latest)
    ensures positionsValue == RowsValue(rows)
    ensures totalValue == s.cash + positionsValue
  {
    rows := [];
    positionsValue := 0.0;
    var i := 0;
    while i < |s.positions|
      invariant 0 <= i <= |s.positions|
      invariant rows == Rows(s.positions[..i], latest)
      invariant positionsValue == RowsValue(rows)
    {
      var row := Row(s.positions[i], latest);
      RowsValueSnoc(rows, row);
      assert s.positions[..i + 1] == s.positions[..i] + [s.positions[i]];
      RowsAppend(s.positions[..i], [s.positions[i]], latest);
      rows := rows + [row];
      positionsValue := positionsValue + row.value;
      i := i + 1;
    }
    assert s.positions[..i] == s.positions;
    totalValue := s.cash + positionsValue;
  }

  lemma {:induction false} RowsValueSnoc(rows: seq<PositionRow>, row: PositionRow)
    ensures RowsValue(rows + [row]) == RowsValue(rows) + row.value
  {
    if |rows| > 0 {
      assert (rows + [row])[1..] == rows[1..] + [row];
      RowsValueSnoc(rows[1..], row);
    }
  }

  lemma RowsAppend(a: seq<Position>, b: seq<Position>, latest: string -> Option<real>)
    ensures Rows(a + b, latest) == Rows(a, latest) + Rows(b, latest)
  {
  }

  /** When no quote comes back, the positions are worth their cost basis and the view's total
      is cash plus what was paid for the holdings. */
  lemma {:induction false} UnpricedValueIsCostBasis(ps: seq<Position>, latest: string -> Option<real>)
    requires forall i :: 0 <= i < |ps| ==> latest(ps[i].symbol).None?
    ensures RowsValue(Rows(ps, latest)) == CostBasis(ps)
  {
    if |ps| > 0 {
      UnpricedValueIsCostBasis(ps[1..], latest);
      assert Rows(ps, latest)[1..] == Rows(ps[1..], latest);
    }
  }

  // ---------------------------------------------------------------------------------------
  // get_portfolio (legacy view): FIFO win/loss

  /** An unmatched buy in `position_tracker`. */
  datatype Lot = Lot(price: real, quantity: real)

  /** The loop state of lines 838-855; `matched` counts sells that found an open buy. */
  datatype Tally = Tally(open: map<string, seq<Lot>>, winning: nat, losing: nat, totalPnl: real, matched: nat)

  function Min(a: real, b: real): real {
    if a <= b then a else b
  }

  /** The open buys of one symbol, oldest first. */
  function OpenLots(t: Tally, symbol: string): seq<Lot> {
    if symbol in t.open then t.open[symbol] else []
  }

  /** One trade of the history: a buy opens a lot at the back, a sell closes the oldest open lot
      of its symbol and scores its pnl, anything else is ignored. */
  function Step(t: Tally, trade: Trade): Tally {
    if trade.side == "buy" then
      t.(open := t.open[trade.symbol := OpenLots(t, trade.symbol) + [Lot(trade.price, trade.quantity)]])
    else if trade.side == "sell" && |OpenLots(t, trade.symbol)| > 0 then
      var lot := OpenLots(t, trade.symbol)[0];
      var pnl := (trade.price - lot.price) * Min(trade.quantity, lot.quantity);
      Tally(t.open[trade.symbol := OpenLots(t, trade.symbol)[1..]],
            if pnl > 0.0 then t.winning + 1 else t.winning,
            if pnl < 0.0 then t.losing + 1 else t.losing,
            t.totalPnl + pnl, t.matched + 1)
    else t
  }

  function Tallied(history: seq<Trade>): Tally {
    if |history| == 0 then Tally(map[], 0, 0, 0.0, 0)
    else Step(Tallied(history[..|history| - 1]), history[|history| - 1])
  }

  function Sells(history: seq<Trade>): nat {
    if |history| == 0 then 0
    else Sells(history[..|history| - 1]) + (if history[|history| - 1].side == "sell" then 1 else 0)
  }

  /** Wins and losses are scored only on matched sells, so together they never exceed the sells. */
  lemma {:induction false} TallyBounds(history: seq<Trade>)
    ensures Tallied(history).winning + Tallied(history).losing <= Tallied(history).matched
    ensures Tallied(history).matched <= Sells(history) <= |history|
  {
    if |history| > 0 {
      TallyBounds(history[..|history| - 1]);
    }
  }

  /** A sell with no open buy of its symbol changes nothing. */
  lemma UnmatchedSellIgnored(t: Tally, trade: Trade)
    requires trade.side == "sell" && |OpenLots(t, trade.symbol)| == 0
    ensures Step(t, trade) == t
  {
  }

  /** A buy opens a lot behind the open lots of its symbol and scores nothing. */
  lemma BuyOpensAtBack(t: Tally, b: Trade)
    requires b.side == "buy"
    ensures OpenLots(Step(t, b), b.symbol) == OpenLots(t, b.symbol) + [Lot(b.price, b.quantity)]
    ensures forall sym :: sym != b.symbol ==> OpenLots(Step(t, b), sym) == OpenLots(t, sym)
    ensures Step(t, b).(open := t.open) == t
  {
  }

  /** A sell with an open buy of its symbol is scored against the oldest open lot, which leaves
      the book; the later lots of the symbol and every other symbol's lots stay open. */
  lemma SellMatchesOldestBuy(t: Tally, s: Trade)
    requires s.side == "sell" && |OpenLots(t, s.symbol)| > 0
    ensures var lot := OpenLots(t, s.symbol)[0];
            Step(t, s).totalPnl == t.totalPnl + (s.price - lot.price) * Min(s.quantity, lot.quantity)
    ensures OpenLots(Step(t, s), s.symbol) == OpenLots(t, s.symbol)[1..]
    ensures forall sym :: sym != s.symbol ==> OpenLots(Step(t, s), sym) == OpenLots(t, sym)
    ensures Step(t, s).matched == t.matched + 1
  {
  }

  /** For example, two buys then a sell: the sell is scored against the first buy, which then
      leaves the book, and the second buy stays open. */
  lemma FifoExample(b1: Trade, b2: Trade, s: Trade)
    requires b1.side == "buy" && b2.side == "buy" && s.side == "sell"
    requires b1.symbol == b2.symbol == s.symbol
    ensures Tallied([b1, b2, s]).totalPnl == (s.price - b1.price) * Min(s.quantity, b1.quantity)
    ensures OpenLots(Tallied([b1, b2, s]), s.symbol) == [Lot(b2.price, b2.quantity)]
  {
    assert [b1, b2, s][..2] == [b1, b2];
    assert [b1, b2][..1] == [b1];
    assert [b1][..0] == [];
    var t0: seq<Trade> := [];
    assert Tallied(t0) == Tally(map[], 0, 0, 0.0, 0);
    var t1 := Tallied([b1]);
    assert t1 == Step(Tallied(t0), b1);
    assert OpenLots(t1, s.symbol) == [Lot(b1.price, b1.quantity)];
    var t2 := Tallied([b1, b2]);
    assert t2 == Step(t1, b2);
    assert OpenLots(t2, s.symbol) == [Lot(b1.price, b1.quantity), Lot(b2.price, b2.quantity)];
    assert Tallied([b1, b2, s]) == Step(t2, s);
  }

  /** `winning_trades / total_trades * 100`, or 0 with no trades. */
  function WinRate(winning: nat, totalTrades: nat): real {
    if totalTrades > 0 then winning as real / totalTrades as real * 100.0 else 0.0
  }

  lemma WinRateBounds(winning: nat, totalTrades: nat)
    requires winning <= totalTrades
    ensures 0.0 <= WinRate(winning, totalTrades) <= 100.0
  {
    if totalTrades > 0 {
      assert winning as real / totalTrades as real <= 1.0;
    }
  }

  datatype Metrics = Metrics(totalValue: real, cash: real, positionsValue: real, totalPnl: real,
                             totalTrades: nat, winningTrades: nat, losingTrades: nat, winRate: real)

  /** The statistics loop, which appends to and pops from the per-symbol lists of
      `position_tracker` and bumps its counters. */
  method TradeStatistics(history: seq<Trade>) returns (winning: nat, losing: nat, totalPnl: real)
    ensures winning == Tallied(history).winning && losing == Tallied(history).losing
    ensures totalPnl == Tallied(history).totalPnl
    ensures winning + losing <= Sells(history)
  {
    var tracker: map<string, seq<Lot>> := map[];
    winning, losing, totalPnl := 0, 0, 0.0;
    ghost var matched := 0;
    var i := 0;
    while i < |history|
      invariant 0 <= i <= |history|
      invariant Tally(tracker, winning, losing, totalPnl, matched) == Tallied(history[..i])
    {
      var trade := history[i];
      assert history[..i + 1][..i] == history[..i];
      if trade.side == "buy" {
        if trade.symbol !in tracker {
          tracker := tracker[trade.symbol := []];
        }
        tracker := tracker[trade.symbol := tracker[trade.symbol] + [Lot(trade.price, trade.quantity)]];
      } else if trade.side == "sell" {
        if trade.symbol in tracker && |tracker[trade.symbol]| > 0 {
          var lot := tracker[trade.symbol][0];
          tracker := tracker[trade.symbol := tracker[trade.symbol][1..]];
          var pnl := (trade.price - lot.price) * Min(trade.quantity, lot.quantity);
          totalPnl := totalPnl + pnl;
          if pnl > 0.0 {
            winning := winning + 1;
          } else if pnl < 0.0 {
            losing := losing + 1;
          }
          matched := matched + 1;
        }
      }
      i := i + 1;
    }
    assert history[..i] == history;
    TallyBounds(history);
  }

  /** `get_portfolio`'s metrics for a stored state. */
  method PortfolioMetrics(s: Snapshot, latest: string -> Option<real>) returns (rows: seq<PositionRow>, m: Metrics)
    ensures rows == Rows(s.positions, latest)
    ensures m.cash == s.cash && m.positionsValue == RowsValue(rows) && m.totalValue == s.cash + m.positionsValue
    ensures m.totalTrades == |s.history|
    ensures m.winningTrades == Tallied(s.history).winning && m.losingTrades == Tallied(s.history).losing
    ensures m.totalPnl == Tallied(s.history).totalPnl
    ensures m.winningTrades + m.losingTrades <= Sells(s.history) <= m.totalTrades
    ensures m.winRate == WinRate(m.winningTrades, m.totalTrades) && 0.0 <= m.winRate <= 100.0
  {
    var positionsValue, totalValue;
    rows, positionsValue, totalValue := Valuation(s, latest);
    var winning, losing, totalPnl := TradeStatistics(s.history);
    TallyBounds(s.history);
    WinRateBounds(winning, |s.history|);
    m := Metrics(totalValue, s.cash, positionsValue, totalPnl, |s.history|, winning, losing,
                 WinRate(winning, |s.history|));
  }
}

=== FILE: auth.dfy ===
/** `AuthService` (backend/services/auth_service.py): bearer-header parsing and the ordered
    checks of registration, login, Google sign-in, token validation and password change, over
    the user store. bcrypt, JWT and Google's token verification are opaque: a password hash
    arrives as an argument (bcrypt salts it at random), and `Crypto` holds the deterministic
    pieces as functions. */
module Auth {
  import opened Wrappers
  import opened Json
  import opened Text
  import opened LocalStorage

  /** `verify_password`, `create_access_token` (its clock folded in) and `decode_token`. */
  datatype Crypto = Crypto(
    verify: (string, string) -> bool,
    issue: (Value, Value) -> string,
    decode: string -> Option<map<string, Value>>)

  /** The `(user, token)` pair the sign-in operations return. */
  datatype Session = Session(user: UserRecord, token: string)

  /** What `id_token.verify_oauth2_token` did: returned claims, raised a ValueError, or raised
      anything else. */
  datatype GoogleCheck = Verified(claims: map<string, Value>) | VerifyValueError(msg: string) | VerifyFailed

  const OAuthOnlyMessage := "This account uses OAuth authentication. Please login with Google."

  /** `user.get('is_active', True)` is truthy. */
  predicate IsActive(user: UserRecord) {
    "is_active" !in user || Truthy(user["is_active"])
  }

  /** `user.get('password_hash')` is truthy. */
  predicate HasPassword(user: UserRecord) {
    "password_hash" in user && Truthy(user["password_hash"])
  }

  /** `verify_password(password, hash)`: a hash that is not a string fails inside the try and
      counts as a mismatch. */
  predicate PasswordMatches(crypto: Crypto, password: string, hash: Value) {
    hash.Str? && crypto.verify(password, hash.s)
  }

  /** The token for a stored record. */
  function TokenFor(crypto: Crypto, user: UserRecord): string
    requires Identified(user)
  {
    crypto.issue(user["user_id"], user["email"])
  }

  /** `extract_token_from_header` */
  function ExtractToken(authorization: Option<string>): (r: Option<string>)
    ensures r.Some? ==> authorization.Some? && |r.value| > 0 && NoSpace(r.value)
    ensures authorization.None? || authorization == Some("") ==> r.None?
  {
    if authorization.None? || authorization.value == "" then None
    else
      var parts := SplitWhitespace(authorization.value);
      if |parts| != 2 || LowerStr(parts[0]) != "bearer" then None
      else Some(parts[1])
  }

  /** "Bearer <token>", in any letter case of the scheme, yields the token. */
  lemma ExtractBearer(scheme: string, token: string)
    requires |scheme| > 0 && NoSpace(scheme) && LowerStr(scheme) == "bearer"
    requires |token| > 0 && NoSpace(token)
    ensures ExtractToken(Some(scheme + " " + token)) == Some(token)
  {
    SplitWhitespaceTwo(scheme, token);
  }

  /** Any other scheme, a lone word, or a third word after the token yields nothing. */
  lemma ExtractRejects(scheme: string, token: string, extra: string)
    requires |scheme| > 0 && NoSpace(scheme) && LowerStr(scheme) != "bearer"
    requires |token| > 0 && NoSpace(token)
    requires |extra| > 0 && NoSpace(extra)
    ensures ExtractToken(Some(scheme + " " + token)).None?
    ensures ExtractToken(Some(token)).None?
    ensures ExtractToken(Some("Bearer " + token + " " + extra)).None?
  {
    SplitWhitespaceTwo(scheme, token);
    SplitWhitespaceWord(token);
    assert "Bearer " + token + " " + extra == "Bearer" + " " + token + " " + extra;
    SplitWhitespaceThree("Bearer", token, extra);
  }

  /** The name `register_user` stores when none is given: the email up to its first '@'. */
  function DefaultDisplayName(email: string): (r: string)
    ensures '@' !in r
    ensures r <= email
    ensures |r| == |email| || email[|r|] == '@'
  {
    SplitOnPartsFree(email, '@');
    SplitOnJoin(email, '@');
    var parts := SplitOn(email, '@');
    if |parts| >= 2 then
      JoinEnds(parts, "@");
      parts[0]
    else
      parts[0]
  }

  /** The header carries a bearer token that decodes to a payload whose `user_id` is the
      non-empty string `id`. */
  predicate NamesUser(crypto: Crypto, authorization: Option<string>, id: string) {
    && ExtractToken(authorization).Some?
    && crypto.decode(ExtractToken(authorization).value).Some?
    && var payload := crypto.decode(ExtractToken(authorization).value).value;
       "user_id" in payload && payload["user_id"] == Str(id) && id != ""
  }

  /** `get_current_user` on a store: a user only when the header carries a bearer token that
      decodes to a payload with a truthy `user_id` naming a stored, active user. A missing
      header, a token that does not decode, and a missing, empty or non-string `user_id` all
      give None. */
  function CurrentUser(crypto: Crypto, users: map<string, UserRecord>, authorization: Option<string>): (r: Option<UserRecord>)
    ensures r.Some? ==> IsActive(r.value) && r.value in users.Values
    ensures forall id :: NamesUser(crypto, authorization, id) && id in users ==>
              r == (if IsActive(users[id]) then Some(users[id]) else None)
    ensures r.Some? ==> exists id :: NamesUser(crypto, authorization, id) && id in users && r.value == users[id]
  {
    match ExtractToken(authorization)
    case None => None
    case Some(token) =>
      match crypto.decode(token)
      case None => None
      case Some(payload) =>
        if "user_id" !in payload || !Truthy(payload["user_id"]) then None
        else if !payload["user_id"].Str? || payload["user_id"].s !in users then None
        else
          var user := users[payload["user_id"].s];
          if !IsActive(user) then None else Some(user)
  }

  /** A bearer token whose payload names an active user authenticates exactly that user; an
      inactive one authenticates nobody. */
  lemma CurrentUserByToken(crypto: Crypto, users: map<string, UserRecord>, token: string, id: string)
    requires |token| > 0 && NoSpace(token)
    requires id in users
    requires crypto.decode(token).Some? && "user_id" in crypto.decode(token).value
    requires crypto.decode(token).value["user_id"] == Str(id) && id != ""
    ensures IsActive(users[id]) ==> CurrentUser(crypto, users, Some("Bearer " + token)) == Some(users[id])
    ensures !IsActive(users[id]) ==> CurrentUser(crypto, users, Some("Bearer " + token)).None?
  {
    assert LowerStr("Bearer") == "bearer";
    ExtractBearer("Bearer", token);
    assert "Bearer" + " " + token == "Bearer " + token;
    assert Truthy(Str(id));
  }

  /** `require_auth` */
  function RequireAuth(crypto: Crypto, users: map<string, UserRecord>, authorization: Option<string>): (r: Result<UserRecord>)
    ensures r.Err? <==> CurrentUser(crypto, users, authorization).None?
    ensures r.Err? ==> r.msg == "Authentication required"
    ensures r.Ok? ==> IsActive(r.value) && r.value in users.Values
  {
    match CurrentUser(crypto, users, authorization)
    case None => Err("Authentication required")
    case Some(user) => Ok(user)
  }

  /** The email `register_user` accepts: non-empty and containing '@'. */
  predicate PlausibleEmail(email: string) {
    email != "" && '@' in email
  }

  /** Some stored user has this email. */
  predicate EmailTaken(users: map<string, UserRecord>, email: string) {
    exists id :: id in users && HasEmail(users[id], email)
  }

  /** The result of a Google sign-in with readable claims, given the store before (`ids`,
      `users`), the users after, and whether the store was left untouched. */
  predicate GoogleOutcome(ids: seq<string>, users: map<string, UserRecord>, usersAfter: map<string, UserRecord>,
                          untouched: bool, claims: map<string, Value>, userId: string, now: string,
                          r: Result<Session>, crypto: Crypto)
    requires WellFormedClaims(claims)
    requires forall id :: id in ids ==> id in users
  {
    var sub := claims["sub"].s;
    var email := claims["email"].s;
    var linked := UserByOauth(ids, users, "google", sub);
    && (linked.Some? && !IsActive(linked.value) ==> r == Err("Account is deactivated") && untouched)
    && (linked.Some? && IsActive(linked.value) ==>
          Identified(linked.value) && r == Ok(Session(linked.value, TokenFor(crypto, linked.value))) && untouched)
    && (linked.None? && UserByEmail(ids, users, email).Some? ==>
          r == Err("Email already registered with password authentication") && untouched)
    && (linked.None? && UserByEmail(ids, users, email).None? ==>
          && r.Ok?
          && r.value.user == NewUser(userId, email, GoogleName(claims), None, Some("google"), Some(sub), now)
          && r.value.token == crypto.issue(Str(userId), Str(email))
          && usersAfter == users[userId := r.value.user])
  }

  class AuthService {
    const db: Store
    const crypto: Crypto

    constructor (db: Store, crypto: Crypto)
      ensures this.db == db && this.crypto == crypto
    {
      this.db := db;
      this.crypto := crypto;
    }

    /** `register_user`: email, then password length, then uniqueness, all before any write;
        `passwordHash` is the bcrypt hash of `password`, `userId` the new uuid. */
    method RegisterUser(email: string, password: string, displayName: Option<string>,
                        passwordHash: string, userId: string, now: string)
      returns (r: Result<Session>)
      requires db.Valid()
      modifies db
      ensures db.Valid()
      ensures !PlausibleEmail(email) ==> r == Err("Invalid email address")
      ensures PlausibleEmail(email) && |password| < 8 ==> r == Err("Password must be at least 8 characters")
      ensures PlausibleEmail(email) && |password| >= 8 && EmailTaken(old(db.users), email) ==>
                r == Err("Email already registered")
      ensures r.Err? ==> unchanged(db)
      ensures r.Ok? <==> PlausibleEmail(email) && |password| >= 8 && !EmailTaken(old(db.users), email)
      ensures r.Ok? ==>
        var name := if displayName.None? || displayName.value == "" then DefaultDisplayName(email) else displayName.value;
        && r.value.user == NewUser(userId, email, name, Some(passwordHash), None, None, now)
        && r.value.token == crypto.issue(Str(userId), Str(email))
        && db.users == old(db.users)[userId := r.value.user]
        && db.userIds == InsertKey(old(db.userIds), userId)
      ensures db.portfolios == old(db.portfolios) && db.trades == old(db.trades)
    {
      if email == "" || '@' !in email {
        return Err("Invalid email address");
      }
      if password == "" || |password| < 8 {
        return Err("Password must be at least 8 characters");
      }
      var existing := db.GetUserByEmail(email);
      if existing.Some? {
        return Err("Email already registered");
      }
      var name := if displayName.None? || displayName.value == "" then DefaultDisplayName(email) else displayName.value;
      var user := db.CreateUser(email, name, Some(passwordHash), None, None, userId, now);
      r := Ok(Session(user, TokenFor(crypto, user)));
    }

    /** `login_user`: unknown email, deactivated account, OAuth-only account and wrong password
        are rejected in that order; only then is a token issued. */
    method LoginUser(email: string, password: string) returns (r: Result<Session>)
      requires db.Valid()
      ensures var found := UserByEmail(db.userIds, db.users, email);
        && (found.None? ==> r == Err("Invalid email or password"))
        && (found.Some? && !IsActive(found.value) ==> r == Err("Account is deactivated"))
        && (found.Some? && IsActive(found.value) && !HasPassword(found.value) ==> r == Err(OAuthOnlyMessage))
        && ((found.Some? && IsActive(found.value) && HasPassword(found.value)
             && !PasswordMatches(crypto, password, found.value["password_hash"])) ==> r == Err("Invalid email or password"))
        && (r.Ok? <==> found.Some? && IsActive(found.value) && HasPassword(found.value)
                       && PasswordMatches(crypto, password, found.value["password_hash"]))
      ensures r.Ok? ==> r.value.user in db.users.Values && HasEmail(r.value.user, email)
                        && r.value.token == crypto.issue(r.value.user["user_id"], r.value.user["email"])
    {
      var found := db.GetUserByEmail(email);
      if found.None? {
        return Err("Invalid email or password");
      }
      var user := found.value;
      assert user in db.users.Values by {
        var i :| 0 <= i < |db.userIds| && db.users[db.userIds[i]] == user;
      }
      if !IsActive(user) {
        return Err("Account is deactivated");
      }
      if !HasPassword(user) {
        return Err(OAuthOnlyMessage);
      }
      if !PasswordMatches(crypto, password, user["password_hash"]) {
        return Err("Invalid email or password");
      }
      r := Ok(Session(user, TokenFor(crypto, user)));
    }

    /** `authenticate_google` after the token check: a verification ValueError passes
        through; every other verification failure, and claims it cannot read, become
        "Invalid Google token"; readable claims sign in as `SignInGoogle` says. */
    method AuthenticateGoogle(check: GoogleCheck, userId: string, now: string) returns (r: Result<Session>)
      requires db.Valid()
      modifies db
      ensures db.Valid()
      ensures check.VerifyValueError? ==> r == Err(check.msg) && unchanged(db)
      ensures check.VerifyFailed? ==> r == Err("Invalid Google token") && unchanged(db)
      ensures check.Verified? && !WellFormedClaims(check.claims) ==> r == Err("Invalid Google token") && unchanged(db)
      ensures check.Verified? && WellFormedClaims(check.claims) ==>
        GoogleOutcome(old(db.userIds), old(db.users), db.users, unchanged(db), check.claims, userId, now, r, crypto)
      ensures db.portfolios == old(db.portfolios) && db.trades == old(db.trades)
    {
      match check {
        case VerifyValueError(msg) =>
          return Err(msg);
        case VerifyFailed =>
          return Err("Invalid Google token");
        case Verified(claims) =>
          if !WellFormedClaims(claims) {
            return Err("Invalid Google token");
          }
          r := SignInGoogle(claims, userId, now);
      }
    }

    /** The sign-in with readable claims: an existing Google user must be active; otherwise
        the email must be unused, and a Google user is created. */
    method SignInGoogle(claims: map<string, Value>, userId: string, now: string) returns (r: Result<Session>)
      requires db.Valid() && WellFormedClaims(claims)
      modifies db
      ensures db.Valid()
      ensures GoogleOutcome(old(db.userIds), old(db.users), db.users, unchanged(db), claims, userId, now, r, crypto)
      ensures db.portfolios == old(db.portfolios) && db.trades == old(db.trades)
    {
      var sub := claims["sub"].s;
      var user := db.GetUserByOauth("google", sub);
      if user.None? {
        r := RegisterGoogle(claims, userId, now);
        return;
      }
      var existing := user.value;
      assert Identified(existing) by {
        var i :| 0 <= i < |db.userIds| && db.users[db.userIds[i]] == existing;
      }
      if !IsActive(existing) {
        return Err("Account is deactivated");
      }
      return Ok(Session(existing, TokenFor(crypto, existing)));
    }

    /** A first Google sign-in: the email must not belong to a stored user; then a Google
        user without a password is created. */
    method RegisterGoogle(claims: map<string, Value>, userId: string, now: string) returns (r: Result<Session>)
      requires db.Valid() && WellFormedClaims(claims)
      modifies db
      ensures db.Valid()
      ensures var email := claims["email"].s;
        && (UserByEmail(old(db.userIds), old(db.users), email).Some? ==>
              r == Err("Email already registered with password authentication") && unchanged(db))
        && (UserByEmail(old(db.userIds), old(db.users), email).None? ==>
              && r.Ok?
              && r.value.user == NewUser(userId, email, GoogleName(claims), None, Some("google"), Some(claims["sub"].s), now)
              && r.value.token == crypto.issue(Str(userId), Str(email))
              && db.users == old(db.users)[userId := r.value.user])
      ensures db.portfolios == old(db.portfolios) && db.trades == old(db.trades)
    {
      var email := claims["email"].s;
      var byEmail := db.GetUserByEmail(email);
      if byEmail.Some? {
        return Err("Email already registered with password authentication");
      }
      var created := db.CreateUser(email, GoogleName(claims), None, Some("google"), Some(claims["sub"].s), userId, now);
      return Ok(Session(created, TokenFor(crypto, created)));
    }

    /** `change_password`: the user must exist, have a password, know the current one, and
        choose a new one of at least 8 characters; then only the hash (and the store's
        `updated_at` stamp) changes. `newHash` is the bcrypt hash of `newPassword`. */
    method ChangePassword(userId: string, oldPassword: string, newPassword: string, newHash: string, now: string)
      returns (r: Result<bool>)
      requires db.Valid()
      modifies db
      ensures db.Valid()
      ensures userId !in old(db.users) ==> r == Err("User not found")
      ensures userId in old(db.users) ==>
        var user := old(db.users)[userId];
        && (!HasPassword(user) ==> r == Err("Cannot change password for OAuth users"))
        && (HasPassword(user) && !PasswordMatches(crypto, oldPassword, user["password_hash"]) ==>
              r == Err("Current password is incorrect"))
        && (HasPassword(user) && PasswordMatches(crypto, oldPassword, user["password_hash"]) && |newPassword| < 8 ==>
              r == Err("New password must be at least 8 characters"))
        && (r.Ok? <==> HasPassword(user) && PasswordMatches(crypto, oldPassword, user["password_hash"]) && |newPassword| >= 8)
        && (r.Ok? ==> r.value && db.users == old(db.users)[userId := user["password_hash" := Str(newHash)]["updated_at" := Str(now)]])
      ensures r.Err? ==> unchanged(db)
      ensures db.userIds == old(db.userIds) && db.portfolios == old(db.portfolios) && db.trades == old(db.trades)
    {
      var found := db.GetUserById(userId);
      if found.None? {
        return Err("User not found");
      }
      var user := found.value;
      if !HasPassword(user) {
        return Err("Cannot change password for OAuth users");
      }
      if !PasswordMatches(crypto, oldPassword, user["password_hash"]) {
        return Err("Current password is incorrect");
      }
      if |newPassword| < 8 {
        return Err("New password must be at least 8 characters");
      }
      var _ := db.UpdateUser(userId, map["password_hash" := Str(newHash)], now);
      assert user + map["password_hash" := Str(newHash)] == user["password_hash" := Str(newHash)];
      r := Ok(true);
    }
  }

  /** Claims `authenticate_google` can read: string `sub` and `email`, and a string `name` when
      present. */
  predicate WellFormedClaims(claims: map<string, Value>) {
    && "sub" in claims && claims["sub"].Str?
    && "email" in claims && claims["email"].Str?
    && ("name" in claims ==> claims["name"].Str?)
  }

  /** `idinfo.get('name', email.split('@')[0])` */
  function GoogleName(claims: map<string, Value>): string
    requires WellFormedClaims(claims)
  {
    if "name" in claims then claims["name"].s else DefaultDisplayName(claims["email"].s)
  }

  /** A password change leaves every other field of the record as it was. */
  lemma ChangePasswordKeepsOtherFields(user: UserRecord, newHash: string, now: string, key: string)
    requires key != "password_hash" && key != "updated_at"
    ensures key in user <==> key in user["password_hash" := Str(newHash)]["updated_at" := Str(now)]
    ensures key in user ==> user["password_hash" := Str(newHash)]["updated_at" := Str(now)][key] == user[key]
  {
  }
}

=== FILE: bedrock_client.dfy ===
/** `invoke_reasoner` of backend/services/bedrock_client.py: shape the request for the
    configured model, read the reply, mark truncated replies, turn every failure into an
    error string instead of raising, and log exactly one transaction per call. The Bedrock
    runtime, the clock and JSON encoding are parameters. */
module BedrockClient {
  import opened Wrappers
  import opened Json
  import opened ModelRequest
  import opened LlmLogger

  const SystemPrompt :=
    "You are JBAC's AI Trading Coach. Provide clear, concise responses in plain text.\n\n"
    + "CRITICAL FORMATTING RULES:\n"
    + "1. DO NOT repeat the user's question\n"
    + "2. DO NOT use markdown formatting (no **, ##, -, *, etc.)\n"
    + "3. Write in plain paragraphs with natural line breaks\n"
    + "4. Start directly with your answer\n"
    + "5. Be concise - keep responses under 300 words unless analysis requires more\n\n"
    + "CONTENT GUIDELINES:\n"
    + "- Teach trading concepts safely and clearly\n"
    + "- Explain indicators (RSI, EMA, MACD) when relevant\n"
    + "- Provide actionable, risk-aware feedback\n"
    + "- Never give financial advice - only educational guidance\n"
    + "- Focus on paper trading and learning\n\n"
    + "RESPONSE STRUCTURE:\n"
    + "- Decision first (BUY/SELL/HOLD/WAIT)\n"
    + "- Key reasoning (2-3 sentences)\n"
    + "- Supporting details if needed\n"
    + "- Risk considerations\n"
    + "- Next steps for the user"

  const TruncationNote := "\n\n[Note: Response was truncated. The analysis may be incomplete.]"
  const NotInitialised := "Bedrock client not initialized. Check AWS credentials."

  /** The caller's messages as the list of dicts that is sent. */
  function MessageList(messages: seq<map<string, Value>>): (v: Value)
    ensures v.List? && |v.items| == |messages|
    ensures forall k :: 0 <= k < |messages| ==> v.items[k] == Dict(messages[k])
  {
    List(seq(|messages|, k requires 0 <= k < |messages| => Dict(messages[k])))
  }

  /** The request body for the configured model; a list of dicts always converts. */
  function Request(modelId: string, messages: seq<map<string, Value>>, maxTokens: int, temperature: real): (v: Value)
    ensures v.Dict?
  {
    var list := MessageList(messages);
    NovaNeedsDicts(list.items);
    RequestBody(FamilyOf(modelId), SystemPrompt, list, Int(maxTokens), Flt(temperature)).value
  }

  /** The reply text: the family's text (the whole body's `str()` when it is missing), with the
      truncation note added once when the model stopped at its token limit. */
  function Answer(family: Family, reply: ModelReply): (text: string)
    ensures Truncated(StopReason(family, reply)) ==>
              text == ReplyText(family, reply, reply.repr) + TruncationNote
    ensures !Truncated(StopReason(family, reply)) ==> text == ReplyText(family, reply, reply.repr)
  {
    var text := ReplyText(family, reply, reply.repr);
    if Truncated(StopReason(family, reply)) then text + TruncationNote else text
  }

  /** The text of a failed call. */
  function ErrorText(call: BedrockCall, ready: bool): (text: string)
    requires !(ready && call.Responded?)
  {
    if !ready then "[Bedrock Error: " + NotInitialised + "]"
    else match call
      case ClientFailure(code, message) => "[Bedrock Error: " + code + " - " + message + "]"
      case Raised(message) => "[Bedrock Error: " + message + "]"
  }

  /** A generic model's stop reason is never read, so its reply text is always the whole
      decoded body, without a truncation note. */
  lemma GenericReplyIsBody(reply: ModelReply)
    ensures Answer(Generic, reply) == reply.repr
  {
  }

  /** `invoke_reasoner`. */
  method InvokeReasoner(log: TransactionLog, messages: seq<map<string, Value>>, maxTokens: int, temperature: real,
                        modelId: string, region: string, ready: bool, invoke: (string, Value) -> BedrockCall,
                        elapsedMs: int, now: string, dumps: LogEntry -> string, writable: bool)
    returns (text: string, entry: LogEntry)
    modifies log
    ensures var call := invoke(modelId, Request(modelId, messages, maxTokens, temperature));
            var family := FamilyOf(modelId);
            && (ready && call.Responded? ==>
                  text == Answer(family, call.reply) && entry.error == None
                  && entry.tokensUsed == Tokens(family, call.reply))
            && (!(ready && call.Responded?) ==>
                  text == ErrorText(call, ready) && entry.tokensUsed == map[]
                  && entry.error == Some(if !ready then NotInitialised else call.message))
    ensures entry.success <==> entry.error.None?
    ensures entry.provider == "bedrock" && entry.model == modelId && entry.durationMs == Some(elapsedMs)
    ensures entry.responseLength == |text|
    ensures entry.metadata == map["max_tokens" := Int(maxTokens), "temperature" := Flt(temperature), "region" := Str(region)]
    ensures writable ==> log.lines == Some(old(log.lines).GetOr([]) + [dumps(entry)])
    ensures !writable ==> log.lines == old(log.lines)
  {
    var tokens: map<string, int> := map[];
    var error: Option<string> := None;
    var family := FamilyOf(modelId);
    if !ready {
      error := Some(NotInitialised);
      text := "[Bedrock Error: " + NotInitialised + "]";
    } else {
      match invoke(modelId, Request(modelId, messages, maxTokens, temperature))
      case Responded(reply) =>
        text := ReplyText(family, reply, reply.repr);
        tokens := Tokens(family, reply);
        if Truncated(StopReason(family, reply)) {
          text := text + TruncationNote;
        }
      case ClientFailure(code, message) =>
        error := Some(message);
        text := "[Bedrock Error: " + code + " - " + message + "]";
      case Raised(message) =>
        error := Some(message);
        text := "[Bedrock Error: " + message + "]";
    }
    var metadata := map["max_tokens" := Int(maxTokens), "temperature" := Flt(temperature), "region" := Str(region)];
    entry := log.Log("bedrock", modelId, MessageList(messages), text,
                     if |tokens| > 0 then Some(tokens) else None,
                     Some(elapsedMs), error, Some(metadata), now, dumps, writable);
  }
}

=== FILE: check_config.dfy ===
/** The issue/warning classification of backend/check_config.py. Printing is not modelled; the
    script's outcome is the two message lists, whether the all-clear is shown, and the exit
    code. */
module CheckConfig {
  import opened Config

  const AccessKeyIssue := "\U{274C} AWS_ACCESS_KEY_ID is not set or using placeholder value"
  const SecretKeyIssue := "\U{274C} AWS_SECRET_ACCESS_KEY is not set or using placeholder value"
  const JwtWarning := "\U{26A0}\U{FE0F}  JWT_SECRET is using default insecure value"
  const AlphaVantageWarning := "\U{26A0}\U{FE0F}  Using alpha_vantage provider but ALPHA_VANTAGE_KEY not set"
  const TwelvedataWarning := "\U{26A0}\U{FE0F}  Using twelvedata provider but TWELVEDATA_KEY not set"

  /** A credential that is empty or still the value shipped in the example environment file. */
  predicate Unset(value: string, placeholder: string) {
    value == "" || value == placeholder
  }

  predicate AccessKeyMissing(s: Settings) {
    Unset(s.awsAccessKeyId, "your-aws-access-key-id")
  }

  predicate SecretKeyMissing(s: Settings) {
    Unset(s.awsSecretAccessKey, "your-aws-secret-access-key")
  }

  predicate JwtInsecure(s: Settings) {
    Unset(s.jwtSecret, DefaultJwtSecret)
  }

  predicate AlphaVantageKeyMissing(s: Settings) {
    (s.marketDataProvider == "alpha_vantage" || s.marketDataProvider == "alpha-vantage")
    && s.alphaVantageKey == ""
  }

  predicate TwelvedataKeyMissing(s: Settings) {
    s.marketDataProvider == "twelvedata" && s.twelvedataKey == ""
  }

  /** The five messages are pairwise different (they differ in length). */
  lemma MessagesDistinct()
    ensures AccessKeyIssue != SecretKeyIssue
    ensures JwtWarning != AlphaVantageWarning && JwtWarning != TwelvedataWarning
    ensures AlphaVantageWarning != TwelvedataWarning
  {
    assert |AccessKeyIssue| == 57 && |SecretKeyIssue| == 61;
    assert |JwtWarning| == 46 && |AlphaVantageWarning| == 62 && |TwelvedataWarning| == 56;
  }

  /** The script's verdict. */
  datatype Report = Report(issues: seq<string>, warnings: seq<string>, allClear: bool, exitCode: int)

  /** The AWS credential checks of `check_config`: an issue per missing credential, the access
      key first. */
  method CredentialIssues(s: Settings) returns (issues: seq<string>)
    ensures AccessKeyIssue in issues <==> AccessKeyMissing(s)
    ensures SecretKeyIssue in issues <==> SecretKeyMissing(s)
    ensures |issues| == (if AccessKeyMissing(s) then 1 else 0) + (if SecretKeyMissing(s) then 1 else 0)
    ensures AccessKeyMissing(s) ==> issues[0] == AccessKeyIssue
  {
    MessagesDistinct();
    issues := [];
    if s.awsAccessKeyId == "" || s.awsAccessKeyId == "your-aws-access-key-id" {
      issues := issues + [AccessKeyIssue];
    }
    if s.awsSecretAccessKey == "" || s.awsSecretAccessKey == "your-aws-secret-access-key" {
      issues := issues + [SecretKeyIssue];
    }
  }

  /** The warning checks of `check_config`: the JWT secret first, then the key of the
      configured market-data provider. */
  method ConfigWarnings(s: Settings) returns (warnings: seq<string>)
    ensures JwtWarning in warnings <==> JwtInsecure(s)
    ensures AlphaVantageWarning in warnings <==> AlphaVantageKeyMissing(s)
    ensures TwelvedataWarning in warnings <==> TwelvedataKeyMissing(s)
    ensures |warnings| == (if JwtInsecure(s) then 1 else 0) + (if AlphaVantageKeyMissing(s) then 1 else 0)
                          + (if TwelvedataKeyMissing(s) then 1 else 0)
    ensures JwtInsecure(s) ==> warnings[0] == JwtWarning
  {
    MessagesDistinct();
    warnings := [];
    if s.jwtSecret == "" || s.jwtSecret == "your-secret-key-change-this-in-production" {
      warnings := warnings + [JwtWarning];
    }
    if s.marketDataProvider == "alpha_vantage" || s.marketDataProvider == "alpha-vantage" {
      if s.alphaVantageKey == "" {
        warnings := warnings + [AlphaVantageWarning];
      }
    }
    if s.marketDataProvider == "twelvedata" {
      if s.twelvedataKey == "" {
        warnings := warnings + [TwelvedataWarning];
      }
    }
  }

  /** `check_config`: the AWS credential checks can only raise issues; the JWT secret and the
      market-data keys can only raise warnings. The all-clear is shown when neither list has an
      entry, and the exit code is 1 exactly when there is an issue. */
  method Check(s: Settings) returns (r: Report)
    ensures AccessKeyIssue in r.issues <==> AccessKeyMissing(s)
    ensures SecretKeyIssue in r.issues <==> SecretKeyMissing(s)
    ensures |r.issues| == (if AccessKeyMissing(s) then 1 else 0) + (if SecretKeyMissing(s) then 1 else 0)
    ensures AccessKeyMissing(s) ==> r.issues[0] == AccessKeyIssue
    ensures JwtWarning in r.warnings <==> JwtInsecure(s)
    ensures AlphaVantageWarning in r.warnings <==> AlphaVantageKeyMissing(s)
    ensures TwelvedataWarning in r.warnings <==> TwelvedataKeyMissing(s)
    ensures |r.warnings| == (if JwtInsecure(s) then 1 else 0) + (if AlphaVantageKeyMissing(s) then 1 else 0)
                            + (if TwelvedataKeyMissing(s) then 1 else 0)
    ensures JwtInsecure(s) ==> r.warnings[0] == JwtWarning
    ensures r.allClear <==> r.issues == [] && r.warnings == []
    ensures r.exitCode == (if r.issues != [] then 1 else 0)
  {
    var issues := CredentialIssues(s);
    var warnings := ConfigWarnings(s);
    var exitCode := if issues != [] then 1 else 0;
    r := Report(issues, warnings, issues == [] && warnings == [], exitCode);
  }

  /** The settings shipped as defaults have no AWS credentials, so the script fails with both
      credential issues and warns about the default JWT secret. */
  method CheckDefaults() returns (r: Report)
    ensures r.issues == [AccessKeyIssue, SecretKeyIssue]
    ensures r.warnings == [JwtWarning]
    ensures r.exitCode == 1 && !r.allClear
  {
    r := Check(Defaults);
  }
}

=== FILE: config.dfy ===
/** `Settings` and the environment predicates of backend/config.py. Only the settings that
    some modelled code reads are kept; each defaults as the source says. */
module Config {
  import opened Text

  datatype Settings = Settings(
    appEnv: string,
    corsOrigins: string,
    awsRegion: string,
    awsAccessKeyId: string,
    awsSecretAccessKey: string,
    bedrockModelId: string,
    ollamaModel: string,
    marketDataProvider: string,
    alphaVantageKey: string,
    twelvedataKey: string,
    jwtSecret: string)

  const DefaultJwtSecret := "your-secret-key-change-this-in-production"

  /** The settings with no environment variable set. */
  const Defaults := Settings(
    "development",
    "http://localhost:3000" + "," + "http://localhost:4200" + "," + "http://localhost:8501",
    "us-east-1", "", "", "anthropic.claude-3-5-sonnet-20240620-v1:0", "gemma3:1b",
    "yfinance", "", "", DefaultJwtSecret)

  /** Every entry stripped, in order. */
  function StripAll(parts: seq<string>): (r: seq<string>)
    ensures |r| == |parts| && forall i :: 0 <= i < |parts| ==> r[i] == Strip(parts[i])
  {
    seq(|parts|, i requires 0 <= i < |parts| => Strip(parts[i]))
  }

  /** `cors_origins_list`: split on every comma, each entry stripped. */
  function CorsOriginsList(s: Settings): (r: seq<string>)
    ensures |r| == Count(s.corsOrigins, ',') + 1 == |SplitOn(s.corsOrigins, ',')|
    ensures forall i :: 0 <= i < |r| ==> r[i] == Strip(SplitOn(s.corsOrigins, ',')[i])
    ensures Join(SplitOn(s.corsOrigins, ','), ",") == s.corsOrigins
    ensures forall i :: 0 <= i < |r| ==> ',' !in r[i]
    ensures forall i :: 0 <= i < |r| ==> |r[i]| == 0 || (!IsSpace(r[i][0]) && !IsSpace(r[i][|r[i]| - 1]))
  {
    var parts := SplitOn(s.corsOrigins, ',');
    SplitOnCount(s.corsOrigins, ',');
    SplitOnPartsFree(s.corsOrigins, ',');
    SplitOnJoin(s.corsOrigins, ',');
    StripAllClean(parts);
    StripAll(parts)
  }

  /** Stripping comma-free entries leaves them comma-free and trimmed. */
  lemma StripAllClean(parts: seq<string>)
    requires forall i :: 0 <= i < |parts| ==> ',' !in parts[i]
    ensures forall i :: 0 <= i < |parts| ==> ',' !in StripAll(parts)[i]
    ensures forall i :: 0 <= i < |parts| ==>
              var e := StripAll(parts)[i]; |e| == 0 || (!IsSpace(e[0]) && !IsSpace(e[|e| - 1]))
  {
    forall i | 0 <= i < |parts|
      ensures ',' !in Strip(parts[i])
      ensures var e := Strip(parts[i]); |e| == 0 || (!IsSpace(e[0]) && !IsSpace(e[|e| - 1]))
    {
      StripEnds(parts[i]);
      StripWithin(parts[i]);
    }
  }

  /** Stripping only removes characters. */
  lemma StripWithin(s: string)
    ensures forall k :: 0 <= k < |Strip(s)| ==> Strip(s)[k] in s
  {
    var l := LStrip(s);
    var r := RStrip(l);
    assert Strip(s) == r;
    forall k | 0 <= k < |r|
      ensures r[k] in s
    {
      var j := |s| - |l| + k;
      assert r[k] == s[j];
    }
  }

  /** Three comma-separated origins with no surrounding blanks come back as they were written. */
  lemma ThreeOrigins(s: Settings, a: string, b: string, c: string)
    requires s.corsOrigins == a + "," + b + "," + c
    requires ',' !in a && ',' !in b && ',' !in c
    requires |a| > 0 && !IsSpace(a[0]) && !IsSpace(a[|a| - 1])
    requires |b| > 0 && !IsSpace(b[0]) && !IsSpace(b[|b| - 1])
    requires |c| > 0 && !IsSpace(c[0]) && !IsSpace(c[|c| - 1])
    ensures CorsOriginsList(s) == [a, b, c]
  {
    SplitThree(a, b, c);
    StripThree(a, b, c);
  }

  lemma SplitThree(a: string, b: string, c: string)
    requires ',' !in a && ',' !in b && ',' !in c
    ensures SplitOn(a + "," + b + "," + c, ',') == [a, b, c]
  {
    assert a + "," + b + "," + c == a + [','] + (b + [','] + c);
    SplitOnFirst(a, b + [','] + c, ',');
    SplitOnFirst(b, c, ',');
    SplitOnNoSep(c, ',');
  }

  lemma StripThree(a: string, b: string, c: string)
    requires |a| > 0 && !IsSpace(a[0]) && !IsSpace(a[|a| - 1])
    requires |b| > 0 && !IsSpace(b[0]) && !IsSpace(b[|b| - 1])
    requires |c| > 0 && !IsSpace(c[0]) && !IsSpace(c[|c| - 1])
    ensures StripAll([a, b, c]) == [a, b, c]
  {
    StripTrimmed(a);
    StripTrimmed(b);
    StripTrimmed(c);
  }

  /** The default origins are the three local front-end ports. */
  lemma DefaultCorsOrigins()
    ensures CorsOriginsList(Defaults) ==
              ["http://localhost:3000", "http://localhost:4200", "http://localhost:8501"]
  {
    ThreeOrigins(Defaults, "http://localhost:3000", "http://localhost:4200", "http://localhost:8501");
  }

  /** `is_production` */
  predicate IsProduction(s: Settings) {
    LowerStr(s.appEnv) in ["production", "prod"]
  }

  /** `is_development` */
  predicate IsDevelopment(s: Settings) {
    LowerStr(s.appEnv) in ["development", "dev", "local"]
  }

  /** No environment is both production and development. */
  lemma NotBothEnvironments(s: Settings)
    ensures !(IsProduction(s) && IsDevelopment(s))
  {
  }

  /** Letter case does not matter: "PROD" is production. */
  lemma ProductionIgnoresCase(s: Settings)
    requires s.appEnv == "PROD"
    ensures IsProduction(s) && !IsDevelopment(s)
  {
    assert LowerStr(s.appEnv) == "prod";
  }

  /** Out of the box the application runs as development. */
  lemma DefaultsAreDevelopment()
    ensures IsDevelopment(Defaults) && !IsProduction(Defaults)
  {
    assert LowerStr(Defaults.appEnv) == "development";
  }
}

=== FILE: dynamo_codec.dfy ===
/** The DynamoDB-facing helpers of backend/services/dynamodb_service.py: the number
    conversions applied to every item on the way in and out of a table, and the
    `SET` update expression built by `update_user` and `update_portfolio`. */
module DynamoCodec {
  import opened Wrappers
  import opened Json
  import opened Text

  /** No `Decimal` anywhere inside `v`. */
  predicate NoDecimal(v: Value)
    decreases v
  {
    match v
    case Dec(_) => false
    case List(xs) => forall i :: 0 <= i < |xs| ==> NoDecimal(xs[i])
    case Dict(m) => forall k :: k in m ==> NoDecimal(m[k])
    case _ => true
  }

  /** No `float` anywhere inside `v`. */
  predicate NoFloat(v: Value)
    decreases v
  {
    match v
    case Flt(_) => false
    case List(xs) => forall i :: 0 <= i < |xs| ==> NoFloat(xs[i])
    case Dict(m) => forall k :: k in m ==> NoFloat(m[k])
    case _ => true
  }

  /** `decimal_to_float`: every `Decimal` leaf becomes a float of the same value; dicts and
      lists keep their keys and lengths; any other leaf is returned unchanged. */
  function DecimalToFloat(v: Value): (r: Value)
    decreases v
    ensures NoDecimal(r)
    ensures v.Dec? ==> r == Flt(v.d)
    ensures v.Dict? ==> r.Dict? && r.fields.Keys == v.fields.Keys
    ensures v.List? ==> r.List? && |r.items| == |v.items|
    ensures !v.Dec? && !v.Dict? && !v.List? ==> r == v
  {
    match v
    case Dec(d) => Flt(d)
    case Dict(m) => Dict(map k | k in m :: DecimalToFloat(m[k]))
    case List(xs) => List(seq(|xs|, i requires 0 <= i < |xs| => DecimalToFloat(xs[i])))
    case _ => v
  }

  /** `float_to_decimal`: every float leaf becomes a `Decimal` of the same value; dicts and
      lists keep their keys and lengths; any other leaf is returned unchanged. */
  function FloatToDecimal(v: Value): (r: Value)
    decreases v
    ensures NoFloat(r)
    ensures v.Flt? ==> r == Dec(v.f)
    ensures v.Dict? ==> r.Dict? && r.fields.Keys == v.fields.Keys
    ensures v.List? ==> r.List? && |r.items| == |v.items|
    ensures !v.Flt? && !v.Dict? && !v.List? ==> r == v
  {
    match v
    case Flt(f) => Dec(f)
    case Dict(m) => Dict(map k | k in m :: FloatToDecimal(m[k]))
    case List(xs) => List(seq(|xs|, i requires 0 <= i < |xs| => FloatToDecimal(xs[i])))
    case _ => v
  }

  /** A value already free of decimals passes `decimal_to_float` unchanged, so the
      conversion is idempotent. */
  lemma {:induction false} DecimalToFloatFixes(v: Value)
    requires NoDecimal(v)
    ensures DecimalToFloat(v) == v
    decreases v
  {
    match v
    case Dict(m) =>
      forall k | k in m
        ensures DecimalToFloat(m[k]) == m[k]
      {
        DecimalToFloatFixes(m[k]);
      }
      assert DecimalToFloat(v).fields == m;
    case List(xs) =>
      forall i | 0 <= i < |xs|
        ensures DecimalToFloat(xs[i]) == xs[i]
      {
        DecimalToFloatFixes(xs[i]);
      }
      assert DecimalToFloat(v).items == xs;
    case _ =>
  }

  lemma {:induction false} FloatToDecimalFixes(v: Value)
    requires NoFloat(v)
    ensures FloatToDecimal(v) == v
    decreases v
  {
    match v
    case Dict(m) =>
      forall k | k in m
        ensures FloatToDecimal(m[k]) == m[k]
      {
        FloatToDecimalFixes(m[k]);
      }
      assert FloatToDecimal(v).fields == m;
    case List(xs) =>
      forall i | 0 <= i < |xs|
        ensures FloatToDecimal(xs[i]) == xs[i]
      {
        FloatToDecimalFixes(xs[i]);
      }
      assert FloatToDecimal(v).items == xs;
    case _ =>
  }

  /** Storing an item that holds no decimals and reading it back gives the item itself. */
  lemma {:induction false} StoreLoadRoundTrip(v: Value)
    requires NoDecimal(v)
    ensures DecimalToFloat(FloatToDecimal(v)) == v
    decreases v
  {
    match v
    case Dict(m) =>
      forall k | k in m
        ensures DecimalToFloat(FloatToDecimal(m[k])) == m[k]
      {
        StoreLoadRoundTrip(m[k]);
      }
      assert DecimalToFloat(FloatToDecimal(v)).fields == m;
    case List(xs) =>
      forall i | 0 <= i < |xs|
        ensures DecimalToFloat(FloatToDecimal(xs[i])) == xs[i]
      {
        StoreLoadRoundTrip(xs[i]);
      }
      assert DecimalToFloat(FloatToDecimal(v)).items == xs;
    case _ =>
  }

  /** Reading an item that holds no floats and storing it again gives the item itself. */
  lemma {:induction false} LoadStoreRoundTrip(v: Value)
    requires NoFloat(v)
    ensures FloatToDecimal(DecimalToFloat(v)) == v
    decreases v
  {
    match v
    case Dict(m) =>
      forall k | k in m
        ensures FloatToDecimal(DecimalToFloat(m[k])) == m[k]
      {
        LoadStoreRoundTrip(m[k]);
      }
      assert FloatToDecimal(DecimalToFloat(v)).fields == m;
    case List(xs) =>
      forall i | 0 <= i < |xs|
        ensures FloatToDecimal(DecimalToFloat(xs[i])) == xs[i]
      {
        LoadStoreRoundTrip(xs[i]);
      }
      assert FloatToDecimal(DecimalToFloat(v)).items == xs;
    case _ =>
  }

  // ---------------------------------------------------------------------------
  // Update expressions

  /** The three parts handed to `update_item`. */
  datatype UpdateExpr = UpdateExpr(expression: string, names: map<string, string>, values: map<string, Value>)

  /** The keys of a Python dict's items are distinct. */
  predicate DistinctKeys(updates: seq<(string, Value)>) {
    forall i, j :: 0 <= i < j < |updates| ==> updates[i].0 != updates[j].0
  }

  /** The entries of `updates` that are written: every one except the primary key. */
  function Kept(updates: seq<(string, Value)>, primaryKey: string): (r: seq<(string, Value)>)
    ensures |r| <= |updates|
  {
    if |updates| == 0 then []
    else if updates[0].0 == primaryKey then Kept(updates[1..], primaryKey)
    else [updates[0]] + Kept(updates[1..], primaryKey)
  }

  /** The kept entries are exactly the entries whose key is not the primary key. */
  lemma {:induction false} KeptMembers(updates: seq<(string, Value)>, primaryKey: string)
    ensures forall e :: e in Kept(updates, primaryKey) <==> e in updates && e.0 != primaryKey
  {
    if |updates| > 0 {
      KeptMembers(updates[1..], primaryKey);
      assert updates == [updates[0]] + updates[1..];
    }
  }

  function Clause(key: string): string {
    "#" + key + " = :" + key
  }

  /** One `#k = :k` clause per written key, in the dict's order. */
  function Clauses(kept: seq<(string, Value)>): (r: seq<string>)
    ensures |r| == |kept|
    ensures forall i :: 0 <= i < |kept| ==> r[i] == Clause(kept[i].0)
  {
    seq(|kept|, i requires 0 <= i < |kept| => Clause(kept[i].0))
  }

  /** `names` maps `#k` to `k` and `values` maps `:k` to the new value for exactly the keys in `kept`. */
  predicate Recorded(kept: seq<(string, Value)>, names: map<string, string>, values: map<string, Value>) {
    Covered(kept, names, values) && NamesFrom(kept, names) && ValuesFrom(kept, values)
  }

  /** Every kept entry has its `#k` name and its `:k` value. */
  predicate Covered(kept: seq<(string, Value)>, names: map<string, string>, values: map<string, Value>) {
    forall e :: e in kept ==>
      && ("#" + e.0) in names && names["#" + e.0] == e.0
      && (":" + e.0) in values && values[":" + e.0] == e.1
  }

  /** Every name placeholder belongs to a kept entry. */
  predicate NamesFrom(kept: seq<(string, Value)>, names: map<string, string>) {
    forall name :: name in names ==> exists e :: e in kept && name == "#" + e.0
  }

  /** Every value placeholder belongs to a kept entry. */
  predicate ValuesFrom(kept: seq<(string, Value)>, values: map<string, Value>) {
    forall v :: v in values ==> exists e :: e in kept && v == ":" + e.0
  }

  /** The expression-building loop of `update_user` (primary key "user_id") and
      `update_portfolio` (primary key "portfolio_id"). */
  method BuildUpdate(updates: seq<(string, Value)>, primaryKey: string) returns (r: Result<UpdateExpr>)
    requires DistinctKeys(updates)
    ensures r.Err? <==> forall i :: 0 <= i < |updates| ==> updates[i].0 == primaryKey
    ensures r.Err? ==> r.msg == "No valid fields to update"
    ensures r.Ok? ==> r.value.expression == "SET " + Join(Clauses(Kept(updates, primaryKey)), ", ")
    ensures r.Ok? ==> Recorded(Kept(updates, primaryKey), r.value.names, r.value.values)
  {
    var parts: seq<string> := [];
    var names: map<string, string> := map[];
    var values: map<string, Value> := map[];
    var i := 0;
    while i < |updates|
      invariant 0 <= i <= |updates|
      invariant parts == Clauses(Kept(updates[..i], primaryKey))
      invariant Recorded(Kept(updates[..i], primaryKey), names, values)
    {
      var (key, value) := updates[i];
      BuildStep(updates, primaryKey, i, parts, names, values);
      if key != primaryKey {
        parts := parts + [Clause(key)];
        names := names["#" + key := key];
        values := values[":" + key := value];
      }
      i := i + 1;
    }
    assert updates[..i] == updates;
    KeptEmpty(updates, primaryKey);
    if |parts| == 0 {
      return Err("No valid fields to update");
    }
    r := Ok(UpdateExpr("SET " + Join(parts, ", "), names, values));
  }

  /** One turn of the loop in `BuildUpdate` keeps its invariant. */
  lemma BuildStep(updates: seq<(string, Value)>, primaryKey: string, i: nat,
                  parts: seq<string>, names: map<string, string>, values: map<string, Value>)
    requires DistinctKeys(updates) && i < |updates|
    requires parts == Clauses(Kept(updates[..i], primaryKey))
    requires Recorded(Kept(updates[..i], primaryKey), names, values)
    ensures var (key, value) := updates[i];
      if key != primaryKey then
        && parts + [Clause(key)] == Clauses(Kept(updates[..i + 1], primaryKey))
        && Recorded(Kept(updates[..i + 1], primaryKey), names["#" + key := key], values[":" + key := value])
      else
        && parts == Clauses(Kept(updates[..i + 1], primaryKey))
        && Recorded(Kept(updates[..i + 1], primaryKey), names, values)
  {
    var (key, value) := updates[i];
    var kept := Kept(updates[..i], primaryKey);
    KeptSnoc(updates[..i], updates[i], primaryKey);
    assert updates[..i + 1] == updates[..i] + [updates[i]];
    if key != primaryKey {
      KeptKeysBefore(updates, primaryKey, i);
      RecordedSnoc(kept, names, values, key, value);
      ClausesSnoc(kept, (key, value));
    }
  }

  /** With distinct keys, no entry kept before position `i` has the key at `i`. */
  lemma KeptKeysBefore(updates: seq<(string, Value)>, primaryKey: string, i: nat)
    requires DistinctKeys(updates) && i < |updates|
    ensures forall e :: e in Kept(updates[..i], primaryKey) ==> e.0 != updates[i].0
  {
    KeptMembers(updates[..i], primaryKey);
    forall e | e in Kept(updates[..i], primaryKey)
      ensures e.0 != updates[i].0
    {
      var j :| 0 <= j < i && updates[..i][j] == e;
      assert updates[j] == e;
    }
  }

  lemma ClausesSnoc(kept: seq<(string, Value)>, x: (string, Value))
    ensures Clauses(kept + [x]) == Clauses(kept) + [Clause(x.0)]
  {
    var l := Clauses(kept + [x]);
    var r := Clauses(kept) + [Clause(x.0)];
    assert |l| == |r|;
    forall k | 0 <= k < |l|
      ensures l[k] == r[k]
    {
      if k < |kept| {
        assert (kept + [x])[k] == kept[k];
      }
    }
  }

  lemma RecordedSnoc(kept: seq<(string, Value)>, names: map<string, string>, values: map<string, Value>,
                     key: string, value: Value)
    requires Recorded(kept, names, values)
    requires forall e :: e in kept ==> e.0 != key
    ensures Recorded(kept + [(key, value)], names["#" + key := key], values[":" + key := value])
  {
    CoveredSnoc(kept, names, values, key, value);
    NamesFromSnoc(kept, names, key, value);
    ValuesFromSnoc(kept, values, key, value);
  }

  lemma CoveredSnoc(kept: seq<(string, Value)>, names: map<string, string>, values: map<string, Value>,
                    key: string, value: Value)
    requires Covered(kept, names, values)
    requires forall e :: e in kept ==> e.0 != key
    ensures Covered(kept + [(key, value)], names["#" + key := key], values[":" + key := value])
  {
    PrefixInjective(key);
  }

  lemma NamesFromSnoc(kept: seq<(string, Value)>, names: map<string, string>, key: string, value: Value)
    requires NamesFrom(kept, names)
    ensures NamesFrom(kept + [(key, value)], names["#" + key := key])
  {
    var kept' := kept + [(key, value)];
    var names' := names["#" + key := key];
    forall name | name in names'
      ensures exists e :: e in kept' && name == "#" + e.0
    {
      if name == "#" + key {
        assert (key, value) in kept';
      } else {
        var e :| e in kept && name == "#" + e.0;
        assert e in kept';
      }
    }
  }

  lemma ValuesFromSnoc(kept: seq<(string, Value)>, values: map<string, Value>, key: string, value: Value)
    requires ValuesFrom(kept, values)
    ensures ValuesFrom(kept + [(key, value)], values[":" + key := value])
  {
    var kept' := kept + [(key, value)];
    var values' := values[":" + key := value];
    forall v | v in values'
      ensures exists e :: e in kept' && v == ":" + e.0
    {
      if v == ":" + key {
        assert (key, value) in kept';
      } else {
        var e :| e in kept && v == ":" + e.0;
        assert e in kept';
      }
    }
  }

  /** A values map with a placeholder for a key that is not written is not what the loop
      records: DynamoDB would refuse the unused `:zzz`. */
  lemma StrayValueNotRecorded()
    ensures !Recorded([("a", Int(1))], map["#a" := "a"], map[":a" := Int(1), ":zzz" := Null])
  {
    var kept := [("a", Int(1))];
    var values := map[":a" := Int(1), ":zzz" := Null];
    assert ":zzz" in values;
    assert forall e :: e in kept ==> ":" + e.0 == ":a";
  }

  /** Nothing is kept exactly when every key is the primary key. */
  lemma {:induction false} KeptEmpty(updates: seq<(string, Value)>, primaryKey: string)
    ensures |Kept(updates, primaryKey)| == 0 <==> forall i :: 0 <= i < |updates| ==> updates[i].0 == primaryKey
  {
    if |updates| > 0 {
      KeptEmpty(updates[1..], primaryKey);
      assert forall i :: 1 <= i < |updates| ==> updates[i] == updates[1..][i - 1];
    }
  }

  lemma {:induction false} KeptSnoc(xs: seq<(string, Value)>, x: (string, Value), primaryKey: string)
    ensures Kept(xs + [x], primaryKey) == Kept(xs, primaryKey) + (if x.0 == primaryKey then [] else [x])
  {
    if |xs| == 0 {
      assert xs + [x] == [x];
    } else {
      assert (xs + [x])[1..] == xs[1..] + [x];
      KeptSnoc(xs[1..], x, primaryKey);
    }
  }

  /** Distinct keys give distinct placeholders. */
  lemma PrefixInjective(key: string)
    ensures forall other: string :: "#" + other == "#" + key ==> other == key
    ensures forall other: string :: ":" + other == ":" + key ==> other == key
  {
    forall other: string | "#" + other == "#" + key
      ensures other == key
    {
      assert other == ("#" + other)[1..];
    }
    forall other: string | ":" + other == ":" + key
      ensures other == key
    {
      assert other == (":" + other)[1..];
    }
  }

  /** `update_portfolio` converts the update values with `float_to_decimal` before
      building the expression. */
  method BuildPortfolioUpdate(updates: seq<(string, Value)>) returns (r: Result<UpdateExpr>)
    requires DistinctKeys(updates)
    ensures r.Err? <==> forall i :: 0 <= i < |updates| ==> updates[i].0 == "portfolio_id"
    ensures r.Ok? ==> forall e :: e in Kept(updates, "portfolio_id") ==>
                        && (":" + e.0) in r.value.values
                        && r.value.values[":" + e.0] == FloatToDecimal(e.1)
                        && NoFloat(r.value.values[":" + e.0])
  {
    var converted := seq(|updates|, i requires 0 <= i < |updates| => (updates[i].0, FloatToDecimal(updates[i].1)));
    assert forall i :: 0 <= i < |updates| ==> converted[i].0 == updates[i].0;
    r := BuildUpdate(converted, "portfolio_id");
    if r.Ok? {
      KeptMembers(updates, "portfolio_id");
      KeptMembers(converted, "portfolio_id");
      forall e | e in Kept(updates, "portfolio_id")
        ensures (e.0, FloatToDecimal(e.1)) in Kept(converted, "portfolio_id")
      {
        var j :| 0 <= j < |updates| && updates[j] == e;
        assert converted[j] == (e.0, FloatToDecimal(e.1));
      }
    }
  }
}

=== FILE: dynamo_ledger.dfy ===
/** The trading ledger of backend/services/dynamodb_service.py: portfolios with their
    position lists, the trade table, and the operations that validate a trade, record it,
    move the cash balance and rebuild the position list and portfolio totals.
    The portfolios table is a map from portfolio id to a typed item; the trades table is
    the sequence of items written to it. */
module DynamoLedger {
  import opened Wrappers
  import opened Text
  import opened TradeOrder
  import opened TrackedSymbols

  datatype DPosition = DPosition(
    symbol: string, quantity: real, avgCost: real, currentPrice: real,
    currentValue: real, unrealizedPnl: real, pnlPercent: real)

  datatype DPortfolio = DPortfolio(
    portfolioId: string, userId: string, portfolioName: string,
    initialValue: real, currentBalance: real, positions: seq<DPosition>,
    totalValue: real, totalInvested: real, totalPnl: real, pnlPercent: real,
    trackedSymbols: seq<string>, isActive: bool)

  datatype TradeItem = TradeItem(
    tradeId: string, portfolioId: string, timestamp: string, symbol: string, side: string,
    quantity: real, price: real, totalAmount: real, tradeType: string,
    balanceBefore: real, balanceAfter: real, status: string)

  // ---------------------------------------------------------------------------
  // Positions

  predicate HasSymbol(ps: seq<DPosition>, symbol: string) {
    exists j :: 0 <= j < |ps| && ps[j].symbol == symbol
  }

  /** Index of the first position for `symbol` (the `enumerate` loop with `break`). */
  function FirstIndex(ps: seq<DPosition>, symbol: string): (r: Option<nat>)
    ensures r.Some? ==> r.value < |ps| && ps[r.value].symbol == symbol
    ensures r.Some? ==> forall j :: 0 <= j < r.value ==> ps[j].symbol != symbol
    ensures r.None? <==> !HasSymbol(ps, symbol)
  {
    if |ps| == 0 then None
    else if ps[0].symbol == symbol then Some(0)
    else match FirstIndex(ps[1..], symbol)
      case None => None
      case Some(i) => Some(i + 1)
  }

  /** The position `get_position` finds in a position list. */
  function PositionOf(ps: seq<DPosition>, symbol: string): Option<DPosition> {
    match FirstIndex(ps, symbol)
    case Some(i) => Some(ps[i])
    case None => None
  }

  predicate UniqueSymbols(ps: seq<DPosition>) {
    forall i, j :: 0 <= i < j < |ps| ==> ps[i].symbol != ps[j].symbol
  }

  /** Every stored position holds a positive quantity. */
  predicate PositiveQuantities(ps: seq<DPosition>) {
    forall i :: 0 <= i < |ps| ==> ps[i].quantity > 0.0
  }

  /** The position record `update_position` writes. */
  function NewPosition(symbol: string, quantity: real, avgCost: real, currentPrice: real): DPosition {
    var currentValue := quantity * currentPrice;
    var costBasis := quantity * avgCost;
    var unrealized := currentValue - costBasis;
    DPosition(symbol, quantity, avgCost, currentPrice, currentValue, unrealized,
              if costBasis > 0.0 then unrealized / costBasis * 100.0 else 0.0)
  }

  /** The unrealized P&L of a written position is its quantity times the price move, and its
      percentage is that P&L over the cost basis (0 when the basis is not positive). */
  lemma NewPositionMetrics(symbol: string, quantity: real, avgCost: real, currentPrice: real)
    ensures var p := NewPosition(symbol, quantity, avgCost, currentPrice);
      && p.symbol == symbol && p.quantity == quantity && p.avgCost == avgCost
      && p.currentValue == quantity * currentPrice
      && p.unrealizedPnl == quantity * (currentPrice - avgCost)
      && (quantity * avgCost > 0.0 ==> p.pnlPercent * (quantity * avgCost) == p.unrealizedPnl * 100.0)
      && (quantity * avgCost <= 0.0 ==> p.pnlPercent == 0.0)
  {
    var p := NewPosition(symbol, quantity, avgCost, currentPrice);
    assert quantity * (currentPrice - avgCost) == quantity * currentPrice - quantity * avgCost;
    if quantity * avgCost > 0.0 {
      var b := quantity * avgCost;
      assert p.pnlPercent == p.unrealizedPnl / b * 100.0;
      assert (p.unrealizedPnl / b) * b == p.unrealizedPnl;
    }
  }

  /** The position list after `update_position`: the four cases of lines 475-483. */
  function PositionsAfter(ps: seq<DPosition>, newPos: DPosition): seq<DPosition> {
    match FirstIndex(ps, newPos.symbol)
    case Some(i) => if newPos.quantity <= 0.0 then ps[..i] + ps[i + 1..] else ps[i := newPos]
    case None => if newPos.quantity > 0.0 then ps + [newPos] else ps
  }

  /** Sum of the positions' current values. */
  function SumValues(ps: seq<DPosition>): real {
    if |ps| == 0 then 0.0 else ps[0].currentValue + SumValues(ps[1..])
  }

  /** The portfolio with a new position list and the totals recomputed from it. */
  function WithTotals(p: DPortfolio, ps: seq<DPosition>): DPortfolio {
    var totalValue := p.currentBalance + SumValues(ps);
    var totalPnl := totalValue - p.initialValue;
    p.(positions := ps, totalValue := totalValue, totalInvested := p.initialValue, totalPnl := totalPnl,
       pnlPercent := if p.initialValue > 0.0 then totalPnl / p.initialValue * 100.0 else 0.0)
  }

  /** The totals agree with the balance, the positions and the initial value. */
  predicate TotalsConsistent(p: DPortfolio) {
    && p.totalValue == p.currentBalance + SumValues(p.positions)
    && p.totalInvested == p.initialValue
    && p.totalPnl == p.totalValue - p.initialValue
    && (p.initialValue <= 0.0 ==> p.pnlPercent == 0.0)
    && (p.initialValue > 0.0 ==> p.pnlPercent * p.initialValue == p.totalPnl * 100.0)
  }

  /** The portfolio `update_position` writes. */
  function AfterUpdate(p: DPortfolio, symbol: string, quantity: real, avgCost: real, currentPrice: real): DPortfolio {
    WithTotals(p, PositionsAfter(p.positions, NewPosition(symbol, quantity, avgCost, currentPrice)))
  }

  /** Recomputing the totals makes them consistent, whatever they were before. */
  lemma WithTotalsConsistent(p: DPortfolio, ps: seq<DPosition>)
    ensures TotalsConsistent(WithTotals(p, ps))
    ensures WithTotals(p, ps).positions == ps
    ensures WithTotals(p, ps).currentBalance == p.currentBalance
  {
    var q := WithTotals(p, ps);
    if p.initialValue > 0.0 {
      assert (q.totalPnl / p.initialValue) * p.initialValue == q.totalPnl;
    }
  }

  lemma {:induction false} FirstIndexSameSymbols(ps: seq<DPosition>, qs: seq<DPosition>, symbol: string)
    requires |ps| == |qs|
    requires forall j :: 0 <= j < |ps| ==> ps[j].symbol == qs[j].symbol
    ensures FirstIndex(ps, symbol) == FirstIndex(qs, symbol)
  {
    if |ps| > 0 {
      FirstIndexSameSymbols(ps[1..], qs[1..], symbol);
    }
  }

  lemma UniqueFirstIndex(ps: seq<DPosition>, k: nat)
    requires UniqueSymbols(ps) && k < |ps|
    ensures FirstIndex(ps, ps[k].symbol) == Some(k)
  {
  }

  lemma UniqueNotElsewhere(ps: seq<DPosition>, k: nat, symbol: string)
    requires UniqueSymbols(ps) && k < |ps| && ps[k].symbol == symbol
    ensures !HasSymbol(ps[..k] + ps[k + 1..], symbol)
  {
    var rest := ps[..k] + ps[k + 1..];
    forall j | 0 <= j < |rest|
      ensures rest[j].symbol != symbol
    {
      if j < k {
        assert rest[j] == ps[j];
      } else {
        assert rest[j] == ps[j + 1];
      }
    }
  }

  /** `update_position` leaves the symbol at the new record when the quantity is positive and
      removes it otherwise (given one position per symbol); positions of other symbols are
      untouched; and the list keeps one position per symbol. */
  lemma PositionsAfterEffect(ps: seq<DPosition>, newPos: DPosition, other: string)
    requires UniqueSymbols(ps)
    ensures var r := PositionsAfter(ps, newPos);
      && UniqueSymbols(r)
      && (newPos.quantity > 0.0 ==> PositionOf(r, newPos.symbol) == Some(newPos))
      && (newPos.quantity <= 0.0 ==> PositionOf(r, newPos.symbol) == None)
      && (other != newPos.symbol ==> PositionOf(r, other) == PositionOf(ps, other))
  {
    match FirstIndex(ps, newPos.symbol)
    case Some(i) =>
      if newPos.quantity <= 0.0 {
        RemoveAtEffect(ps, i, other);
      } else {
        var r := ps[i := newPos];
        FirstIndexSameSymbols(r, ps, newPos.symbol);
        FirstIndexSameSymbols(r, ps, other);
      }
    case None =>
      if newPos.quantity > 0.0 {
        FirstIndexAppend(ps, newPos, newPos.symbol);
        FirstIndexAppend(ps, newPos, other);
      }
  }

  /** Popping the position at `i` removes its symbol and keeps every other lookup. */
  lemma RemoveAtEffect(ps: seq<DPosition>, i: nat, other: string)
    requires UniqueSymbols(ps) && i < |ps|
    ensures var r := ps[..i] + ps[i + 1..];
      && UniqueSymbols(r)
      && !HasSymbol(r, ps[i].symbol)
      && (other != ps[i].symbol ==> PositionOf(r, other) == PositionOf(ps, other))
  {
    var r := ps[..i] + ps[i + 1..];
    assert forall j :: 0 <= j < |r| ==> r[j] == ps[if j < i then j else j + 1];
    UniqueNotElsewhere(ps, i, ps[i].symbol);
    if other != ps[i].symbol {
      match FirstIndex(ps, other)
      case Some(k) =>
        var k' := if k < i then k else k - 1;
        assert r[k'] == ps[k];
        UniqueFirstIndex(r, k');
      case None =>
        assert !HasSymbol(r, other);
    }
  }

  lemma {:induction false} FirstIndexAppend(ps: seq<DPosition>, x: DPosition, symbol: string)
    requires !HasSymbol(ps, x.symbol)
    ensures FirstIndex(ps + [x], symbol) ==
      if x.symbol == symbol then Some(|ps|) else FirstIndex(ps, symbol)
  {
    if |ps| > 0 {
      assert (ps + [x])[1..] == ps[1..] + [x];
      assert !HasSymbol(ps[1..], x.symbol) by {
        forall j | 0 <= j < |ps[1..]|
          ensures ps[1..][j].symbol != x.symbol
        {
          assert ps[1..][j] == ps[j + 1];
        }
      }
      FirstIndexAppend(ps[1..], x, symbol);
    } else {
      assert ps + [x] == [x];
    }
  }

  /** `update_position` never stores a position with a non-positive quantity. */
  lemma PositionsAfterPositive(ps: seq<DPosition>, newPos: DPosition)
    requires PositiveQuantities(ps)
    ensures PositiveQuantities(PositionsAfter(ps, newPos))
  {
    var r := PositionsAfter(ps, newPos);
    match FirstIndex(ps, newPos.symbol)
    case Some(i) =>
      if newPos.quantity <= 0.0 {
        forall j | 0 <= j < |r|
          ensures r[j].quantity > 0.0
        {
          if j < i {
            assert r[j] == ps[j];
          } else {
            assert r[j] == ps[j + 1];
          }
        }
      }
    case None =>
  }

  // ---------------------------------------------------------------------------
  // Trades

  /** The arguments of one `execute_trade` call. */
  datatype Order = Order(portfolioId: string, symbol: string, side: string, quantity: real, price: real,
                         tradeType: string)

  /** What `execute_trade` does to one portfolio. */
  datatype Outcome =
    | Rejected(msg: string)
      /** Validation failed: nothing was written. */
    | Completed(item: TradeItem, after: DPortfolio)
      /** The trade was recorded and the portfolio rewritten. */
    | FailedAfterWrite(msg: string, item: TradeItem, after: DPortfolio)
      /** The trade and the new balance were written, then the average-cost division
          raised `ZeroDivisionError`. */

  /** Python's `str(x)` and `f"{x:.2f}"` of a float, which only appear in error messages. */
  datatype Formats = Formats(show: real -> string, money: real -> string)

  /** The validation of lines 551-561: the first failing check's message, if any. */
  function Validate(p: DPortfolio, o: Order, fmt: Formats): (r: Option<string>)
    ensures r.None? <==> ((o.side == "buy" && o.quantity * o.price <= p.currentBalance)
                          || (o.side == "sell" && PositionOf(p.positions, o.symbol).Some?
                              && PositionOf(p.positions, o.symbol).value.quantity >= o.quantity))
  {
    var total := o.quantity * o.price;
    if o.side == "buy" then
      if total > p.currentBalance then
        Some("Insufficient balance. Need $" + fmt.money(total) + ", have $" + fmt.money(p.currentBalance))
      else None
    else if o.side == "sell" then
      match PositionOf(p.positions, o.symbol)
      case None => Some("Insufficient shares. Trying to sell " + fmt.show(o.quantity) + ", have 0")
      case Some(pos) =>
        if pos.quantity < o.quantity then
          Some("Insufficient shares. Trying to sell " + fmt.show(o.quantity) + ", have " + fmt.show(pos.quantity))
        else None
    else Some("Invalid trade side: " + o.side)
  }

  /** The balance after the trade: lowered by the trade's total for a buy, raised for a sell. */
  function NewBalance(p: DPortfolio, o: Order): real {
    if o.side == "buy" then p.currentBalance - o.quantity * o.price else p.currentBalance + o.quantity * o.price
  }

  /** The trade record written to the trades table. */
  function Record(p: DPortfolio, o: Order, tradeId: string, timestamp: string): TradeItem {
    TradeItem(tradeId, o.portfolioId, timestamp, o.symbol, o.side, o.quantity, o.price, o.quantity * o.price,
              o.tradeType, p.currentBalance, NewBalance(p, o), "completed")
  }

  /** The average cost after buying into `pos`: `(old_qty*old_avg + qty*price) / new_qty`. */
  function MergedAvg(pos: DPosition, o: Order): real
    requires pos.quantity + o.quantity != 0.0
  {
    (pos.quantity * pos.avgCost + o.quantity * o.price) / (pos.quantity + o.quantity)
  }

  /** The position step of lines 594-610, run on the portfolio with its new balance. */
  function Settle(p1: DPortfolio, o: Order, item: TradeItem): (r: Outcome)
    ensures !r.Rejected? && r.item == item && r.after.currentBalance == p1.currentBalance
  {
    match PositionOf(p1.positions, o.symbol)
    case Some(pos) =>
      if o.side == "buy" then
        var newQuantity := pos.quantity + o.quantity;
        if newQuantity == 0.0 then FailedAfterWrite("float division by zero", item, p1)
        else
          Completed(item, AfterUpdate(p1, o.symbol, newQuantity, MergedAvg(pos, o), o.price))
      else
        Completed(item, AfterUpdate(p1, o.symbol, pos.quantity - o.quantity, pos.avgCost, o.price))
    case None =>
      // A sell without a position was rejected, so this is a buy.
      Completed(item, AfterUpdate(p1, o.symbol, o.quantity, o.price, o.price))
  }

  /** `execute_trade` on the stored portfolio `p`, as written. */
  function Execute(p: DPortfolio, o: Order, tradeId: string, timestamp: string, fmt: Formats): (r: Outcome)
    ensures r.Rejected? <==> Validate(p, o, fmt).Some?
    ensures !r.Rejected? ==>
      && r.item.balanceBefore == p.currentBalance
      && r.item.balanceAfter == (if o.side == "buy" then p.currentBalance - o.quantity * o.price
                                 else p.currentBalance + o.quantity * o.price)
      && r.after.currentBalance == r.item.balanceAfter
      && r.item.status == "completed"
      && r.item.totalAmount == o.quantity * o.price
  {
    match Validate(p, o, fmt)
    case Some(msg) => Rejected(msg)
    case None =>
      var item := Record(p, o, tradeId, timestamp);
      Settle(p.(currentBalance := NewBalance(p, o)), o, item)
  }

  /** Updating a list with one position per symbol and positive quantities keeps both, and
      leaves the totals consistent. */
  lemma AfterUpdateInvariants(p: DPortfolio, symbol: string, quantity: real, avgCost: real, price: real)
    requires UniqueSymbols(p.positions) && PositiveQuantities(p.positions)
    ensures var a := AfterUpdate(p, symbol, quantity, avgCost, price);
      && TotalsConsistent(a) && UniqueSymbols(a.positions) && PositiveQuantities(a.positions)
      && a.currentBalance == p.currentBalance
  {
    var newPos := NewPosition(symbol, quantity, avgCost, price);
    WithTotalsConsistent(p, PositionsAfter(p.positions, newPos));
    PositionsAfterEffect(p.positions, newPos, symbol);
    PositionsAfterPositive(p.positions, newPos);
  }

  /** The stored portfolio after a completed trade has consistent totals and, if it had one
      position per symbol with positive quantities before, it still does. */
  lemma ExecuteKeepsInvariants(p: DPortfolio, o: Order, tradeId: string, timestamp: string, fmt: Formats)
    requires UniqueSymbols(p.positions) && PositiveQuantities(p.positions)
    requires Execute(p, o, tradeId, timestamp, fmt).Completed?
    ensures var a := Execute(p, o, tradeId, timestamp, fmt).after;
      TotalsConsistent(a) && UniqueSymbols(a.positions) && PositiveQuantities(a.positions)
  {
    var p1 := p.(currentBalance := NewBalance(p, o));
    var e := Execute(p, o, tradeId, timestamp, fmt);
    assert e == Settle(p1, o, Record(p, o, tradeId, timestamp));
    assert PositionOf(p1.positions, o.symbol) == PositionOf(p.positions, o.symbol);
    match PositionOf(p.positions, o.symbol)
    case Some(pos) =>
      if o.side == "buy" {
        var nq := pos.quantity + o.quantity;
        var na := MergedAvg(pos, o);
        assert e.after == AfterUpdate(p1, o.symbol, nq, na, o.price);
        AfterUpdateInvariants(p1, o.symbol, nq, na, o.price);
      } else {
        assert e.after == AfterUpdate(p1, o.symbol, pos.quantity - o.quantity, pos.avgCost, o.price);
        AfterUpdateInvariants(p1, o.symbol, pos.quantity - o.quantity, pos.avgCost, o.price);
      }
    case None =>
      assert e.after == AfterUpdate(p1, o.symbol, o.quantity, o.price, o.price);
      AfterUpdateInvariants(p1, o.symbol, o.quantity, o.price, o.price);
  }

  /** A buy into an existing position merges it at the quantity-weighted average cost. */
  lemma BuyMergesAtWeightedAverage(p: DPortfolio, o: Order, tradeId: string, timestamp: string, fmt: Formats)
    requires o.side == "buy"
    requires UniqueSymbols(p.positions)
    requires PositionOf(p.positions, o.symbol).Some?
    requires PositionOf(p.positions, o.symbol).value.quantity + o.quantity > 0.0
    requires Execute(p, o, tradeId, timestamp, fmt).Completed?
    ensures var old_ := PositionOf(p.positions, o.symbol).value;
      var a := Execute(p, o, tradeId, timestamp, fmt).after;
      && PositionOf(a.positions, o.symbol).Some?
      && var pos := PositionOf(a.positions, o.symbol).value;
      && pos.quantity == old_.quantity + o.quantity
      && pos.quantity * pos.avgCost == old_.quantity * old_.avgCost + o.quantity * o.price
      && pos.currentPrice == o.price
  {
    var old_ := PositionOf(p.positions, o.symbol).value;
    var nq := old_.quantity + o.quantity;
    var num := old_.quantity * old_.avgCost + o.quantity * o.price;
    var newPos := NewPosition(o.symbol, nq, MergedAvg(old_, o), o.price);
    var p1 := p.(currentBalance := NewBalance(p, o));
    var e := Execute(p, o, tradeId, timestamp, fmt);
    assert e == Settle(p1, o, Record(p, o, tradeId, timestamp));
    assert PositionOf(p1.positions, o.symbol) == Some(old_);
    assert e.after == AfterUpdate(p1, o.symbol, nq, MergedAvg(old_, o), o.price);
    PositionsAfterEffect(p.positions, newPos, o.symbol);
    assert nq * (num / nq) == num;
  }

  /** A sell keeps the average cost of what remains, and a sell of the whole holding removes
      the position. */
  lemma SellKeepsCostOrRemoves(p: DPortfolio, o: Order, tradeId: string, timestamp: string, fmt: Formats)
    requires o.side == "sell"
    requires UniqueSymbols(p.positions)
    requires Execute(p, o, tradeId, timestamp, fmt).Completed?
    ensures PositionOf(p.positions, o.symbol).Some?
    ensures var old_ := PositionOf(p.positions, o.symbol).value;
      var a := Execute(p, o, tradeId, timestamp, fmt).after;
      && (old_.quantity - o.quantity > 0.0 ==>
            PositionOf(a.positions, o.symbol).Some?
            && PositionOf(a.positions, o.symbol).value.avgCost == old_.avgCost
            && PositionOf(a.positions, o.symbol).value.quantity == old_.quantity - o.quantity)
      && (old_.quantity - o.quantity <= 0.0 ==> PositionOf(a.positions, o.symbol).None?)
  {
    var old_ := PositionOf(p.positions, o.symbol).value;
    var newPos := NewPosition(o.symbol, old_.quantity - o.quantity, old_.avgCost, o.price);
    var p1 := p.(currentBalance := NewBalance(p, o));
    var e := Execute(p, o, tradeId, timestamp, fmt);
    assert e == Settle(p1, o, Record(p, o, tradeId, timestamp));
    assert PositionOf(p1.positions, o.symbol) == Some(old_);
    assert e.after == AfterUpdate(p1, o.symbol, old_.quantity - o.quantity, old_.avgCost, o.price);
    PositionsAfterEffect(p.positions, newPos, o.symbol);
  }

  /** A buy of a symbol not held opens a position at the fill price (lines 604-605): the new
      record for a positive quantity, nothing for a non-positive one; other symbols' positions
      are untouched. */
  lemma BuyOpensPosition(p: DPortfolio, o: Order, tradeId: string, timestamp: string, fmt: Formats)
    requires o.side == "buy"
    requires UniqueSymbols(p.positions)
    requires PositionOf(p.positions, o.symbol).None?
    requires Execute(p, o, tradeId, timestamp, fmt).Completed?
    ensures var a := Execute(p, o, tradeId, timestamp, fmt).after;
      && (o.quantity > 0.0 ==>
            PositionOf(a.positions, o.symbol) == Some(NewPosition(o.symbol, o.quantity, o.price, o.price)))
      && (o.quantity <= 0.0 ==> PositionOf(a.positions, o.symbol).None?)
      && forall other :: other != o.symbol ==> PositionOf(a.positions, other) == PositionOf(p.positions, other)
  {
    var newPos := NewPosition(o.symbol, o.quantity, o.price, o.price);
    var p1 := p.(currentBalance := NewBalance(p, o));
    var e := Execute(p, o, tradeId, timestamp, fmt);
    assert e == Settle(p1, o, Record(p, o, tradeId, timestamp));
    assert PositionOf(p1.positions, o.symbol).None?;
    assert e.after == AfterUpdate(p1, o.symbol, o.quantity, o.price, o.price);
    assert e.after.positions == PositionsAfter(p.positions, newPos);
    PositionsAfterEffect(p.positions, newPos, o.symbol);
    forall other | other != o.symbol
      ensures PositionOf(e.after.positions, other) == PositionOf(p.positions, other)
    {
      PositionsAfterEffect(p.positions, newPos, other);
    }
  }

  /** The failure after the writes needs a buy whose quantity exactly cancels the holding;
      with positive stored quantities that quantity is negative. */
  lemma FailedAfterWriteNeedsNegativeBuy(p: DPortfolio, o: Order, tradeId: string, timestamp: string, fmt: Formats)
    requires PositiveQuantities(p.positions)
    requires Execute(p, o, tradeId, timestamp, fmt).FailedAfterWrite?
    ensures o.side == "buy" && o.quantity < 0.0
    ensures PositionOf(p.positions, o.symbol).Some?
    ensures o.quantity == -PositionOf(p.positions, o.symbol).value.quantity
  {
  }

  /** Concrete case: holding 5 shares, a buy of -5 at 10 passes validation (it costs -50),
      records the trade and the raised balance, and then fails with the positions untouched. */
  lemma NegativeBuyFailsAfterWrite(fmt: Formats)
    ensures var pos := NewPosition("AAPL", 5.0, 10.0, 10.0);
      var p := DPortfolio("p1", "u1", "Main", 1000.0, 950.0, [pos], 1000.0, 1000.0, 0.0, 0.0, [], true);
      var r := Execute(p, Order("p1", "AAPL", "buy", -5.0, 10.0, "market"), "t1", "2024-01-01T00:00:00", fmt);
      && r.FailedAfterWrite?
      && r.item.balanceAfter == 1000.0
      && r.after.positions == p.positions
  {
    var pos := NewPosition("AAPL", 5.0, 10.0, 10.0);
    var p := DPortfolio("p1", "u1", "Main", 1000.0, 950.0, [pos], 1000.0, 1000.0, 0.0, 0.0, [], true);
    assert FirstIndex(p.positions, "AAPL") == Some(0);
  }

  /** The evidently intended validation: a non-positive quantity is refused before any write. */
  function ValidateChecked(p: DPortfolio, o: Order, fmt: Formats): Option<string> {
    if o.quantity <= 0.0 then Some("Quantity must be positive") else Validate(p, o, fmt)
  }

  /** `execute_trade` with the quantity check in front of the existing validation. */
  function ExecuteChecked(p: DPortfolio, o: Order, tradeId: string, timestamp: string, fmt: Formats): Outcome {
    match ValidateChecked(p, o, fmt)
    case Some(msg) => Rejected(msg)
    case None => Execute(p, o, tradeId, timestamp, fmt)
  }

  /** With the quantity check, a trade is either refused before any write or completes:
      it can no longer fail half-way. */
  lemma ExecuteCheckedNeverFailsAfterWrite(p: DPortfolio, o: Order, tradeId: string, timestamp: string, fmt: Formats)
    requires PositiveQuantities(p.positions)
    ensures !ExecuteChecked(p, o, tradeId, timestamp, fmt).FailedAfterWrite?
    ensures ExecuteChecked(p, o, tradeId, timestamp, fmt).Rejected?
            <==> o.quantity <= 0.0 || Validate(p, o, fmt).Some?
  {
    if o.quantity > 0.0 && Execute(p, o, tradeId, timestamp, fmt).FailedAfterWrite? {
      FailedAfterWriteNeedsNegativeBuy(p, o, tradeId, timestamp, fmt);
    }
  }

  // ---------------------------------------------------------------------------
  // The service object

  /** A `DynamoDBService` seen through its portfolios and trades tables. */
  class LedgerService {
    var portfolios: map<string, DPortfolio>
    var trades: seq<TradeItem>

    constructor (portfolios: map<string, DPortfolio>, trades: seq<TradeItem>)
      ensures this.portfolios == portfolios && this.trades == trades
    {
      this.portfolios := portfolios;
      this.trades := trades;
    }

    /** `get_position`: the first position for `symbol`, or None (also for an unknown portfolio). */
    method GetPosition(portfolioId: string, symbol: string) returns (r: Option<DPosition>)
      ensures portfolioId !in portfolios ==> r.None?
      ensures portfolioId in portfolios ==> r == PositionOf(portfolios[portfolioId].positions, symbol)
    {
      if portfolioId !in portfolios {
        return None;
      }
      var positions := portfolios[portfolioId].positions;
      var i := 0;
      while i < |positions|
        invariant 0 <= i <= |positions|
        invariant forall j :: 0 <= j < i ==> positions[j].symbol != symbol
      {
        if positions[i].symbol == symbol {
          return Some(positions[i]);
        }
        i := i + 1;
      }
      return None;
    }

    /** `update_position`: rewrites the position list by the four cases and recomputes the
        totals; an unknown portfolio raises and nothing is written. */
    method UpdatePosition(portfolioId: string, symbol: string, quantity: real, avgCost: real, currentPrice: real)
      returns (r: Result<DPortfolio>)
      modifies this
      ensures trades == old(trades)
      ensures portfolioId !in old(portfolios) ==>
        r == Err("Portfolio " + portfolioId + " not found") && portfolios == old(portfolios)
      ensures portfolioId in old(portfolios) ==>
        && r == Ok(AfterUpdate(old(portfolios)[portfolioId], symbol, quantity, avgCost, currentPrice))
        && portfolios == old(portfolios)[portfolioId := r.value]
    {
      if portfolioId !in portfolios {
        return Err("Portfolio " + portfolioId + " not found");
      }
      var p := portfolios[portfolioId];
      var positions := p.positions;
      var existing: Option<nat> := None;
      var i := 0;
      while i < |positions|
        invariant 0 <= i <= |positions|
        invariant forall j :: 0 <= j < i ==> positions[j].symbol != symbol
      {
        if positions[i].symbol == symbol {
          existing := Some(i);
          break;
        }
        i := i + 1;
      }
      assert existing == FirstIndex(positions, symbol);
      var newPos := NewPosition(symbol, quantity, avgCost, currentPrice);
      match existing {
        case Some(k) =>
          if quantity <= 0.0 {
            positions := positions[..k] + positions[k + 1..];
          } else {
            positions := positions[k := newPos];
          }
        case None =>
          if quantity > 0.0 {
            positions := positions + [newPos];
          }
      }
      var updated := WithTotals(p, positions);
      portfolios := portfolios[portfolioId := updated];
      r := Ok(updated);
    }

    /** `execute_trade`: validates against the stored portfolio before writing anything;
        then records the trade, stores the new balance and updates the position. */
    method ExecuteTrade(portfolioId: string, symbol: string, side: string, quantity: real, price: real,
                        tradeType: string, tradeId: string, timestamp: string, fmt: Formats)
      returns (r: Result<TradeItem>)
      modifies this
      ensures portfolioId !in old(portfolios) ==>
        r == Err("Portfolio " + portfolioId + " not found") && unchanged(this)
      ensures portfolioId in old(portfolios) ==>
        match Execute(old(portfolios)[portfolioId], Order(portfolioId, symbol, side, quantity, price, tradeType),
                      tradeId, timestamp, fmt)
        case Rejected(msg) => r == Err(msg) && unchanged(this)
        case Completed(item, after) =>
          r == Ok(item) && trades == old(trades) + [item] && portfolios == old(portfolios)[portfolioId := after]
        case FailedAfterWrite(msg, item, after) =>
          r == Err(msg) && trades == old(trades) + [item] && portfolios == old(portfolios)[portfolioId := after]
    {
      if portfolioId !in portfolios {
        return Err("Portfolio " + portfolioId + " not found");
      }
      var portfolio := portfolios[portfolioId];
      var total := quantity * price;
      if side == "buy" {
        if total > portfolio.currentBalance {
          return Err("Insufficient balance. Need $" + fmt.money(total) + ", have $" + fmt.money(portfolio.currentBalance));
        }
      } else if side == "sell" {
        var position := GetPosition(portfolioId, symbol);
        if position.None? || position.value.quantity < quantity {
          var available := if position.Some? then fmt.show(position.value.quantity) else "0";
          return Err("Insufficient shares. Trying to sell " + fmt.show(quantity) + ", have " + available);
        }
      } else {
        return Err("Invalid trade side: " + side);
      }
      var newBalance := if side == "buy" then portfolio.currentBalance - total else portfolio.currentBalance + total;
      var item := TradeItem(tradeId, portfolioId, timestamp, symbol, side, quantity, price, total,
                            tradeType, portfolio.currentBalance, newBalance, "completed");
      var o := Order(portfolioId, symbol, side, quantity, price, tradeType);
      assert Validate(portfolio, o, fmt).None?;
      assert item == Record(portfolio, o, tradeId, timestamp);
      assert newBalance == NewBalance(portfolio, o);
      assert Execute(portfolio, o, tradeId, timestamp, fmt) == Settle(portfolio.(currentBalance := newBalance), o, item);
      trades := trades + [item];
      portfolios := portfolios[portfolioId := portfolio.(currentBalance := newBalance)];
      r := SettlePosition(o, item);
    }

    /** The position step of `execute_trade`, run once the trade and the new balance are
        written: merge the bought quantity into the position (dividing by the new quantity),
        or reduce it by the sold one. */
    method SettlePosition(o: Order, item: TradeItem) returns (r: Result<TradeItem>)
      requires o.portfolioId in portfolios
      modifies this
      ensures trades == old(trades)
      ensures var out := Settle(old(portfolios)[o.portfolioId], o, item);
              && portfolios == old(portfolios)[o.portfolioId := out.after]
              && r == (if out.FailedAfterWrite? then Err(out.msg) else Ok(item))
    {
      ghost var p1 := portfolios[o.portfolioId];
      var position := GetPosition(o.portfolioId, o.symbol);
      if o.side == "buy" {
        if position.Some? {
          var newQuantity := position.value.quantity + o.quantity;
          if newQuantity == 0.0 {
            assert Settle(p1, o, item) == FailedAfterWrite("float division by zero", item, p1);
            assert portfolios == old(portfolios)[o.portfolioId := p1];
            return Err("float division by zero");
          }
          var newAvg := MergedAvg(position.value, o);
          assert Settle(p1, o, item) == Completed(item, AfterUpdate(p1, o.symbol, newQuantity, newAvg, o.price));
          var _ := UpdatePosition(o.portfolioId, o.symbol, newQuantity, newAvg, o.price);
        } else {
          assert Settle(p1, o, item) == Completed(item, AfterUpdate(p1, o.symbol, o.quantity, o.price, o.price));
          var _ := UpdatePosition(o.portfolioId, o.symbol, o.quantity, o.price, o.price);
        }
      } else if position.Some? {
        var newQuantity := position.value.quantity - o.quantity;
        assert Settle(p1, o, item)
            == Completed(item, AfterUpdate(p1, o.symbol, newQuantity, position.value.avgCost, o.price));
        var _ := UpdatePosition(o.portfolioId, o.symbol, newQuantity, position.value.avgCost, o.price);
      } else {
        // A sell without a position was refused before anything was written; `Settle` treats it as a buy.
        assert Settle(p1, o, item) == Completed(item, AfterUpdate(p1, o.symbol, o.quantity, o.price, o.price));
        var _ := UpdatePosition(o.portfolioId, o.symbol, o.quantity, o.price, o.price);
      }
      r := Ok(item);
    }

    /** `add_tracked_symbol`: appends the symbol when it is not tracked yet. */
    method AddTrackedSymbol(portfolioId: string, symbol: string) returns (r: Result<DPortfolio>)
      modifies this
      ensures trades == old(trades)
      ensures portfolioId !in old(portfolios) ==>
        r == Err("Portfolio " + portfolioId + " not found") && portfolios == old(portfolios)
      ensures portfolioId in old(portfolios) ==>
        var p := old(portfolios)[portfolioId];
        && r == Ok(p.(trackedSymbols := Added(p.trackedSymbols, symbol)))
        && portfolios == old(portfolios)[portfolioId := r.value]
    {
      if portfolioId !in portfolios {
        return Err("Portfolio " + portfolioId + " not found");
      }
      var p := portfolios[portfolioId];
      if symbol !in p.trackedSymbols {
        var updated := p.(trackedSymbols := p.trackedSymbols + [symbol]);
        portfolios := portfolios[portfolioId := updated];
        return Ok(updated);
      }
      return Ok(p);
    }

    /** `remove_tracked_symbol`: deletes the first occurrence when the symbol is tracked. */
    method RemoveTrackedSymbol(portfolioId: string, symbol: string) returns (r: Result<DPortfolio>)
      modifies this
      ensures trades == old(trades)
      ensures portfolioId !in old(portfolios) ==>
        r == Err("Portfolio " + portfolioId + " not found") && portfolios == old(portfolios)
      ensures portfolioId in old(portfolios) ==>
        var p := old(portfolios)[portfolioId];
        && r == Ok(p.(trackedSymbols := Removed(p.trackedSymbols, symbol)))
        && portfolios == old(portfolios)[portfolioId := r.value]
    {
      if portfolioId !in portfolios {
        return Err("Portfolio " + portfolioId + " not found");
      }
      var p := portfolios[portfolioId];
      if symbol in p.trackedSymbols {
        var updated := p.(trackedSymbols := RemoveFirst(p.trackedSymbols, symbol));
        portfolios := portfolios[portfolioId := updated];
        return Ok(updated);
      }
      return Ok(p);
    }
  }

  // ---------------------------------------------------------------------------
  // Trades across portfolios

  function Timestamp(t: TradeItem): string {
    t.timestamp
  }

  function Concat(lists: seq<seq<TradeItem>>): seq<TradeItem> {
    if |lists| == 0 then [] else Concat(lists[..|lists| - 1]) + lists[|lists| - 1]
  }

  /** `get_user_trades`, given the trade lists the per-portfolio queries returned (in the
      order of the user's portfolios): extends one list with all of them, sorts newest first
      and keeps at most `limit`. */
  method GetUserTrades(perPortfolio: seq<seq<TradeItem>>, limit: int) returns (r: seq<TradeItem>)
    ensures r == PyTake(SortNewestFirst(Concat(perPortfolio), Timestamp), limit)
    ensures NewestFirst(r, Timestamp)
    ensures limit >= 0 ==> |r| == if limit < |Concat(perPortfolio)| then limit else |Concat(perPortfolio)|
    ensures forall t :: t in r ==> exists k :: 0 <= k < |perPortfolio| && t in perPortfolio[k]
  {
    var all: seq<TradeItem> := [];
    var k := 0;
    while k < |perPortfolio|
      invariant 0 <= k <= |perPortfolio|
      invariant all == Concat(perPortfolio[..k])
    {
      assert perPortfolio[..k + 1][..k] == perPortfolio[..k];
      all := all + perPortfolio[k];
      k := k + 1;
    }
    assert perPortfolio[..k] == perPortfolio;
    var sorted := SortNewestFirst(all, Timestamp);
    r := PyTake(sorted, limit);
    PrefixNewestFirst(sorted, limit, Timestamp);
    forall t | t in r
      ensures exists k :: 0 <= k < |perPortfolio| && t in perPortfolio[k]
    {
      assert t in sorted;
      assert multiset(sorted)[t] > 0;
      assert t in all;
      ConcatMember(perPortfolio, t);
    }
  }

  lemma {:induction false} ConcatMember(lists: seq<seq<TradeItem>>, t: TradeItem)
    requires t in Concat(lists)
    ensures exists k :: 0 <= k < |lists| && t in lists[k]
  {
    var n := |lists| - 1;
    if t !in lists[n] {
      ConcatMember(lists[..n], t);
      var k :| 0 <= k < |lists[..n]| && t in lists[..n][k];
      assert lists[k] == lists[..n][k];
    }
  }
}

=== FILE: json.dfy ===
/** Python values as they travel through the backend: JSON documents, table items and
    the dicts the handlers pass around. `Dec` is a `decimal.Decimal` (what the DynamoDB
    client hands back for every number), `Flt` a Python `float`. */
module Json {
  import opened Wrappers

  datatype Value =
    | Null
    | Bool(b: bool)
    | Int(i: int)
    | Flt(f: real)
    | Dec(d: real)
    | Str(s: string)
    | List(items: seq<Value>)
    | Dict(fields: map<string, Value>)

  /** Python truthiness (`if x:` / `not x`). */
  predicate Truthy(v: Value) {
    match v
    case Null => false
    case Bool(b) => b
    case Int(i) => i != 0
    case Flt(f) => f != 0.0
    case Dec(d) => d != 0.0
    case Str(s) => |s| > 0
    case List(xs) => |xs| > 0
    case Dict(m) => |m| > 0
  }

  /** `d.get(key)` on a dict; `None` also when `v` is not a dict (where Python would raise). */
  function Get(v: Value, key: string): Option<Value> {
    if v.Dict? && key in v.fields then Some(v.fields[key]) else None
  }

  /** `d.get(key, default)` on a dict that is known to be a dict. */
  function GetOr(m: map<string, Value>, key: string, default: Value): Value {
    if key in m then m[key] else default
  }

  /** Numeric value of a Python number (bool counts as 0/1, as in Python arithmetic). */
  function Number(v: Value): Option<real> {
    match v
    case Bool(b) => Some(if b then 1.0 else 0.0)
    case Int(i) => Some(i as real)
    case Flt(f) => Some(f)
    case Dec(d) => Some(d)
    case _ => None
  }
}

=== FILE: lambda_event.dfy ===
/** Request parsing shared by the two Lambda handlers (market_data/handler.py and
    llm_agents/handler.py): an API Gateway event carries the request in `body`, as a JSON
    string or already decoded; a direct invocation is the request itself. */
module LambdaEvent {
  import opened Wrappers
  import opened Json

  /** The request dict, or None when the handler would raise before routing: `json.loads`
      rejects the body text (`loads` yields None), or the request is not a dict, so the
      following `.get` fails. Both become the handler's status-500 reply. */
  function RequestOf(event: map<string, Value>, loads: string -> Option<Value>): (r: Option<map<string, Value>>)
    ensures "body" !in event ==> r == Some(event)
    ensures ("body" in event && event["body"].Dict?) ==> r == Some(event["body"].fields)
    ensures ("body" in event && event["body"].Str? && loads(event["body"].s).Some?
             && loads(event["body"].s).value.Dict?) ==> r == Some(loads(event["body"].s).value.fields)
    ensures r.None? <==> ("body" in event && !event["body"].Dict?
                          && (event["body"].Str? ==> (loads(event["body"].s).None? || !loads(event["body"].s).value.Dict?)))
  {
    if "body" !in event then Some(event)
    else
      var body := event["body"];
      var decoded := if body.Str? then loads(body.s) else Some(body);
      if decoded.Some? && decoded.value.Dict? then Some(decoded.value.fields) else None
  }

  /** The three ways of delivering the same request agree: as the event itself, as an
      already-decoded `body`, and as a `body` string that decodes to it. */
  lemma DeliveriesAgree(request: map<string, Value>, text: string, loads: string -> Option<Value>)
    requires "body" !in request
    requires loads(text) == Some(Dict(request))
    ensures RequestOf(request, loads) == Some(request)
    ensures RequestOf(map["body" := Dict(request)], loads) == Some(request)
    ensures RequestOf(map["body" := Str(text)], loads) == Some(request)
  {
  }
}

=== FILE: llm_agents.dfy ===
/** The agents Lambda of llm_agents/handler.py: parse the request, require messages, put the
    agent context in front of the first user message, pick the agent's system prompt, call
    Bedrock in the configured model's shape and return its text. The Bedrock runtime and JSON
    encoding are parameters. */
module LlmAgents {
  import opened Wrappers
  import opened Json
  import opened ModelRequest
  import opened LambdaEvent

  const DefaultModelId := "anthropic.claude-3-5-sonnet-20241022-v2:0"

  const PlannerPrompt :=
    "Create a compact, level-based curriculum for the user's goal. "
    + "Return JSON with levels and lessons."

  const CoachPrompt :=
    "You are a friendly trading coach who explains concepts clearly in plain text.\n\n"
    + "CRITICAL FORMATTING:\n"
    + "- DO NOT repeat the user's question\n"
    + "- Write in plain text (NO markdown, NO **, NO ##)\n"
    + "- Use simple numbered lists (1. 2. 3.) instead of bullets\n"
    + "- Keep explanations clear and concise\n\n"
    + "CONTENT:\n"
    + "- Explain trading concepts with real examples\n"
    + "- Break down complex ideas into simple steps\n"
    + "- Provide practical, actionable guidance\n"
    + "- Educational only - never give financial advice\n"
    + "- Focus on paper trading and learning"

  const CriticPrompt :=
    "You are JBAC's AI Trading Coach. Provide clear, concise responses in plain text.\n\n"
    + "CRITICAL FORMATTING RULES:\n"
    + "1. DO NOT repeat the user's question\n"
    + "2. DO NOT use markdown formatting (no **, ##, -, *, etc.)\n"
    + "3. Write in plain paragraphs with natural line breaks\n"
    + "4. Start directly with your answer\n"
    + "5. Be concise - keep responses under 300 words unless analysis requires more\n\n"
    + "CONTENT GUIDELINES:\n"
    + "- Teach trading concepts safely and clearly\n"
    + "- Explain indicators (RSI, EMA, MACD) when relevant\n"
    + "- Provide actionable, risk-aware feedback\n"
    + "- Never give financial advice - only educational guidance\n"
    + "- Focus on paper trading and learning\n\n"
    + "RESPONSE STRUCTURE:\n"
    + "- Decision first (BUY/SELL/HOLD/WAIT)\n"
    + "- Key reasoning (2-3 sentences)\n"
    + "- Supporting details if needed\n"
    + "- Risk considerations\n"
    + "- Next steps for the user"

  const SynthesizerPrompt :=
    "Synthesize trade analysis into a clear, actionable recommendation.\n"
    + "Provide: Decision, Reasoning, Risk Assessment, Next Steps."

  const SystemPrompts: map<string, string> :=
    map["planner" := PlannerPrompt, "coach" := CoachPrompt, "critic" := CriticPrompt,
        "synthesizer" := SynthesizerPrompt]

  /** `SYSTEM_PROMPTS.get(agent, SYSTEM_PROMPTS["coach"])`: a known agent name gets its prompt,
      anything else the coach's; None for a list or dict, which cannot be a dict key. */
  function SystemPromptFor(agent: Value): (r: Option<string>)
    ensures r.None? <==> agent.List? || agent.Dict?
    ensures agent.Str? && agent.s in SystemPrompts ==> r == Some(SystemPrompts[agent.s])
    ensures !(agent.Str? && agent.s in SystemPrompts) && !agent.List? && !agent.Dict? ==> r == Some(CoachPrompt)
  {
    if agent.List? || agent.Dict? then None
    else if agent.Str? && agent.s in SystemPrompts then Some(SystemPrompts[agent.s])
    else Some(CoachPrompt)
  }

  /** Any agent name outside the four known ones is coached. */
  lemma UnknownAgentIsCoach(name: string)
    requires name !in {"planner", "coach", "critic", "synthesizer"}
    ensures SystemPromptFor(Str(name)) == Some(CoachPrompt)
  {
  }

  /** The context block put in front of the first message's content. */
  function ContextBlock(context: string, original: string): string {
    "Context:\n" + context + "\n\n" + original
  }

  /** `f"{value}"`: a string as it is, anything else as `str()` renders it. */
  function Show(v: Value, str: Value -> string): string {
    if v.Str? then v.s else str(v)
  }

  /** The message list is a non-empty list whose first element is a dict. */
  predicate FirstIsDict(messages: Value) {
    messages.List? && |messages.items| > 0 && messages.items[0].Dict?
  }

  /** The message dict `messages[0]` with its content put after the context block. */
  function WithBlock(first: map<string, Value>, context: Value, dumpsIndented: Value -> string, str: Value -> string): map<string, Value>
    requires "content" in first
  {
    first["content" := Str(ContextBlock(dumpsIndented(context), Show(first["content"], str)))]
  }

  /** The context step: with a truthy context and a non-empty message list whose first message
      has role "user", that message's content becomes the context block; nothing else changes.
      None where Python raises: the first message cannot be read as a dict, or has no content. */
  function WithContext(messages: Value, context: Value, dumpsIndented: Value -> string, str: Value -> string): (r: Option<Value>)
    ensures !Truthy(context) || !Truthy(messages) ==> r == Some(messages)
    ensures (Truthy(context) && FirstIsDict(messages)
             && GetOr(messages.items[0].fields, "role", Null) == Str("user")
             && "content" in messages.items[0].fields) ==>
              r == Some(List([Dict(WithBlock(messages.items[0].fields, context, dumpsIndented, str))]
                             + messages.items[1..]))
    ensures (FirstIsDict(messages) && GetOr(messages.items[0].fields, "role", Null) != Str("user")) ==>
              r == Some(messages)
    ensures r.None? <==> (Truthy(context) && Truthy(messages)
                          && (!FirstIsDict(messages)
                              || (GetOr(messages.items[0].fields, "role", Null) == Str("user")
                                  && "content" !in messages.items[0].fields)))
  {
    if !Truthy(context) || !Truthy(messages) then Some(messages)
    else if !FirstIsDict(messages) then None
    else
      var first := messages.items[0].fields;
      if GetOr(first, "role", Null) != Str("user") then Some(messages)
      else if "content" !in first then None
      else Some(List([Dict(WithBlock(first, context, dumpsIndented, str))] + messages.items[1..]))
  }

  /** A first message from the assistant (or any role but "user") is never given the context. */
  lemma ContextOnlyForUser(first: map<string, Value>, rest: seq<Value>, context: Value,
                           dumpsIndented: Value -> string, str: Value -> string)
    requires GetOr(first, "role", Null) != Str("user")
    ensures WithContext(List([Dict(first)] + rest), context, dumpsIndented, str) == Some(List([Dict(first)] + rest))
  {
  }

  /** The decoded reply body; `ServerError` carries the status-500 error text when it is one the
      handler spells out, None when it is Python's own exception message. */
  datatype Body =
    | Answered(agent: Value, response: string, model: string)
    | Error(error: string)
    | ServerError(detail: Option<string>)

  datatype Response = Response(statusCode: int, body: Body)

  /** `lambda_handler` with `invoke_bedrock` inlined. `sent` is the request body handed to
      Bedrock, None when Bedrock was not called. */
  method Handle(event: map<string, Value>, loads: string -> Option<Value>, dumpsIndented: Value -> string,
                str: Value -> string, modelId: string, invoke: (string, Value) -> BedrockCall)
    returns (resp: Response, sent: Option<Value>)
    ensures RequestOf(event, loads).None? ==> resp == Response(500, ServerError(None)) && sent == None
    ensures RequestOf(event, loads).Some? ==>
              var req := RequestOf(event, loads).value;
              var agent := GetOr(req, "agent", Str("coach"));
              var messages := GetOr(req, "messages", List([]));
              var prepared := WithContext(messages, GetOr(req, "context", Dict(map[])), dumpsIndented, str);
              var family := FamilyOf(modelId);
              if !Truthy(messages) then resp == Response(400, Error("messages are required")) && sent == None
              else if prepared.None? || SystemPromptFor(agent).None? then
                resp == Response(500, ServerError(None)) && sent == None
              else
                var body := RequestBody(family, SystemPromptFor(agent).value, prepared.value,
                                        GetOr(req, "max_tokens", Int(1024)), GetOr(req, "temperature", Flt(0.2)));
                if body.None? then resp == Response(500, ServerError(None)) && sent == None
                else sent == body && match invoke(modelId, body.value)
                  case Responded(reply) =>
                    resp == Response(200, Answered(agent, ReplyText(family, reply, ""), modelId))
                  case ClientFailure(code, message) =>
                    resp == Response(500, ServerError(Some("Bedrock Error: " + code + " - " + message)))
                  case Raised(message) =>
                    resp == Response(500, ServerError(Some(message)))
  {
    sent := None;
    var request := RequestOf(event, loads);
    if request.None? {
      return Response(500, ServerError(None)), None;
    }
    var req := request.value;
    var agent := GetOr(req, "agent", Str("coach"));
    var messages := GetOr(req, "messages", List([]));
    var maxTokens := GetOr(req, "max_tokens", Int(1024));
    var temperature := GetOr(req, "temperature", Flt(0.2));
    var context := GetOr(req, "context", Dict(map[]));
    if !Truthy(messages) {
      return Response(400, Error("messages are required")), None;
    }
    var prepared := WithContext(messages, context, dumpsIndented, str);
    if prepared.None? {
      return Response(500, ServerError(None)), None;
    }
    var system := SystemPromptFor(agent);
    if system.None? {
      return Response(500, ServerError(None)), None;
    }
    var body := RequestBody(FamilyOf(modelId), system.value, prepared.value, maxTokens, temperature);
    if body.None? {
      return Response(500, ServerError(None)), None;
    }
    sent := body;
    match invoke(modelId, body.value)
    case Responded(reply) =>
      resp := Response(200, Answered(agent, ReplyText(FamilyOf(modelId), reply, ""), modelId));
    case ClientFailure(code, message) =>
      resp := Response(500, ServerError(Some("Bedrock Error: " + code + " - " + message)));
    case Raised(message) =>
      resp := Response(500, ServerError(Some(message)));
  }
}

=== FILE: llm_logger.dfy ===
/** The LLM audit log of backend/services/llm_logger.py: one JSON line per model call, and a
    pass over the log that counts requests per provider and model, errors and tokens and
    averages the recorded durations. The log file is the `lines` field of `TransactionLog`;
    JSON encoding and decoding of a line are parameters. */
module LlmLogger {
  import opened Wrappers
  import opened Json
  import opened Text

  const PreviewLength := 500

  /** The dict written for one call. */
  datatype LogEntry = LogEntry(
    timestamp: string,
    provider: string,
    model: string,
    messages: Value,
    response: Option<string>,
    responseLength: nat,
    tokensUsed: map<string, int>,
    durationMs: Option<int>,
    error: Option<string>,
    success: bool,
    metadata: map<string, Value>)

  /** `log_llm_transaction`'s entry: the response cut to its first 500 characters (None when
      empty) with its full length beside it, success exactly when there is no error, and
      missing token counts or metadata logged as empty dicts. `now` is the UTC clock in ISO
      form. */
  function Entry(provider: string, model: string, messages: Value, response: string,
                 tokensUsed: Option<map<string, int>>, durationMs: Option<int>, error: Option<string>,
                 metadata: Option<map<string, Value>>, now: string): (e: LogEntry)
    ensures e.response.None? <==> response == ""
    ensures e.response.Some? ==>
              e.response.value <= response
              && |e.response.value| == (if |response| < PreviewLength then |response| else PreviewLength)
    ensures e.responseLength == |response|
    ensures e.success <==> error.None?
    ensures tokensUsed.None? ==> e.tokensUsed == map[]
    ensures metadata.None? ==> e.metadata == map[]
    ensures e.timestamp == now + "Z"
  {
    LogEntry(now + "Z", provider, model, messages,
             if response == "" then None else Some(PyTake(response, PreviewLength)),
             |response|,
             tokensUsed.GetOr(map[]),
             durationMs, error, error.None?,
             metadata.GetOr(map[]))
  }

  /** The fields of a decoded log line that the statistics read; None where the key is absent
      (or, for the duration, null). */
  datatype ParsedEntry = ParsedEntry(provider: Option<string>, model: Option<string>, success: Option<Value>,
                                     tokensUsed: Option<map<string, int>>, durationMs: Option<int>)

  /** Counts per name, in the order the names first appeared (a Python dict). */
  type Counts = seq<(string, nat)>

  function SumCounts(c: Counts): nat {
    if |c| == 0 then 0 else c[0].1 + SumCounts(c[1..])
  }

  function CountOf(c: Counts, key: string): nat {
    if |c| == 0 then 0 else (if c[0].0 == key then c[0].1 else 0) + CountOf(c[1..], key)
  }

  /** `counts[key] = counts.get(key, 0) + 1` */
  function Bump(c: Counts, key: string): (r: Counts)
    ensures SumCounts(r) == SumCounts(c) + 1
    ensures CountOf(r, key) == CountOf(c, key) + 1
    ensures forall other :: other != key ==> CountOf(r, other) == CountOf(c, other)
  {
    if |c| == 0 then [(key, 1)]
    else if c[0].0 == key then [(key, c[0].1 + 1)] + c[1..]
    else
      var rest := Bump(c[1..], key);
      assert ([c[0]] + rest)[1..] == rest;
      [c[0]] + rest
  }

  /** The running statistics; `failed` records that a line could not be decoded, which ends
      the pass. */
  datatype Acc = Acc(total: nat, providers: Counts, models: Counts, errors: nat,
                     inputTokens: int, outputTokens: int, durations: seq<int>, failed: bool)

  const Start := Acc(0, [], [], 0, 0, 0, [], false)

  /** A line that `strip()` empties (see `Text.StripEmpty`). */
  predicate Blank(line: string) {
    AllSpace(line)
  }

  function TokenCount(tokens: Option<map<string, int>>, key: string): int {
    if tokens.Some? && key in tokens.value then tokens.value[key] else 0
  }

  /** The counters after one decoded entry. */
  function Counted(acc: Acc, e: ParsedEntry): Acc {
    Acc(acc.total + 1,
        Bump(acc.providers, e.provider.GetOr("unknown")),
        Bump(acc.models, e.model.GetOr("unknown")),
        acc.errors + (if Truthy(e.success.GetOr(Bool(true))) then 0 else 1),
        acc.inputTokens + TokenCount(e.tokensUsed, "input_tokens"),
        acc.outputTokens + TokenCount(e.tokensUsed, "output_tokens"),
        acc.durations + (if e.durationMs.Some? && e.durationMs.value != 0 then [e.durationMs.value] else []),
        acc.failed)
  }

  /** One line of the pass. */
  function Step(acc: Acc, line: string, parse: string -> Option<ParsedEntry>): Acc {
    if acc.failed || Blank(line) then acc
    else match parse(line)
      case None => acc.(failed := true)
      case Some(e) => Counted(acc, e)
  }

  /** The pass over the lines, up to the first line that fails to decode. */
  function Fold(lines: seq<string>, parse: string -> Option<ParsedEntry>): Acc {
    if |lines| == 0 then Start
    else Step(Fold(lines[..|lines| - 1], parse), lines[|lines| - 1], parse)
  }

  /** Each name table sums to the request count, errors never exceed it, and only non-zero
      durations are kept. */
  predicate Consistent(acc: Acc) {
    && SumCounts(acc.providers) == acc.total && SumCounts(acc.models) == acc.total
    && acc.errors <= acc.total && |acc.durations| <= acc.total
    && forall k :: 0 <= k < |acc.durations| ==> acc.durations[k] != 0
  }

  lemma StepConsistent(acc: Acc, line: string, parse: string -> Option<ParsedEntry>)
    requires Consistent(acc)
    ensures Consistent(Step(acc, line, parse))
  {
  }

  /** Every pass, over any lines, leaves consistent statistics. */
  lemma {:induction false} FoldConsistent(lines: seq<string>, parse: string -> Option<ParsedEntry>)
    ensures Consistent(Fold(lines, parse))
  {
    if |lines| > 0 {
      FoldConsistent(lines[..|lines| - 1], parse);
      StepConsistent(Fold(lines[..|lines| - 1], parse), lines[|lines| - 1], parse);
    }
  }

  /** Once a line has failed, later lines change nothing. */
  lemma {:induction false} FailedStays(lines: seq<string>, j: nat, k: nat, parse: string -> Option<ParsedEntry>)
    requires j <= k <= |lines|
    requires Fold(lines[..j], parse).failed
    ensures Fold(lines[..k], parse) == Fold(lines[..j], parse)
  {
    if k > j {
      FailedStays(lines, j, k - 1, parse);
      FoldNext(lines, k - 1, parse);
      StepWhenFailed(Fold(lines[..k - 1], parse), lines[k - 1], parse);
    }
  }

  lemma StepWhenFailed(acc: Acc, line: string, parse: string -> Option<ParsedEntry>)
    requires acc.failed
    ensures Step(acc, line, parse) == acc
  {
  }

  /** The pass over one more line is one more step. */
  lemma FoldNext(lines: seq<string>, i: nat, parse: string -> Option<ParsedEntry>)
    requires i < |lines|
    ensures Fold(lines[..i + 1], parse) == Step(Fold(lines[..i], parse), lines[i], parse)
  {
    var p := lines[..i + 1];
    assert p[..|p| - 1] == lines[..i];
    assert p[|p| - 1] == lines[i];
  }

  function Sum(xs: seq<int>): int {
    if |xs| == 0 then 0 else Sum(xs[..|xs| - 1]) + xs[|xs| - 1]
  }

  function Mean(xs: seq<int>): real
    requires |xs| > 0
  {
    Sum(xs) as real / |xs| as real
  }

  /** `get_transaction_stats` with a log file: the counters, name tables and token sums, and
      the mean of the kept durations (0 when there are none, or when the pass failed). */
  datatype Stats = Stats(totalRequests: nat, providers: Counts, models: Counts, errors: nat,
                         totalInputTokens: int, totalOutputTokens: int, avgDurationMs: real)

  /** Without a log file only four zero entries are reported. */
  datatype StatsReport = NoLog(totalRequests: nat, providers: Counts, errors: nat, totalTokens: int) | Full(stats: Stats)

  function Report(acc: Acc): Stats {
    Stats(acc.total, acc.providers, acc.models, acc.errors, acc.inputTokens, acc.outputTokens,
          if acc.failed || |acc.durations| == 0 then 0.0 else Mean(acc.durations))
  }

  /** The body of the pass for one line: skip a blank line, stop at one that does not
      decode, otherwise count the entry field by field. */
  method Tally(stats: Acc, line: string, parse: string -> Option<ParsedEntry>) returns (next: Acc)
    requires !stats.failed
    ensures next == Step(stats, line, parse)
  {
    next := stats;
    if Blank(line) {
      return;
    }
    match parse(line)
    case None =>
      next := next.(failed := true);
    case Some(entry) =>
      next := next.(total := next.total + 1);
      next := next.(providers := Bump(next.providers, entry.provider.GetOr("unknown")));
      next := next.(models := Bump(next.models, entry.model.GetOr("unknown")));
      if !Truthy(entry.success.GetOr(Bool(true))) {
        next := next.(errors := next.errors + 1);
      }
      next := next.(inputTokens := next.inputTokens + TokenCount(entry.tokensUsed, "input_tokens"));
      next := next.(outputTokens := next.outputTokens + TokenCount(entry.tokensUsed, "output_tokens"));
      if entry.durationMs.Some? && entry.durationMs.value != 0 {
        next := next.(durations := next.durations + [entry.durationMs.value]);
      }
  }

  class TransactionLog {
    /** The log file's lines; None while there is no file. */
    var lines: Option<seq<string>>

    constructor()
      ensures lines == None
    {
      lines := None;
    }

    /** `log_llm_transaction`: build the entry and append it as one line. A failed write is
        swallowed and leaves the file as it was. */
    method Log(provider: string, model: string, messages: Value, response: string,
               tokensUsed: Option<map<string, int>>, durationMs: Option<int>, error: Option<string>,
               metadata: Option<map<string, Value>>, now: string, dumps: LogEntry -> string, writable: bool)
      returns (entry: LogEntry)
      modifies this
      ensures entry == Entry(provider, model, messages, response, tokensUsed, durationMs, error, metadata, now)
      ensures writable ==> lines == Some(old(lines).GetOr([]) + [dumps(entry)])
      ensures !writable ==> lines == old(lines)
    {
      entry := Entry(provider, model, messages, response, tokensUsed, durationMs, error, metadata, now);
      if writable {
        lines := Some(lines.GetOr([]) + [dumps(entry)]);
      }
    }

    /** `get_transaction_stats`: reads the lines one by one, skipping blank ones; a line that
        does not decode ends the pass with the counts so far. */
    method TransactionStats(parse: string -> Option<ParsedEntry>) returns (r: StatsReport)
      ensures lines.None? ==> r == NoLog(0, [], 0, 0)
      ensures lines.Some? ==> r == Full(Report(Fold(lines.value, parse)))
    {
      if lines.None? {
        return NoLog(0, [], 0, 0);
      }
      var file := lines.value;
      var stats := Start;
      var i := 0;
      while i < |file| && !stats.failed
        invariant 0 <= i <= |file|
        invariant Fold(file[..i], parse) == stats
      {
        FoldNext(file, i, parse);
        stats := Tally(stats, file[i], parse);
        i := i + 1;
      }
      if i < |file| {
        FailedStays(file, i, |file|, parse);
      }
      assert file[..|file|] == file;
      var avg := 0.0;
      if !stats.failed && |stats.durations| > 0 {
        avg := Sum(stats.durations) as real / |stats.durations| as real;
      }
      r := Full(Stats(stats.total, stats.providers, stats.models, stats.errors,
                      stats.inputTokens, stats.outputTokens, avg));
    }
  }

  /** What decoding a written line gives back. */
  function View(e: LogEntry): ParsedEntry {
    ParsedEntry(Some(e.provider), Some(e.model), Some(Bool(e.success)), Some(e.tokensUsed), e.durationMs)
  }

  function Failures(entries: seq<LogEntry>): nat {
    if |entries| == 0 then 0
    else Failures(entries[..|entries| - 1]) + (if entries[|entries| - 1].success then 0 else 1)
  }

  function Written(entries: seq<LogEntry>, dumps: LogEntry -> string): (r: seq<string>)
    ensures |r| == |entries|
  {
    seq(|entries|, k requires 0 <= k < |entries| => dumps(entries[k]))
  }

  /** A log written only by `Log` reads back as one request per entry, and its error count is
      the number of calls that failed (an entry fails exactly when it carries an error). */
  lemma {:induction false} StatsOfWrittenLog(entries: seq<LogEntry>, dumps: LogEntry -> string,
                                             parse: string -> Option<ParsedEntry>)
    requires forall e :: parse(dumps(e)) == Some(View(e))
    requires forall e :: !Blank(dumps(e))
    ensures !Fold(Written(entries, dumps), parse).failed
    ensures Fold(Written(entries, dumps), parse).total == |entries|
    ensures Fold(Written(entries, dumps), parse).errors == Failures(entries)
  {
    if |entries| > 0 {
      var front := entries[..|entries| - 1];
      var last := entries[|entries| - 1];
      StatsOfWrittenLog(front, dumps, parse);
      var lines := Written(entries, dumps);
      assert lines[..|lines| - 1] == Written(front, dumps);
      assert lines[|lines| - 1] == dumps(last);
    }
  }
}

=== FILE: local_storage.dfy ===
/** `LocalStorageService` (backend/services/local_storage.py): the development store that
    keeps users, portfolios and trades as JSON dicts keyed by id. Each file becomes a map
    from id to record plus the ids in insertion order, since the getters iterate
    `dict.values()` and return the first match. */
module LocalStorage {
  import opened Wrappers
  import opened Json
  import opened Text
  import opened TradeOrder
  import opened TrackedSymbols

  /** A user record: the dict `create_user` builds, which `update_user` may extend with any keys. */
  type UserRecord = map<string, Value>

  datatype LPortfolio = LPortfolio(
    portfolioId: string, userId: string, portfolioName: string,
    initialValue: real, currentBalance: real, totalValue: real,
    positions: seq<Value>, trackedSymbols: seq<string>, isActive: bool, createdAt: string)

  datatype LTrade = LTrade(
    tradeId: string, portfolioId: string, symbol: string, side: string,
    quantity: real, price: real, tradeType: string, status: string, executedAt: string)

  /** A Python `Optional[str]` as a JSON value. */
  function OptStr(s: Option<string>): Value {
    match s
    case Some(v) => Str(v)
    case None => Null
  }

  /** The record `create_user` stores. */
  function NewUser(userId: string, email: string, displayName: string, passwordHash: Option<string>,
                   oauthProvider: Option<string>, oauthId: Option<string>, now: string): UserRecord {
    map[
      "user_id" := Str(userId), "email" := Str(email), "display_name" := Str(displayName),
      "password_hash" := OptStr(passwordHash), "oauth_provider" := OptStr(oauthProvider),
      "oauth_id" := OptStr(oauthId), "is_active" := Bool(true), "created_at" := Str(now),
      "preferences" := Dict(map[]), "default_portfolio_id" := Null]
  }

  /** `user.get('email') == email` */
  predicate HasEmail(user: UserRecord, email: string) {
    "email" in user && user["email"] == Str(email)
  }

  /** `user.get('oauth_provider') == provider and user.get('oauth_id') == oauth_id` */
  predicate HasOauth(user: UserRecord, provider: string, oauthId: string) {
    && "oauth_provider" in user && user["oauth_provider"] == Str(provider)
    && "oauth_id" in user && user["oauth_id"] == Str(oauthId)
  }

  /** The first record, in `ids` order, whose email is `email`. */
  function UserByEmail(ids: seq<string>, users: map<string, UserRecord>, email: string): (r: Option<UserRecord>)
    requires forall id :: id in ids ==> id in users
    ensures r.None? <==> forall id :: id in ids ==> !HasEmail(users[id], email)
    ensures r.Some? ==> HasEmail(r.value, email)
    ensures r.Some? ==> exists i :: (0 <= i < |ids| && users[ids[i]] == r.value
                                     && forall j :: 0 <= j < i ==> !HasEmail(users[ids[j]], email))
  {
    if |ids| == 0 then None
    else if HasEmail(users[ids[0]], email) then Some(users[ids[0]])
    else
      var r := UserByEmail(ids[1..], users, email);
      if r.Some? then
        ghost var i :| 0 <= i < |ids[1..]| && users[ids[1..][i]] == r.value
                      && forall j :: 0 <= j < i ==> !HasEmail(users[ids[1..][j]], email);
        assert users[ids[i + 1]] == r.value;
        r
      else r
  }

  /** The first record, in `ids` order, with this OAuth provider and id. */
  function UserByOauth(ids: seq<string>, users: map<string, UserRecord>, provider: string, oauthId: string): (r: Option<UserRecord>)
    requires forall id :: id in ids ==> id in users
    ensures r.None? <==> forall id :: id in ids ==> !HasOauth(users[id], provider, oauthId)
    ensures r.Some? ==> HasOauth(r.value, provider, oauthId)
    ensures r.Some? ==> exists i :: (0 <= i < |ids| && users[ids[i]] == r.value
                                     && forall j :: 0 <= j < i ==> !HasOauth(users[ids[j]], provider, oauthId))
  {
    if |ids| == 0 then None
    else if HasOauth(users[ids[0]], provider, oauthId) then Some(users[ids[0]])
    else
      var r := UserByOauth(ids[1..], users, provider, oauthId);
      if r.Some? then
        ghost var i :| 0 <= i < |ids[1..]| && users[ids[1..][i]] == r.value
                      && forall j :: 0 <= j < i ==> !HasOauth(users[ids[1..][j]], provider, oauthId);
        assert users[ids[i + 1]] == r.value;
        r
      else r
  }

  /** Portfolios a user sees: owned by them and not deactivated, in store order. */
  function ActiveOf(ps: seq<LPortfolio>, userId: string): (r: seq<LPortfolio>)
    ensures forall p :: p in r <==> p in ps && p.userId == userId && p.isActive
    ensures |r| <= |ps|
  {
    if |ps| == 0 then []
    else (if ps[0].userId == userId && ps[0].isActive then [ps[0]] else []) + ActiveOf(ps[1..], userId)
  }

  /** The filter keeps order: filtering a concatenation filters each part in turn. */
  lemma {:induction false} ActiveOfAppend(a: seq<LPortfolio>, b: seq<LPortfolio>, userId: string)
    ensures ActiveOf(a + b, userId) == ActiveOf(a, userId) + ActiveOf(b, userId)
  {
    if |a| == 0 {
      assert a + b == b;
    } else {
      assert (a + b)[1..] == a[1..] + b;
      ActiveOfAppend(a[1..], b, userId);
    }
  }

  /** Trades of one portfolio, narrowed to one symbol when `symbol` is a non-empty string. */
  function TradesOf(ts: seq<LTrade>, portfolioId: string, symbol: Option<string>): (r: seq<LTrade>)
    ensures forall t :: t in r <==> (t in ts && t.portfolioId == portfolioId
                                     && (symbol.Some? && symbol.value != "" ==> t.symbol == symbol.value))
    ensures |r| <= |ts|
  {
    if |ts| == 0 then []
    else
      var keep := ts[0].portfolioId == portfolioId && (symbol.Some? && symbol.value != "" ==> ts[0].symbol == symbol.value);
      (if keep then [ts[0]] else []) + TradesOf(ts[1..], portfolioId, symbol)
  }

  /** The trade filter keeps order: filtering a concatenation filters each part in turn. */
  lemma {:induction false} TradesOfAppend(a: seq<LTrade>, b: seq<LTrade>, portfolioId: string, symbol: Option<string>)
    ensures TradesOf(a + b, portfolioId, symbol) == TradesOf(a, portfolioId, symbol) + TradesOf(b, portfolioId, symbol)
  {
    if |a| == 0 {
      assert a + b == b;
    } else {
      assert (a + b)[1..] == a[1..] + b;
      TradesOfAppend(a[1..], b, portfolioId, symbol);
    }
  }

  function ExecutedAt(t: LTrade): string {
    t.executedAt
  }

  /** The balance after the simplified trade: a buy pays `quantity*price`, any other side receives it. */
  function BalanceAfter(balance: real, side: string, quantity: real, price: real): real {
    if side == "buy" then balance - quantity * price else balance + quantity * price
  }

  /** With no validation, a sell undoes a buy of the same size at the same price. */
  lemma BuyThenSellRestoresBalance(balance: real, side: string, quantity: real, price: real)
    requires side != "buy"
    ensures BalanceAfter(BalanceAfter(balance, "buy", quantity, price), side, quantity, price) == balance
    ensures BalanceAfter(BalanceAfter(balance, side, quantity, price), "buy", quantity, price) == balance
  {
  }

  /** The ids of `m`, in insertion order. */
  ghost predicate OrderedKeys<V>(ids: seq<string>, m: map<string, V>) {
    && (forall i, j :: 0 <= i < j < |ids| ==> ids[i] != ids[j])
    && (forall id :: id in m <==> id in ids)
  }

  /** Every stored user record carries the keys a token is issued from. */
  predicate Identified(user: UserRecord) {
    "user_id" in user && "email" in user
  }

  /** Python's `d[key] = v`: a new key goes to the end, an existing one keeps its place. */
  function InsertKey(ids: seq<string>, key: string): seq<string> {
    if key in ids then ids else ids + [key]
  }

  lemma InsertKeyOrdered<V>(ids: seq<string>, m: map<string, V>, key: string, v: V)
    requires OrderedKeys(ids, m)
    ensures OrderedKeys(InsertKey(ids, key), m[key := v])
  {
  }

  /** `d.values()`: the values of `m` in the order of `ids`. */
  function ValuesAt<V>(ids: seq<string>, m: map<string, V>): (r: seq<V>)
    requires forall id :: id in ids ==> id in m
    ensures |r| == |ids|
    ensures forall i :: 0 <= i < |ids| ==> r[i] == m[ids[i]]
  {
    if |ids| == 0 then [] else [m[ids[0]]] + ValuesAt(ids[1..], m)
  }

  lemma ValuesAtMembers<V>(ids: seq<string>, m: map<string, V>)
    requires OrderedKeys(ids, m)
    ensures forall v :: v in ValuesAt(ids, m) <==> exists id :: id in m && m[id] == v
  {
    var r := ValuesAt(ids, m);
    forall v | exists id :: id in m && m[id] == v
      ensures v in r
    {
      var id :| id in m && m[id] == v;
      var i :| 0 <= i < |ids| && ids[i] == id;
      assert r[i] == v;
    }
  }

  class Store {
    var userIds: seq<string>
    var users: map<string, UserRecord>
    var portfolioIds: seq<string>
    var portfolios: map<string, LPortfolio>
    var tradeIds: seq<string>
    var trades: map<string, LTrade>

    ghost predicate Valid()
      reads this
    {
      && OrderedKeys(userIds, users) && OrderedKeys(portfolioIds, portfolios) && OrderedKeys(tradeIds, trades)
      && forall id :: id in users ==> Identified(users[id])
    }

    /** Three empty files. */
    constructor ()
      ensures Valid()
      ensures users == map[] && portfolios == map[] && trades == map[]
    {
      userIds := [];
      users := map[];
      portfolioIds := [];
      portfolios := map[];
      tradeIds := [];
      trades := map[];
    }

    /** `portfolios.values()` */
    function PortfolioValues(): (r: seq<LPortfolio>)
      requires Valid()
      reads this
      ensures |r| == |portfolioIds|
      ensures forall i :: 0 <= i < |portfolioIds| ==> r[i] == portfolios[portfolioIds[i]]
      ensures forall p :: p in r <==> exists id :: id in portfolios && portfolios[id] == p
    {
      var r := ValuesAt(portfolioIds, portfolios);
      ValuesAtMembers(portfolioIds, portfolios);
      r
    }

    /** `trades.values()` */
    function TradeValues(): (r: seq<LTrade>)
      requires Valid()
      reads this
      ensures |r| == |tradeIds|
      ensures forall i :: 0 <= i < |tradeIds| ==> r[i] == trades[tradeIds[i]]
      ensures forall t :: t in r <==> exists id :: id in trades && trades[id] == t
    {
      var r := ValuesAt(tradeIds, trades);
      ValuesAtMembers(tradeIds, trades);
      r
    }

    /** `create_user`: stores the new record under `userId` (a fresh uuid4 in the source). */
    method CreateUser(email: string, displayName: string, passwordHash: Option<string>,
                      oauthProvider: Option<string>, oauthId: Option<string>, userId: string, now: string)
      returns (user: UserRecord)
      requires Valid()
      modifies this
      ensures Valid()
      ensures user == NewUser(userId, email, displayName, passwordHash, oauthProvider, oauthId, now)
      ensures users == old(users)[userId := user] && userIds == InsertKey(old(userIds), userId)
      ensures portfolios == old(portfolios) && portfolioIds == old(portfolioIds)
      ensures trades == old(trades) && tradeIds == old(tradeIds)
    {
      user := NewUser(userId, email, displayName, passwordHash, oauthProvider, oauthId, now);
      InsertKeyOrdered(userIds, users, userId, user);
      users := users[userId := user];
      userIds := InsertKey(userIds, userId);
    }

    /** `get_user_by_id` */
    method GetUserById(userId: string) returns (r: Option<UserRecord>)
      ensures r.Some? <==> userId in users
      ensures r.Some? ==> r.value == users[userId]
    {
      if userId in users {
        r := Some(users[userId]);
      } else {
        r := None;
      }
    }

    /** `get_user_by_email`: the first user, in store order, whose email matches. */
    method GetUserByEmail(email: string) returns (r: Option<UserRecord>)
      requires Valid()
      ensures r == UserByEmail(userIds, users, email)
    {
      var i := 0;
      while i < |userIds|
        invariant 0 <= i <= |userIds|
        invariant UserByEmail(userIds[i..], users, email) == UserByEmail(userIds, users, email)
      {
        assert userIds[i..][1..] == userIds[i + 1..];
        var user := users[userIds[i]];
        if HasEmail(user, email) {
          return Some(user);
        }
        i := i + 1;
      }
      return None;
    }

    /** `get_user_by_oauth`: the first user, in store order, with this provider and OAuth id. */
    method GetUserByOauth(provider: string, oauthId: string) returns (r: Option<UserRecord>)
      requires Valid()
      ensures r == UserByOauth(userIds, users, provider, oauthId)
    {
      var i := 0;
      while i < |userIds|
        invariant 0 <= i <= |userIds|
        invariant UserByOauth(userIds[i..], users, provider, oauthId) == UserByOauth(userIds, users, provider, oauthId)
      {
        assert userIds[i..][1..] == userIds[i + 1..];
        var user := users[userIds[i]];
        if HasOauth(user, provider, oauthId) {
          return Some(user);
        }
        i := i + 1;
      }
      return None;
    }

    /** `update_user`: merges `updates` into the record and stamps `updated_at`; an unknown
        id yields None and writes nothing. */
    method UpdateUser(userId: string, updates: map<string, Value>, now: string) returns (r: Option<UserRecord>)
      requires Valid()
      modifies this
      ensures Valid()
      ensures userId !in old(users) ==> r.None? && users == old(users)
      ensures userId in old(users) ==>
        && r == Some((old(users)[userId] + updates)["updated_at" := Str(now)])
        && users == old(users)[userId := r.value]
      ensures userIds == old(userIds)
      ensures portfolios == old(portfolios) && portfolioIds == old(portfolioIds)
      ensures trades == old(trades) && tradeIds == old(tradeIds)
    {
      if userId in users {
        var user := users[userId] + updates;
        user := user["updated_at" := Str(now)];
        users := users[userId := user];
        return Some(user);
      }
      return None;
    }

    /** `update_default_portfolio`: whether the user existed. */
    method UpdateDefaultPortfolio(userId: string, portfolioId: Option<string>, now: string) returns (ok: bool)
      requires Valid()
      modifies this
      ensures Valid()
      ensures ok <==> userId in old(users)
      ensures ok ==> users == old(users)[userId := (old(users)[userId] + map["default_portfolio_id" := OptStr(portfolioId)])["updated_at" := Str(now)]]
      ensures !ok ==> users == old(users)
      ensures userIds == old(userIds) && portfolios == old(portfolios) && trades == old(trades)
    {
      var r := UpdateUser(userId, map["default_portfolio_id" := OptStr(portfolioId)], now);
      ok := r.Some?;
    }

    /** `create_portfolio`; `trackedSymbols` is the list after `tracked_symbols or []`. */
    method CreatePortfolio(userId: string, portfolioName: string, initialValue: real,
                           trackedSymbols: seq<string>, portfolioId: string, now: string)
      returns (p: LPortfolio)
      requires Valid()
      modifies this
      ensures Valid()
      ensures p == LPortfolio(portfolioId, userId, portfolioName, initialValue, initialValue, initialValue,
                              [], trackedSymbols, true, now)
      ensures portfolios == old(portfolios)[portfolioId := p] && portfolioIds == InsertKey(old(portfolioIds), portfolioId)
      ensures users == old(users) && userIds == old(userIds) && trades == old(trades) && tradeIds == old(tradeIds)
    {
      p := LPortfolio(portfolioId, userId, portfolioName, initialValue, initialValue, initialValue,
                      [], trackedSymbols, true, now);
      InsertKeyOrdered(portfolioIds, portfolios, portfolioId, p);
      portfolios := portfolios[portfolioId := p];
      portfolioIds := InsertKey(portfolioIds, portfolioId);
    }

    /** `get_portfolio` */
    method GetPortfolio(portfolioId: string) returns (r: Option<LPortfolio>)
      ensures r.Some? <==> portfolioId in portfolios
      ensures r.Some? ==> r.value == portfolios[portfolioId]
    {
      if portfolioId in portfolios {
        r := Some(portfolios[portfolioId]);
      } else {
        r := None;
      }
    }

    /** `get_user_portfolios`: exactly the user's portfolios that are not deactivated, in the
        order the portfolios were created (the key order of `values()`). */
    function UserPortfolios(userId: string): (r: seq<LPortfolio>)
      requires Valid()
      reads this
      ensures r == ActiveOf(PortfolioValues(), userId)
      ensures forall p :: p in r <==> ((exists id :: id in portfolios && portfolios[id] == p)
                                      && p.userId == userId && p.isActive)
    {
      ActiveOf(PortfolioValues(), userId)
    }

    /** `delete_portfolio`: a soft delete; False and no write for an unknown id. */
    method DeletePortfolio(portfolioId: string) returns (ok: bool)
      requires Valid()
      modifies this
      ensures Valid()
      ensures ok <==> portfolioId in old(portfolios)
      ensures ok ==> portfolios == old(portfolios)[portfolioId := old(portfolios)[portfolioId].(isActive := false)]
      ensures !ok ==> portfolios == old(portfolios)
      ensures portfolioIds == old(portfolioIds) && users == old(users) && trades == old(trades)
    {
      if portfolioId in portfolios {
        portfolios := portfolios[portfolioId := portfolios[portfolioId].(isActive := false)];
        return true;
      }
      return false;
    }

    /** `add_tracked_symbol`: None for an unknown portfolio. */
    method AddTrackedSymbol(portfolioId: string, symbol: string) returns (r: Option<LPortfolio>)
      requires Valid()
      modifies this
      ensures Valid()
      ensures portfolioId !in old(portfolios) ==> r.None? && portfolios == old(portfolios)
      ensures portfolioId in old(portfolios) ==>
        var p := old(portfolios)[portfolioId];
        && r == Some(p.(trackedSymbols := Added(p.trackedSymbols, symbol)))
        && portfolios == old(portfolios)[portfolioId := r.value]
      ensures portfolioIds == old(portfolioIds) && users == old(users) && trades == old(trades)
    {
      if portfolioId in portfolios {
        var p := portfolios[portfolioId];
        if symbol !in p.trackedSymbols {
          portfolios := portfolios[portfolioId := p.(trackedSymbols := p.trackedSymbols + [symbol])];
        }
        return Some(portfolios[portfolioId]);
      }
      return None;
    }

    /** `remove_tracked_symbol`: None for an unknown portfolio. */
    method RemoveTrackedSymbol(portfolioId: string, symbol: string) returns (r: Option<LPortfolio>)
      requires Valid()
      modifies this
      ensures Valid()
      ensures portfolioId !in old(portfolios) ==> r.None? && portfolios == old(portfolios)
      ensures portfolioId in old(portfolios) ==>
        var p := old(portfolios)[portfolioId];
        && r == Some(p.(trackedSymbols := Removed(p.trackedSymbols, symbol)))
        && portfolios == old(portfolios)[portfolioId := r.value]
      ensures portfolioIds == old(portfolioIds) && users == old(users) && trades == old(trades)
    {
      if portfolioId in portfolios {
        var p := portfolios[portfolioId];
        if symbol in p.trackedSymbols {
          portfolios := portfolios[portfolioId := p.(trackedSymbols := RemoveFirst(p.trackedSymbols, symbol))];
        }
        return Some(portfolios[portfolioId]);
      }
      return None;
    }

    /** `execute_trade` (simplified): records the trade and moves the balance, with no check
        of balance, holdings or side. */
    method ExecuteTrade(portfolioId: string, symbol: string, side: string, quantity: real, price: real,
                        tradeType: string, tradeId: string, now: string)
      returns (r: Result<LTrade>)
      requires Valid()
      modifies this
      ensures Valid()
      ensures portfolioId !in old(portfolios) ==> r == Err("Portfolio not found") && unchanged(this)
      ensures portfolioId in old(portfolios) ==>
        && r == Ok(LTrade(tradeId, portfolioId, symbol, side, quantity, price, tradeType, "filled", now))
        && trades == old(trades)[tradeId := r.value] && tradeIds == InsertKey(old(tradeIds), tradeId)
        && var p := old(portfolios)[portfolioId];
        && portfolios == old(portfolios)[portfolioId := p.(currentBalance := BalanceAfter(p.currentBalance, side, quantity, price))]
      ensures portfolioIds == old(portfolioIds) && users == old(users) && userIds == old(userIds)
    {
      if portfolioId !in portfolios {
        return Err("Portfolio not found");
      }
      var trade := LTrade(tradeId, portfolioId, symbol, side, quantity, price, tradeType, "filled", now);
      InsertKeyOrdered(tradeIds, trades, tradeId, trade);
      trades := trades[tradeId := trade];
      tradeIds := InsertKey(tradeIds, tradeId);
      var p := portfolios[portfolioId];
      var cost := quantity * price;
      if side == "buy" {
        p := p.(currentBalance := p.currentBalance - cost);
      } else {
        p := p.(currentBalance := p.currentBalance + cost);
      }
      portfolios := portfolios[portfolioId := p];
      r := Ok(trade);
    }

    /** `get_portfolio_trades`: the portfolio's trades (of one symbol when one is given), newest
        first by `executed_at`, at most `limit` of them. */
    function PortfolioTrades(portfolioId: string, symbol: Option<string>, limit: int): (r: seq<LTrade>)
      requires Valid()
      reads this
      ensures NewestFirst(r, ExecutedAt)
      ensures forall t :: t in r ==> t.portfolioId == portfolioId && t in trades.Values
      ensures symbol.Some? && symbol.value != "" ==> forall t :: t in r ==> t.symbol == symbol.value
      ensures r == PyTake(SortNewestFirst(TradesOf(TradeValues(), portfolioId, symbol), ExecutedAt), limit)
      ensures limit >= |TradesOf(TradeValues(), portfolioId, symbol)| ==>
                multiset(r) == multiset(TradesOf(TradeValues(), portfolioId, symbol))
      ensures limit >= 0 ==> |r| == if limit < |TradesOf(TradeValues(), portfolioId, symbol)| then limit
                                   else |TradesOf(TradeValues(), portfolioId, symbol)|
    {
      var matching := TradesOf(TradeValues(), portfolioId, symbol);
      var sorted := SortNewestFirst(matching, ExecutedAt);
      PrefixNewestFirst(sorted, limit, ExecutedAt);
      var r := PyTake(sorted, limit);
      forall t | t in r
        ensures t in matching
      {
        assert multiset(sorted)[t] > 0;
      }
      r
    }
  }
}

=== FILE: market_handler.dfy ===
/** The market-data Lambda of market_data/handler.py: request parsing, dispatch on `action`,
    the conversion of price rows into candle dicts and the indicator defaults used when there
    are fewer than fifty candles. Fetching prices (yfinance with retries) and the indicator
    arithmetic for long series are parameters. */
module MarketHandler {
  import opened Wrappers
  import opened Json
  import opened LambdaEvent

  /** One row of the fetched price table. */
  datatype Row = Row(time: string, open: real, high: real, low: real, close: real, volume: int)

  datatype Indicators = Indicators(rsi: real, ema20: real, ema50: real)

  /** A candle dict; `indicators` is None until `add_indicators` has filled it. */
  datatype Candle = Candle(time: string, open: real, high: real, low: real, close: real, volume: int,
                           indicators: Option<Indicators>)

  /** The price source for (symbol, period, interval); None when every attempt failed. */
  type Fetch = (Value, Value, Value) -> Option<seq<Row>>

  /** The long-series indicator computation; None when it raises. */
  type IndicatorMath = seq<Candle> -> Option<seq<Candle>>

  const MinIndicatorCandles := 50
  const NeutralRsi := 50.0
  const ValidActions := ["get_latest", "get_candles", "get_with_indicators"]

  /** The price fields of a candle. */
  function RowOf(c: Candle): Row {
    Row(c.time, c.open, c.high, c.low, c.close, c.volume)
  }

  /** The candle dict built from one row: the row's own fields and nothing else. */
  function CandleOf(row: Row): (c: Candle)
    ensures RowOf(c) == row && c.indicators.None?
  {
    Candle(row.time, row.open, row.high, row.low, row.close, row.volume, None)
  }

  /** The rows the source produced for the request, or no rows. */
  function Rows(fetch: Fetch, symbol: Value, period: Value, interval: Value): seq<Row> {
    match fetch(symbol, period, interval)
    case None => []
    case Some(rows) => rows
  }

  /** `get_candles`, as a value: one candle per row, in row order. */
  function Candles(fetch: Fetch, symbol: Value, period: Value, interval: Value): (r: seq<Candle>)
    ensures |r| == |Rows(fetch, symbol, period, interval)|
    ensures forall k :: 0 <= k < |r| ==> RowOf(r[k]) == Rows(fetch, symbol, period, interval)[k] && r[k].indicators.None?
  {
    var rows := Rows(fetch, symbol, period, interval);
    seq(|rows|, k requires 0 <= k < |rows| => CandleOf(rows[k]))
  }

  /** `get_candles`: appends one candle dict per row, in a loop. */
  method GetCandles(fetch: Fetch, symbol: Value, period: Value, interval: Value) returns (candles: seq<Candle>)
    ensures candles == Candles(fetch, symbol, period, interval)
  {
    candles := [];
    match fetch(symbol, period, interval)
    case None =>
    case Some(rows) =>
      for i := 0 to |rows|
        invariant |candles| == i
        invariant forall k :: 0 <= k < i ==> candles[k] == CandleOf(rows[k])
      {
        candles := candles + [CandleOf(rows[i])];
      }
  }

  /** `get_latest_price`: the last of five daily rows, if any. */
  function LatestPrice(fetch: Fetch, symbol: Value): (r: Option<Candle>)
    ensures r.None? <==> Rows(fetch, symbol, Str("5d"), Str("1d")) == []
    ensures r.Some? ==> (var rows := Rows(fetch, symbol, Str("5d"), Str("1d"));
                         RowOf(r.value) == rows[|rows| - 1] && r.value.indicators.None?)
  {
    var rows := Rows(fetch, symbol, Str("5d"), Str("1d"));
    if |rows| == 0 then None else Some(CandleOf(rows[|rows| - 1]))
  }

  /** The defaults for a short series: neutral RSI, both averages at the close. */
  function WithDefaults(c: Candle): (r: Candle)
    ensures RowOf(r) == RowOf(c)
    ensures r.indicators == Some(Indicators(NeutralRsi, c.close, c.close))
  {
    c.(indicators := Some(Indicators(NeutralRsi, c.close, c.close)))
  }

  /** The fallback after a failed computation only fills candles that have no indicators. */
  function FillMissing(c: Candle): (r: Candle)
    ensures RowOf(r) == RowOf(c) && r.indicators.Some?
    ensures c.indicators.Some? ==> r == c
  {
    if c.indicators.Some? then c else WithDefaults(c)
  }

  /** The short path of `add_indicators`: every candle dict is given the defaults in place. */
  method SetDefaults(candles: array<Candle>)
    modifies candles
    ensures forall k :: 0 <= k < candles.Length ==> candles[k] == WithDefaults(old(candles[k]))
  {
    for i := 0 to candles.Length
      invariant forall k :: 0 <= k < i ==> candles[k] == WithDefaults(old(candles[k]))
      invariant forall k :: i <= k < candles.Length ==> candles[k] == old(candles[k])
    {
      candles[i] := WithDefaults(candles[i]);
    }
  }

  /** The exception path of `add_indicators`: defaults only where indicators are missing. */
  method FillDefaults(candles: array<Candle>)
    modifies candles
    ensures forall k :: 0 <= k < candles.Length ==> candles[k] == FillMissing(old(candles[k]))
  {
    for i := 0 to candles.Length
      invariant forall k :: 0 <= k < i ==> candles[k] == FillMissing(old(candles[k]))
      invariant forall k :: i <= k < candles.Length ==> candles[k] == old(candles[k])
    {
      candles[i] := FillMissing(candles[i]);
    }
  }

  /** `add_indicators`: under fifty candles, defaults in place and the same list back;
      otherwise the computed list, or the filled-in input if the computation raised. */
  method AddIndicators(candles: array<Candle>, math: IndicatorMath) returns (result: seq<Candle>)
    modifies candles
    ensures candles.Length < MinIndicatorCandles ==>
              result == candles[..] && forall k :: 0 <= k < |result| ==> result[k] == WithDefaults(old(candles[k]))
    ensures candles.Length >= MinIndicatorCandles && math(old(candles[..])).Some? ==>
              result == math(old(candles[..])).value && candles[..] == old(candles[..])
    ensures candles.Length >= MinIndicatorCandles && math(old(candles[..])).None? ==>
              result == candles[..] && forall k :: 0 <= k < |result| ==> result[k] == FillMissing(old(candles[k]))
  {
    if candles.Length < MinIndicatorCandles {
      SetDefaults(candles);
      result := candles[..];
    } else {
      match math(candles[..])
      case Some(computed) =>
        result := computed;
      case None =>
        FillDefaults(candles);
        result := candles[..];
    }
  }

  /** The decoded reply body. `Failure` is the status-500 reply, whose text is Python's
      exception message. */
  datatype Body =
    | Latest(latest: Candle)
    | CandleList(candles: seq<Candle>, count: int)
    | Error(error: string)
    | InvalidAction(error: string, validActions: seq<string>)
    | Failure

  datatype Response = Response(statusCode: int, body: Body)

  /** The indicator result the handler reports for a non-empty candle list. */
  function Indicated(candles: seq<Candle>, math: IndicatorMath): (r: seq<Candle>)
    requires |candles| > 0
    ensures |candles| < MinIndicatorCandles ==> |r| == |candles|
    ensures |candles| < MinIndicatorCandles ==> forall k :: 0 <= k < |candles| ==>
              RowOf(r[k]) == RowOf(candles[k])
              && r[k].indicators == Some(Indicators(NeutralRsi, candles[k].close, candles[k].close))
    ensures |candles| >= MinIndicatorCandles && math(candles).None? ==>
              |r| == |candles| && forall k :: 0 <= k < |candles| ==> r[k] == FillMissing(candles[k])
    ensures |candles| >= MinIndicatorCandles && math(candles).Some? ==> r == math(candles).value
  {
    if |candles| < MinIndicatorCandles then seq(|candles|, k requires 0 <= k < |candles| => WithDefaults(candles[k]))
    else match math(candles)
      case Some(computed) => computed
      case None => seq(|candles|, k requires 0 <= k < |candles| => FillMissing(candles[k]))
  }

  /** `lambda_handler`: parse, require a symbol, then dispatch on the action. `str` renders
      the symbol inside the not-found message. */
  method Handle(event: map<string, Value>, loads: string -> Option<Value>, str: Value -> string,
                fetch: Fetch, math: IndicatorMath)
    returns (resp: Response)
    ensures RequestOf(event, loads).None? ==> resp == Response(500, Failure)
    ensures RequestOf(event, loads).Some? ==>
              var req := RequestOf(event, loads).value;
              var symbol := GetOr(req, "symbol", Null);
              var action := GetOr(req, "action", Null);
              var period := GetOr(req, "period", Str("1mo"));
              var interval := GetOr(req, "interval", Str("1d"));
              var notFound := Response(404, Error("No data available for " + str(symbol)));
              if !Truthy(symbol) then resp == Response(400, Error("symbol is required"))
              else if action == Str("get_latest") then
                resp == (match LatestPrice(fetch, symbol)
                         case Some(latest) => Response(200, Latest(latest))
                         case None => notFound)
              else if action == Str("get_candles") then
                var candles := Candles(fetch, symbol, period, interval);
                resp == Response(200, CandleList(candles, |candles|))
              else if action == Str("get_with_indicators") then
                var candles := Candles(fetch, symbol, period, interval);
                if candles == [] then resp == notFound
                else resp == Response(200, CandleList(Indicated(candles, math), |Indicated(candles, math)|))
              else resp == Response(400, InvalidAction("Invalid action", ValidActions))
  {
    var request := RequestOf(event, loads);
    if request.None? {
      return Response(500, Failure);
    }
    var req := request.value;
    var action := GetOr(req, "action", Null);
    var symbol := GetOr(req, "symbol", Null);
    var period := GetOr(req, "period", Str("1mo"));
    var interval := GetOr(req, "interval", Str("1d"));
    if !Truthy(symbol) {
      return Response(400, Error("symbol is required"));
    }
    if action == Str("get_latest") {
      var data := LatestPrice(fetch, symbol);
      if data.Some? {
        resp := Response(200, Latest(data.value));
      } else {
        resp := Response(404, Error("No data available for " + str(symbol)));
      }
    } else if action == Str("get_candles") {
      var candles := GetCandles(fetch, symbol, period, interval);
      resp := Response(200, CandleList(candles, |candles|));
    } else if action == Str("get_with_indicators") {
      var candles := GetCandles(fetch, symbol, period, interval);
      if |candles| > 0 {
        var buffer := new Candle[|candles|](k requires 0 <= k < |candles| => candles[k]);
        assert buffer[..] == candles;
        var withIndicators := AddIndicators(buffer, math);
        assert withIndicators == Indicated(candles, math);
        resp := Response(200, CandleList(withIndicators, |withIndicators|));
      } else {
        resp := Response(404, Error("No data available for " + str(symbol)));
      }
    } else {
      resp := Response(400, InvalidAction("Invalid action", ValidActions));
    }
  }

  /** Freshly fetched candles have no indicators, so the exception fallback of a long series
      gives the same candles as the short-series defaults. */
  lemma FallbackMatchesDefaults(fetch: Fetch, symbol: Value, period: Value, interval: Value)
    ensures forall k :: 0 <= k < |Candles(fetch, symbol, period, interval)| ==>
              FillMissing(Candles(fetch, symbol, period, interval)[k]) == WithDefaults(Candles(fetch, symbol, period, interval)[k])
  {
  }
}

=== FILE: model_request.dfy ===
/** Bedrock request and reply shapes, as built by `invoke_bedrock` in llm_agents/handler.py and
    `invoke_reasoner` in backend/services/bedrock_client.py: the model family is read off the
    model id, each family gets its own request body, and the reply text, stop reason and token
    usage are read back out of the family's reply shape. */
module ModelRequest {
  import opened Wrappers
  import opened Json

  datatype Family = Claude | Nova | Generic

  /** Claude for ids starting "anthropic.claude", Nova for "amazon.nova", otherwise generic. */
  function FamilyOf(modelId: string): (f: Family)
    ensures f == Claude <==> "anthropic.claude" <= modelId
    ensures f == Nova <==> !("anthropic.claude" <= modelId) && "amazon.nova" <= modelId
  {
    if "anthropic.claude" <= modelId then Claude
    else if "amazon.nova" <= modelId then Nova
    else Generic
  }

  const StopSequences := List([Str("\n\nHuman:"), Str("\n\nUser:")])

  /** One chat message in Nova's shape: the role (default "user") and the content, a string
      being wrapped as a one-element list of text blocks. */
  function NovaMessage(msg: map<string, Value>): (r: Value)
    ensures r.Dict? && r.fields.Keys == {"role", "content"}
    ensures r.fields["role"] == GetOr(msg, "role", Str("user"))
    ensures GetOr(msg, "content", Str("")).Str? ==>
              r.fields["content"] == List([Dict(map["text" := GetOr(msg, "content", Str(""))])])
    ensures !GetOr(msg, "content", Str("")).Str? ==> r.fields["content"] == GetOr(msg, "content", Str(""))
  {
    var content := GetOr(msg, "content", Str(""));
    Dict(map["role" := GetOr(msg, "role", Str("user")),
             "content" := if content.Str? then List([Dict(map["text" := content])]) else content])
  }

  predicate IsSystem(msg: map<string, Value>) {
    GetOr(msg, "role", Str("user")) == Str("system")
  }

  /** What one message dict contributes to the Nova list: nothing for a system message. */
  function NovaHead(msg: map<string, Value>): seq<Value> {
    if IsSystem(msg) then [] else [NovaMessage(msg)]
  }

  /** The Nova conversion of a message list: system messages are dropped, the rest converted in
      order. None when some element is not a dict, where the loop's `msg.get` raises. */
  function NovaMessages(msgs: seq<Value>): (r: Option<seq<Value>>)
    ensures r.Some? ==> |r.value| <= |msgs|
  {
    if |msgs| == 0 then Some([])
    else if !msgs[0].Dict? then None
    else
      match NovaMessages(msgs[1..])
      case None => None
      case Some(rest) =>
        Some(NovaHead(msgs[0].fields) + rest)
  }

  /** The conversion succeeds exactly when every message is a dict. */
  lemma {:induction false} NovaNeedsDicts(msgs: seq<Value>)
    ensures NovaMessages(msgs).Some? <==> forall k :: 0 <= k < |msgs| ==> msgs[k].Dict?
  {
    if |msgs| > 0 {
      NovaNeedsDicts(msgs[1..]);
      assert forall k :: 1 <= k < |msgs| ==> msgs[k] == msgs[1..][k - 1];
    }
  }

  /** No system message survives the conversion, and every converted message has a role. */
  lemma {:induction false} NovaDropsSystem(msgs: seq<Value>)
    ensures NovaMessages(msgs).Some? ==>
              forall k :: 0 <= k < |NovaMessages(msgs).value| ==>
                (var m := NovaMessages(msgs).value[k];
                 m.Dict? && "role" in m.fields && m.fields["role"] != Str("system"))
  {
    if |msgs| > 0 && msgs[0].Dict? {
      NovaDropsSystem(msgs[1..]);
    }
  }

  /** The conversion keeps order: converting a concatenation converts each part in turn, and
      fails exactly when one of the parts fails. With `NovaSingle` this fixes the conversion
      message by message. */
  lemma {:induction false} NovaAppend(a: seq<Value>, b: seq<Value>)
    ensures NovaMessages(a + b).Some? <==> NovaMessages(a).Some? && NovaMessages(b).Some?
    ensures NovaMessages(a).Some? && NovaMessages(b).Some? ==>
              NovaMessages(a + b) == Some(NovaMessages(a).value + NovaMessages(b).value)
  {
    if |a| == 0 {
      assert a + b == b;
      assert NovaMessages(a) == Some([]);
      if NovaMessages(b).Some? {
        assert [] + NovaMessages(b).value == NovaMessages(b).value;
      }
    } else {
      assert (a + b)[0] == a[0];
      assert (a + b)[1..] == a[1..] + b;
      NovaAppend(a[1..], b);
      if a[0].Dict? && NovaMessages(a[1..]).Some? && NovaMessages(b).Some? {
        var h := NovaHead(a[0].fields);
        assert h + (NovaMessages(a[1..]).value + NovaMessages(b).value)
               == (h + NovaMessages(a[1..]).value) + NovaMessages(b).value;
      }
    }
  }

  /** A single message converts to nothing when it is a system message and to its Nova form
      otherwise. */
  lemma NovaSingle(msg: map<string, Value>)
    ensures NovaMessages([Dict(msg)]) == Some(if IsSystem(msg) then [] else [NovaMessage(msg)])
  {
    assert [Dict(msg)][1..] == [];
    assert NovaMessages([]) == Some([]);
    assert NovaHead(msg) + [] == NovaHead(msg);
  }

  /** The conversion loop: messages are appended one at a time, skipping system messages. */
  method ConvertNova(msgs: seq<Value>) returns (r: Option<seq<Value>>)
    ensures r == NovaMessages(msgs)
  {
    var nova: seq<Value> := [];
    assert msgs[0..] == msgs;
    if NovaMessages(msgs).Some? {
      assert nova + NovaMessages(msgs).value == NovaMessages(msgs).value;
    }
    for i := 0 to |msgs|
      invariant NovaMessages(msgs) == (if NovaMessages(msgs[i..]).Some?
                                       then Some(nova + NovaMessages(msgs[i..]).value) else None)
    {
      assert msgs[i..][0] == msgs[i];
      assert msgs[i..][1..] == msgs[i + 1..];
      if !msgs[i].Dict? {
        return None;
      }
      var msg := msgs[i].fields;
      if NovaMessages(msgs[i + 1..]).Some? {
        var rest := NovaMessages(msgs[i + 1..]).value;
        assert nova + (NovaHead(msg) + rest) == (nova + NovaHead(msg)) + rest;
      }
      if GetOr(msg, "role", Str("user")) == Str("system") {
        assert nova + [] == nova;
        continue;
      }
      nova := nova + [NovaMessage(msg)];
    }
    assert msgs[|msgs|..] == [];
    assert nova + [] == nova;
    r := Some(nova);
  }

  /** The request body for a family. None when the Nova conversion raises. */
  function RequestBody(family: Family, system: string, messages: Value, maxTokens: Value, temperature: Value): (r: Option<Value>)
    ensures family != Nova ==> (r.Some? && r.value.Dict? && "messages" in r.value.fields
                                && r.value.fields["messages"] == messages)
    ensures family == Claude ==>
              (r.value.fields.Keys == {"anthropic_version", "system", "messages", "max_tokens", "temperature", "stop_sequences"})
    ensures family == Claude ==> r.value.fields["system"] == Str(system)
    ensures family == Generic ==> r.value.fields.Keys == {"messages", "max_tokens", "temperature"}
    ensures family == Nova ==>
              (r.Some? <==> messages.List? && NovaMessages(messages.items).Some?)
    ensures family == Nova && r.Some? ==>
              r.value.Dict? && "messages" in r.value.fields && "system" in r.value.fields
              && r.value.fields["messages"] == List(NovaMessages(messages.items).value)
              && r.value.fields["system"] == List([Dict(map["text" := Str(system)])])
  {
    match family
    case Claude =>
      Some(Dict(map["anthropic_version" := Str("bedrock-2023-05-31"),
                    "system" := Str(system),
                    "messages" := messages,
                    "max_tokens" := maxTokens,
                    "temperature" := temperature,
                    "stop_sequences" := StopSequences]))
    case Nova =>
      if messages.List? && NovaMessages(messages.items).Some? then
        Some(Dict(map["messages" := List(NovaMessages(messages.items).value),
                      "system" := List([Dict(map["text" := Str(system)])]),
                      "inferenceConfig" := Dict(map["temperature" := temperature,
                                                    "max_new_tokens" := maxTokens,
                                                    "stopSequences" := StopSequences])]))
      else None
    case Generic =>
      Some(Dict(map["messages" := messages, "max_tokens" := maxTokens, "temperature" := temperature]))
  }

  /** A text block of a reply. */
  datatype Item = Item(text: Option<string>)

  datatype NovaReplyMessage = NovaReplyMessage(content: Option<seq<Item>>)

  datatype NovaOutput = NovaOutput(message: Option<NovaReplyMessage>)

  /** A decoded reply body. `content` and `stopReason` are Claude's keys (`stop_reason`),
      `output` and `novaStopReason` Nova's (`stopReason`); `repr` is `str()` of the whole body. */
  datatype ModelReply = ModelReply(content: Option<seq<Item>>, output: Option<NovaOutput>,
                                   stopReason: Option<Value>, novaStopReason: Option<Value>,
                                   usage: Option<map<string, int>>, repr: string)

  /** What `invoke_model` and decoding its body produced: a reply, a service error with its
      code and message, or any other exception's message. */
  datatype BedrockCall =
    | Responded(reply: ModelReply)
    | ClientFailure(code: string, message: string)
    | Raised(message: string)

  /** The text of the first block, if there is a first block. */
  function FirstText(items: Option<seq<Item>>): Option<string> {
    if items.Some? && |items.value| > 0 then Some(items.value[0].text.GetOr("")) else None
  }

  /** The reply text: the first content block's `text` (default ""), found where the family
      puts it; `missing` when there is no such block or the family is generic. */
  function ReplyText(family: Family, reply: ModelReply, missing: string): (r: string)
    ensures family == Generic ==> r == missing
    ensures family == Claude ==> r == FirstText(reply.content).GetOr(missing)
  {
    match family
    case Claude => FirstText(reply.content).GetOr(missing)
    case Nova =>
      if reply.output.Some? && reply.output.value.message.Some?
      then FirstText(reply.output.value.message.value.content).GetOr(missing)
      else missing
    case Generic => missing
  }

  /** Nova's reply text is the first block of `output.message.content`; any missing level
      gives `missing`. */
  lemma NovaReplyText(reply: ModelReply, missing: string, t: string, rest: seq<Item>)
    ensures reply.output == Some(NovaOutput(Some(NovaReplyMessage(Some([Item(Some(t))] + rest))))) ==>
              ReplyText(Nova, reply, missing) == t
    ensures (reply.output.None? || reply.output.value.message.None?
             || reply.output.value.message.value.content.None?
             || reply.output.value.message.value.content == Some([])) ==>
              ReplyText(Nova, reply, missing) == missing
  {
  }

  /** The stop reason under the family's key; the generic shape has none. */
  function StopReason(family: Family, reply: ModelReply): Option<Value> {
    match family
    case Claude => reply.stopReason
    case Nova => reply.novaStopReason
    case Generic => None
  }

  predicate Truncated(stop: Option<Value>) {
    stop == Some(Str("max_tokens")) || stop == Some(Str("length"))
  }

  /** Token usage with the family's key names normalised to `input_tokens`/`output_tokens`;
      the generic shape's usage is copied as it is, and no usage gives an empty map. */
  function Tokens(family: Family, reply: ModelReply): (r: map<string, int>)
    ensures reply.usage.None? ==> r == map[]
    ensures family == Generic && reply.usage.Some? ==> r == reply.usage.value
    ensures family != Generic && reply.usage.Some? ==> r.Keys == {"input_tokens", "output_tokens"}
  {
    match reply.usage
    case None => map[]
    case Some(usage) =>
      match family
      case Claude =>
        map["input_tokens" := if "input_tokens" in usage then usage["input_tokens"] else 0,
            "output_tokens" := if "output_tokens" in usage then usage["output_tokens"] else 0]
      case Nova =>
        map["input_tokens" := if "inputTokens" in usage then usage["inputTokens"] else 0,
            "output_tokens" := if "outputTokens" in usage then usage["outputTokens"] else 0]
      case Generic => usage
  }

  /** Nova's camel-case counts land under the snake-case keys, so both families report usage
      the same way. */
  lemma TokensRenamed(claude: ModelReply, nova: ModelReply, input: int, output: int)
    requires claude.usage == Some(map["input_tokens" := input, "output_tokens" := output])
    requires nova.usage == Some(map["inputTokens" := input, "outputTokens" := output])
    ensures Tokens(Claude, claude) == Tokens(Nova, nova)
    ensures Tokens(Nova, nova)["input_tokens"] == input && Tokens(Nova, nova)["output_tokens"] == output
  {
  }
}

=== FILE: ollama.dfy ===
/** The local-model client of backend/services/ollama_client.py: a chat history is flattened
    into one prompt, sent with the generation options, and the reply's `response` field is
    returned. The HTTP POST is a parameter of `InvokeReasoner`. */
module Ollama {
  import opened Text

  const DefaultBaseUrl := "http://localhost:11434"
  const DefaultModelName := "gemma3:1b"

  const SystemPrompt :=
    "You are JBAC's AI Trading Coach. Teach safely, personalize, explain indicators (RSI/EMA), "
    + "and critique trades with actionable, risk-aware feedback. Never give financial advice; "
    + "only educational guidance for paper trading."

  const Separator := "\n\n"
  const AssistantCue := "Assistant:"

  /** A chat message as the caller passes it: a dict of strings. */
  type Message = map<string, string>

  /** `msg.get(key, default)` */
  function Field(msg: Message, key: string, default: string): string {
    if key in msg then msg[key] else default
  }

  /** One message as a prompt line: the capitalised role (default "user"), a colon and a
      space, then the content (default ""). */
  function Part(msg: Message): (r: string)
    ensures Capitalize(Field(msg, "role", "user")) + ": " <= r
    ensures |r| == |Field(msg, "role", "user")| + 2 + |Field(msg, "content", "")|
    ensures r[|r| - |Field(msg, "content", "")|..] == Field(msg, "content", "")
  {
    Capitalize(Field(msg, "role", "user")) + ": " + Field(msg, "content", "")
  }

  /** The list of prompt pieces: the system prompt, one piece per message in order, and the
      assistant cue. */
  function PromptParts(messages: seq<Message>): (r: seq<string>)
    ensures |r| == |messages| + 2
    ensures r[0] == SystemPrompt && r[|r| - 1] == AssistantCue
    ensures forall k :: 0 <= k < |messages| ==> r[k + 1] == Part(messages[k])
  {
    [SystemPrompt] + seq(|messages|, k requires 0 <= k < |messages| => Part(messages[k])) + [AssistantCue]
  }

  /** The request body sent to `/api/generate`. */
  datatype Payload = Payload(model: string, prompt: string, stream: bool, temperature: real, numPredict: int)

  /** What the POST produced: the decoded reply object, or the text of a request exception. */
  datatype PostOutcome = Replied(data: map<string, string>) | RequestFailed(error: string)

  /** The text returned in place of raising when the server cannot be reached. */
  function ErrorText(error: string, model: string): (r: string)
    ensures "[Ollama Error: " + error <= r
    ensures r[|r| - 1] == ']'
  {
    "[Ollama Error: " + error + ". Ensure Ollama is running and model '" + model + "' is available.]"
  }

  /** `invoke_reasoner`: the prompt pieces are collected in a loop and joined with blank lines;
      the payload never streams and asks for at most `maxTokens` tokens. */
  method InvokeReasoner(messages: seq<Message>, maxTokens: int, temperature: real, model: string,
                        post: Payload -> PostOutcome)
    returns (text: string, sent: Payload)
    ensures sent == Payload(model, Join(PromptParts(messages), Separator), false, temperature, maxTokens)
    ensures post(sent).Replied? ==> text == Field(post(sent).data, "response", "")
    ensures post(sent).RequestFailed? ==> text == ErrorText(post(sent).error, model)
  {
    var parts := [SystemPrompt];
    for i := 0 to |messages|
      invariant |parts| == i + 1 && parts[0] == SystemPrompt
      invariant forall k :: 0 <= k < i ==> parts[k + 1] == Part(messages[k])
    {
      var role := Field(messages[i], "role", "user");
      var content := Field(messages[i], "content", "");
      parts := parts + [Capitalize(role) + ": " + content];
    }
    parts := parts + [AssistantCue];
    assert parts == PromptParts(messages);
    sent := Payload(model, Join(parts, Separator), false, temperature, maxTokens);
    match post(sent)
    case Replied(data) =>
      text := Field(data, "response", "");
    case RequestFailed(error) =>
      text := ErrorText(error, model);
  }

  /** The prompt opens with the system prompt and a blank line and closes with a blank line
      and the assistant cue, whatever the messages. */
  lemma PromptFraming(messages: seq<Message>)
    ensures SystemPrompt + Separator <= Join(PromptParts(messages), Separator)
    ensures var p := Join(PromptParts(messages), Separator);
            |p| >= |Separator + AssistantCue| && p[|p| - |Separator + AssistantCue|..] == Separator + AssistantCue
  {
    JoinEnds(PromptParts(messages), Separator);
  }

  /** With no history the prompt is just the system prompt and the cue. */
  lemma EmptyHistoryPrompt()
    ensures Join(PromptParts([]), Separator) == SystemPrompt + Separator + AssistantCue
  {
    var parts := PromptParts([]);
    assert parts == [SystemPrompt, AssistantCue];
    assert parts[1..] == [AssistantCue];
  }

  /** A message without a role is spoken by "User". */
  lemma MissingRoleIsUser(content: string)
    ensures Part(map["content" := content]) == "User: " + content
  {
    var msg := map["content" := content];
    assert Field(msg, "role", "user") == "user";
    assert Capitalize("user") == "User";
  }
}

=== FILE: portfolio_sim.dfy ===
/** The in-memory paper-trading simulator behind the `paper_trade` endpoint
    (backend/services/portfolio_sim.py) over the shapes of backend/domain.py.
    `execute_trade` copies the caller's state, mutates the copy and returns it. */
module PortfolioSim {
  import opened Wrappers

  datatype Trade = Trade(symbol: string, side: string, quantity: real, price: real, time: string)

  datatype Position = Position(symbol: string, quantity: real, avgPrice: real)

  /** The value of a `PortfolioState` at one moment. */
  datatype Snapshot = Snapshot(cash: real, positions: seq<Position>, history: seq<Trade>)

  /** The `1e-9` floor on the divisor of the average-price update. */
  const DivisorFloor: real := 0.000000001

  function Max(a: real, b: real): real {
    if a >= b then a else b
  }

  predicate HasSymbol(ps: seq<Position>, symbol: string) {
    exists j :: 0 <= j < |ps| && ps[j].symbol == symbol
  }

  /** Index of the first position for `symbol`. */
  function IndexOf(ps: seq<Position>, symbol: string): (r: Option<nat>)
    ensures r.Some? ==> r.value < |ps| && ps[r.value].symbol == symbol
    ensures r.Some? ==> forall j :: 0 <= j < r.value ==> ps[j].symbol != symbol
    ensures r.None? <==> !HasSymbol(ps, symbol)
  {
    if |ps| == 0 then None
    else if ps[0].symbol == symbol then Some(0)
    else match IndexOf(ps[1..], symbol)
      case None => None
      case Some(i) => Some(i + 1)
  }

  /** Quantity held of `symbol`: that of its first position, 0 without one. */
  function Held(ps: seq<Position>, symbol: string): real {
    match IndexOf(ps, symbol)
    case Some(i) => ps[i].quantity
    case None => 0.0
  }

  /** At most one position per symbol. */
  predicate UniqueSymbols(ps: seq<Position>) {
    forall i, j :: 0 <= i < j < |ps| ==> ps[i].symbol != ps[j].symbol
  }

  /** What `ensure_position` leaves behind: the list and the index of the position it returns. */
  function Ensured(ps: seq<Position>, symbol: string): (r: (seq<Position>, nat))
    ensures r.1 < |r.0| && r.0[r.1].symbol == symbol
  {
    match IndexOf(ps, symbol)
    case Some(i) => (ps, i)
    case None => (ps + [Position(symbol, 0.0, 0.0)], |ps|)
  }

  /** `ensure_position`: the first position for `symbol`, appending a zero one when none exists. */
  method EnsurePosition(positions: seq<Position>, symbol: string) returns (ps: seq<Position>, i: nat)
    ensures i < |ps| && ps[i].symbol == symbol
    ensures forall j :: 0 <= j < i ==> ps[j].symbol != symbol
    ensures HasSymbol(positions, symbol) ==> ps == positions
    ensures !HasSymbol(positions, symbol) ==> ps == positions + [Position(symbol, 0.0, 0.0)]
    ensures (ps, i) == Ensured(positions, symbol)
  {
    var k := 0;
    while k < |positions|
      invariant 0 <= k <= |positions|
      invariant forall j :: 0 <= j < k ==> positions[j].symbol != symbol
    {
      if positions[k].symbol == symbol {
        return positions, k;
      }
      k := k + 1;
    }
    ps := positions + [Position(symbol, 0.0, 0.0)];
    i := |positions|;
  }

  /** A position after buying `quantity` more at `price`: the quantity grows and the average
      price becomes the weighted mean, its divisor floored at `DivisorFloor`. */
  function Bought(pos: Position, quantity: real, price: real): Position {
    var newQty := pos.quantity + quantity;
    Position(pos.symbol, newQty, (pos.avgPrice * pos.quantity + price * quantity) / Max(newQty, DivisorFloor))
  }

  /** The state `execute_trade` returns, or the error it raises. */
  function Apply(s: Snapshot, symbol: string, side: string, quantity: real, price: real, time: string)
    : (r: Result<Snapshot>)
    ensures r.Err? <==> ((side == "buy" && s.cash < quantity * price)
                         || (side != "buy" && Held(s.positions, symbol) < quantity))
    ensures r.Err? ==> r.msg == if side == "buy" then "Insufficient cash" else "Insufficient shares"
    ensures r.Ok? ==> r.value.cash == if side == "buy" then s.cash - quantity * price
                                      else s.cash + quantity * price
    ensures r.Ok? ==> r.value.history == s.history + [Trade(symbol, side, quantity, price, time)]
  {
    var e := Ensured(s.positions, symbol);
    var ps := e.0;
    var pos := ps[e.1];
    var trade := Trade(symbol, side, quantity, price, time);
    if side == "buy" then
      if s.cash < quantity * price then Err("Insufficient cash")
      else
        Ok(Snapshot(s.cash - quantity * price, ps[e.1 := Bought(pos, quantity, price)], s.history + [trade]))
    else
      if pos.quantity < quantity then Err("Insufficient shares")
      else
        var newQty := pos.quantity - quantity;
        var avg := if newQty == 0.0 then 0.0 else pos.avgPrice;
        Ok(Snapshot(s.cash + quantity * price, ps[e.1 := Position(symbol, newQty, avg)], s.history + [trade]))
  }

  /** `Apply` on a buy that the cash covers. */
  lemma ApplyBuy(s: Snapshot, symbol: string, quantity: real, price: real, time: string)
    requires !(s.cash < quantity * price)
    ensures var (ps, i) := Ensured(s.positions, symbol);
            Apply(s, symbol, "buy", quantity, price, time)
              == Ok(Snapshot(s.cash - quantity * price, ps[i := Bought(ps[i], quantity, price)],
                             s.history + [Trade(symbol, "buy", quantity, price, time)]))
  {
  }

  /** `Apply` on a sale that the position covers. */
  lemma ApplySell(s: Snapshot, symbol: string, side: string, quantity: real, price: real, time: string)
    requires side != "buy"
    requires var (ps, i) := Ensured(s.positions, symbol); !(ps[i].quantity < quantity)
    ensures var (ps, i) := Ensured(s.positions, symbol);
            var newQty := ps[i].quantity - quantity;
            Apply(s, symbol, side, quantity, price, time)
              == Ok(Snapshot(s.cash + quantity * price,
                             ps[i := Position(symbol, newQty, if newQty == 0.0 then 0.0 else ps[i].avgPrice)],
                             s.history + [Trade(symbol, side, quantity, price, time)]))
  {
  }

  /** A pydantic `PortfolioState`: the object whose fields the simulator mutates. */
  class PortfolioState {
    var cash: real
    var positions: seq<Position>
    var history: seq<Trade>

    constructor (cash: real, positions: seq<Position>, history: seq<Trade>)
      ensures this.cash == cash && this.positions == positions && this.history == history
    {
      this.cash := cash;
      this.positions := positions;
      this.history := history;
    }

    function View(): Snapshot
      reads this
    {
      Snapshot(cash, positions, history)
    }
  }

  /** `execute_trade`: works on a fresh copy, so the caller's state is never touched, and
      returns that copy updated as `Apply` says (or the error `Apply` gives). */
  method ExecuteTrade(state: PortfolioState, symbol: string, side: string, quantity: real, price: real, time: string)
    returns (r: Result<PortfolioState>)
    ensures unchanged(state)
    ensures r.Ok? ==> fresh(r.value) && Apply(state.View(), symbol, side, quantity, price, time) == Ok(r.value.View())
    ensures r.Err? ==> Apply(state.View(), symbol, side, quantity, price, time) == Err(r.msg)
  {
    var copy := new PortfolioState(state.cash, state.positions, state.history);
    ghost var before := state.View();
    if side == "buy" {
      var cost := quantity * price;
      if copy.cash < cost {
        return Err("Insufficient cash");
      }
      copy.cash := copy.cash - cost;
      var ps, i := EnsurePosition(copy.positions, symbol);
      assert (ps, i) == Ensured(before.positions, symbol);
      copy.positions := ps;
      var pos := copy.positions[i];
      var newQty := pos.quantity + quantity;
      var avg := (pos.avgPrice * pos.quantity + price * quantity) / Max(newQty, DivisorFloor);
      assert Bought(pos, quantity, price) == Position(symbol, newQty, avg);
      copy.positions := copy.positions[i := Position(symbol, newQty, avg)];
      assert copy.cash == before.cash - quantity * price;
      ApplyBuy(before, symbol, quantity, price, time);
    } else {
      var ps, i := EnsurePosition(copy.positions, symbol);
      assert (ps, i) == Ensured(before.positions, symbol);
      copy.positions := ps;
      var pos := copy.positions[i];
      if pos.quantity < quantity {
        return Err("Insufficient shares");
      }
      copy.cash := copy.cash + quantity * price;
      var newQty := pos.quantity - quantity;
      copy.positions := copy.positions[i := pos.(quantity := newQty)];
      if newQty == 0.0 {
        copy.positions := copy.positions[i := copy.positions[i].(avgPrice := 0.0)];
      }
      assert copy.positions == ps[i := Position(symbol, newQty, if newQty == 0.0 then 0.0 else pos.avgPrice)];
      ApplySell(before, symbol, side, quantity, price, time);
    }
    copy.history := copy.history + [Trade(symbol, side, quantity, price, time)];
    r := Ok(copy);
  }

  // ---------------------------------------------------------------------------
  // Properties of a trade

  /** `IndexOf` only looks at the symbols. */
  lemma {:induction false} IndexOfSameSymbols(ps: seq<Position>, qs: seq<Position>, symbol: string)
    requires |ps| == |qs|
    requires forall j :: 0 <= j < |ps| ==> ps[j].symbol == qs[j].symbol
    ensures IndexOf(ps, symbol) == IndexOf(qs, symbol)
  {
    if |ps| > 0 {
      IndexOfSameSymbols(ps[1..], qs[1..], symbol);
    }
  }

  lemma {:induction false} IndexOfAppend(ps: seq<Position>, x: Position, symbol: string)
    ensures IndexOf(ps + [x], symbol) ==
      if HasSymbol(ps, symbol) then IndexOf(ps, symbol)
      else if x.symbol == symbol then Some(|ps|) else None
  {
    if |ps| > 0 {
      assert (ps + [x])[1..] == ps[1..] + [x];
      IndexOfAppend(ps[1..], x, symbol);
      if ps[0].symbol != symbol {
        assert HasSymbol(ps, symbol) ==> HasSymbol(ps[1..], symbol) by {
          if HasSymbol(ps, symbol) {
            var j :| 0 <= j < |ps| && ps[j].symbol == symbol;
            assert ps[1..][j - 1].symbol == symbol;
          }
        }
        assert HasSymbol(ps[1..], symbol) ==> HasSymbol(ps, symbol) by {
          if HasSymbol(ps[1..], symbol) {
            var j :| 0 <= j < |ps[1..]| && ps[1..][j].symbol == symbol;
            assert ps[j + 1].symbol == symbol;
          }
        }
      }
    } else {
      assert ps + [x] == [x];
    }
  }

  /** After `Ensured`, the returned index is where `symbol` is found. */
  lemma EnsuredIndex(ps: seq<Position>, symbol: string)
    ensures Ensured(ps, symbol).1 < |Ensured(ps, symbol).0|
    ensures IndexOf(Ensured(ps, symbol).0, symbol) == Some(Ensured(ps, symbol).1)
  {
    if !HasSymbol(ps, symbol) {
      IndexOfAppend(ps, Position(symbol, 0.0, 0.0), symbol);
    }
  }

  /** A successful trade moves the traded symbol's holding by exactly `quantity`
      (up for a buy, down for any other side) and leaves every other holding alone. */
  lemma TradeMovesHolding(s: Snapshot, symbol: string, side: string, quantity: real, price: real, time: string, other: string)
    requires Apply(s, symbol, side, quantity, price, time).Ok?
    ensures var t := Apply(s, symbol, side, quantity, price, time).value;
      && Held(t.positions, symbol) == (if side == "buy" then Held(s.positions, symbol) + quantity
                                      else Held(s.positions, symbol) - quantity)
      && (other != symbol ==> Held(t.positions, other) == Held(s.positions, other))
  {
    var (ps, i) := Ensured(s.positions, symbol);
    EnsuredIndex(s.positions, symbol);
    var t := Apply(s, symbol, side, quantity, price, time).value;
    assert |t.positions| == |ps|;
    assert forall j :: 0 <= j < |ps| ==> t.positions[j].symbol == ps[j].symbol;
    IndexOfSameSymbols(t.positions, ps, symbol);
    IndexOfSameSymbols(t.positions, ps, other);
    assert Held(ps, symbol) == Held(s.positions, symbol);
    if other != symbol {
      if !HasSymbol(s.positions, symbol) {
        IndexOfAppend(s.positions, Position(symbol, 0.0, 0.0), other);
      }
      assert IndexOf(ps, other) == IndexOf(s.positions, other);
      match IndexOf(s.positions, other)
      case Some(k) =>
        assert k != i;
      case None =>
    }
  }

  /** A trade never gives a symbol a second position. */
  lemma {:induction false} TradeKeepsSymbolsUnique(s: Snapshot, symbol: string, side: string, quantity: real, price: real, time: string)
    requires UniqueSymbols(s.positions)
    requires Apply(s, symbol, side, quantity, price, time).Ok?
    ensures UniqueSymbols(Apply(s, symbol, side, quantity, price, time).value.positions)
  {
    var (ps, i) := Ensured(s.positions, symbol);
    var t := Apply(s, symbol, side, quantity, price, time).value;
    assert forall j :: 0 <= j < |ps| ==> t.positions[j].symbol == ps[j].symbol;
    if !HasSymbol(s.positions, symbol) {
      assert forall j :: 0 <= j < |s.positions| ==> s.positions[j].symbol != symbol;
      assert UniqueSymbols(ps);
    }
  }

  /** Every successful trade keeps the position it touched, even one that drops to zero. */
  lemma TradeKeepsPositions(s: Snapshot, symbol: string, side: string, quantity: real, price: real, time: string)
    requires Apply(s, symbol, side, quantity, price, time).Ok?
    ensures var t := Apply(s, symbol, side, quantity, price, time).value;
      |t.positions| == if HasSymbol(s.positions, symbol) then |s.positions| else |s.positions| + 1
    ensures HasSymbol(Apply(s, symbol, side, quantity, price, time).value.positions, symbol)
  {
    var (ps, i) := Ensured(s.positions, symbol);
    EnsuredIndex(s.positions, symbol);
    var t := Apply(s, symbol, side, quantity, price, time).value;
    assert t.positions[i].symbol == symbol;
  }

  /** After a buy, the average price is the quantity-weighted mean of the old average and the
      fill price (whenever the new quantity is at least the divisor floor). */
  lemma BuyWeightedAverage(s: Snapshot, symbol: string, quantity: real, price: real, time: string)
    requires Apply(s, symbol, "buy", quantity, price, time).Ok?
    requires Held(s.positions, symbol) + quantity >= DivisorFloor
    ensures var t := Apply(s, symbol, "buy", quantity, price, time).value;
      var (ps, i) := Ensured(s.positions, symbol);
      && i < |t.positions|
      && t.positions[i].quantity * t.positions[i].avgPrice
         == ps[i].quantity * ps[i].avgPrice + quantity * price
  {
    var (ps, i) := Ensured(s.positions, symbol);
    EnsuredIndex(s.positions, symbol);
    var t := Apply(s, symbol, "buy", quantity, price, time).value;
    var newQty := ps[i].quantity + quantity;
    assert newQty == Held(s.positions, symbol) + quantity;
    assert Max(newQty, DivisorFloor) == newQty;
    var num := ps[i].avgPrice * ps[i].quantity + price * quantity;
    assert t.positions[i].avgPrice == num / newQty;
    assert newQty * (num / newQty) == num;
    assert ps[i].avgPrice * ps[i].quantity == ps[i].quantity * ps[i].avgPrice;
    assert price * quantity == quantity * price;
  }

  /** A sell that empties a position resets its average price to 0 and keeps it in the list. */
  lemma SellToZeroResetsAverage(s: Snapshot, symbol: string, side: string, quantity: real, price: real, time: string)
    requires side != "buy"
    requires Held(s.positions, symbol) == quantity
    ensures Apply(s, symbol, side, quantity, price, time).Ok?
    ensures var t := Apply(s, symbol, side, quantity, price, time).value;
      var i := Ensured(s.positions, symbol).1;
      i < |t.positions| && t.positions[i] == Position(symbol, 0.0, 0.0)
  {
    EnsuredIndex(s.positions, symbol);
  }

  /** Sum of quantity times average price: the cost basis of the book. */
  function CostBasis(ps: seq<Position>): real {
    if |ps| == 0 then 0.0 else ps[0].quantity * ps[0].avgPrice + CostBasis(ps[1..])
  }

  lemma {:induction false} CostBasisUpdate(ps: seq<Position>, i: nat, x: Position)
    requires i < |ps|
    ensures CostBasis(ps[i := x]) == CostBasis(ps) - ps[i].quantity * ps[i].avgPrice + x.quantity * x.avgPrice
  {
    if i > 0 {
      assert ps[i := x][1..] == ps[1..][i - 1 := x];
      CostBasisUpdate(ps[1..], i - 1, x);
    } else {
      assert ps[i := x][1..] == ps[1..];
    }
  }

  lemma {:induction false} CostBasisAppend(ps: seq<Position>, x: Position)
    ensures CostBasis(ps + [x]) == CostBasis(ps) + x.quantity * x.avgPrice
  {
    if |ps| > 0 {
      assert (ps + [x])[1..] == ps[1..] + [x];
      CostBasisAppend(ps[1..], x);
    } else {
      assert ps + [x] == [x];
    }
  }

  /** A buy converts cash into cost basis one for one: cash plus cost basis is unchanged
      (whenever the new quantity is at least the divisor floor). */
  lemma BuyConservesBookValue(s: Snapshot, symbol: string, quantity: real, price: real, time: string)
    requires Apply(s, symbol, "buy", quantity, price, time).Ok?
    requires Held(s.positions, symbol) + quantity >= DivisorFloor
    ensures var t := Apply(s, symbol, "buy", quantity, price, time).value;
      t.cash + CostBasis(t.positions) == s.cash + CostBasis(s.positions)
  {
    var (ps, i) := Ensured(s.positions, symbol);
    EnsuredIndex(s.positions, symbol);
    var t := Apply(s, symbol, "buy", quantity, price, time).value;
    BuyWeightedAverage(s, symbol, quantity, price, time);
    var x := t.positions[i];
    assert t.positions == ps[i := x];
    CostBasisUpdate(ps, i, x);
    assert CostBasis(ps) == CostBasis(s.positions) by {
      if !HasSymbol(s.positions, symbol) {
        CostBasisAppend(s.positions, Position(symbol, 0.0, 0.0));
      }
    }
    assert t.cash == s.cash - quantity * price;
    assert x.quantity * x.avgPrice == ps[i].quantity * ps[i].avgPrice + quantity * price;
  }
}

=== FILE: text.dfy ===
/** The handful of Python `str` operations the modelled code relies on, restricted to
    ASCII: whitespace is Python's ASCII whitespace (codes 9-13 and 28-32) and case
    conversion only touches the letters A-Z / a-z. */
module Text {

  predicate IsSpace(c: char) {
    9 <= c as int <= 13 || 28 <= c as int <= 32
  }

  function Lower(c: char): char {
    if 'A' <= c <= 'Z' then (c as int + 32) as char else c
  }

  function Upper(c: char): char {
    if 'a' <= c <= 'z' then (c as int - 32) as char else c
  }

  /** Python `s.lower()` */
  function LowerStr(s: string): (r: string)
    ensures |r| == |s|
    ensures forall i :: 0 <= i < |s| ==> r[i] == Lower(s[i])
  {
    seq(|s|, i requires 0 <= i < |s| => Lower(s[i]))
  }

  /** Python `s.upper()` */
  function UpperStr(s: string): (r: string)
    ensures |r| == |s|
    ensures forall i :: 0 <= i < |s| ==> r[i] == Upper(s[i])
  {
    seq(|s|, i requires 0 <= i < |s| => Upper(s[i]))
  }

  /** Python `s.capitalize()`: first character upper-case, the rest lower-case. */
  function Capitalize(s: string): (r: string)
    ensures |r| == |s|
    ensures |s| > 0 ==> r[0] == Upper(s[0])
    ensures forall i :: 0 < i < |s| ==> r[i] == Lower(s[i])
  {
    if |s| == 0 then "" else [Upper(s[0])] + LowerStr(s[1..])
  }

  /** Python `sub in s` */
  predicate Contains(s: string, sub: string)
    decreases |s|
  {
    sub <= s || (|s| > 0 && Contains(s[1..], sub))
  }

  lemma {:induction false} ContainsAt(s: string, sub: string, i: nat)
    requires i + |sub| <= |s| && s[i..i + |sub|] == sub
    ensures Contains(s, sub)
    decreases i
  {
    if i == 0 {
      assert sub <= s;
    } else {
      assert s[1..][i - 1..i - 1 + |sub|] == s[i..i + |sub|];
      ContainsAt(s[1..], sub, i - 1);
    }
  }

  lemma {:induction false} ContainsWitness(s: string, sub: string) returns (i: nat)
    requires Contains(s, sub)
    ensures i + |sub| <= |s| && s[i..i + |sub|] == sub
    decreases |s|
  {
    if sub <= s {
      i := 0;
    } else {
      var j := ContainsWitness(s[1..], sub);
      assert s[1..][j..j + |sub|] == s[j + 1..j + 1 + |sub|];
      i := j + 1;
    }
  }

  /** Number of occurrences of `c` in `s`. */
  function Count(s: string, c: char): nat {
    if |s| == 0 then 0 else (if s[0] == c then 1 else 0) + Count(s[1..], c)
  }

  /** Python `s.split(c)` for a one-character separator. */
  function SplitOn(s: string, c: char): (parts: seq<string>)
    ensures |parts| >= 1
  {
    if |s| == 0 then [""]
    else
      var rest := SplitOn(s[1..], c);
      if s[0] == c then [""] + rest else [[s[0]] + rest[0]] + rest[1..]
  }

  /** Python `sep.join(parts)` */
  function Join(parts: seq<string>, sep: string): string {
    if |parts| == 0 then ""
    else if |parts| == 1 then parts[0]
    else parts[0] + sep + Join(parts[1..], sep)
  }

  /** A join of two or more parts starts with the first part and a separator and ends with a
      separator and the last part. */
  lemma {:induction false} JoinEnds(parts: seq<string>, sep: string)
    requires |parts| >= 2
    ensures parts[0] + sep <= Join(parts, sep)
    ensures |Join(parts, sep)| >= |sep| + |parts[|parts| - 1]|
    ensures Join(parts, sep)[|Join(parts, sep)| - |sep| - |parts[|parts| - 1]|..] == sep + parts[|parts| - 1]
  {
    var j := Join(parts, sep);
    var rest := Join(parts[1..], sep);
    assert j == parts[0] + sep + rest;
    if |parts| == 2 {
      assert rest == parts[1];
    } else {
      JoinEnds(parts[1..], sep);
      var tail := sep + parts[|parts| - 1];
      assert rest[|rest| - |tail|..] == tail;
      assert j[|j| - |tail|..] == rest[|rest| - |tail|..];
    }
  }

  lemma {:induction false} SplitOnCount(s: string, c: char)
    ensures |SplitOn(s, c)| == Count(s, c) + 1
  {
    if |s| > 0 {
      SplitOnCount(s[1..], c);
    }
  }

  lemma {:induction false} SplitOnPartsFree(s: string, c: char)
    ensures forall k :: 0 <= k < |SplitOn(s, c)| ==> c !in SplitOn(s, c)[k]
  {
    if |s| > 0 {
      SplitOnPartsFree(s[1..], c);
    }
  }

  /** Splitting and re-joining on the same separator gives back the input. */
  lemma {:induction false} SplitOnJoin(s: string, c: char)
    ensures Join(SplitOn(s, c), [c]) == s
  {
    if |s| > 0 {
      var rest := SplitOn(s[1..], c);
      SplitOnJoin(s[1..], c);
      if s[0] == c {
        assert SplitOn(s, c) == [""] + rest;
        assert Join([""] + rest, [c]) == "" + [c] + Join(rest, [c]);
      } else {
        if |rest| == 1 {
          assert SplitOn(s, c) == [[s[0]] + rest[0]];
        } else {
          var parts := [[s[0]] + rest[0]] + rest[1..];
          assert parts[1..] == rest[1..];
          assert Join(rest, [c]) == rest[0] + [c] + Join(rest[1..], [c]);
        }
      }
    }
  }

  /** A string without the separator splits into itself. */
  lemma {:induction false} SplitOnNoSep(a: string, c: char)
    requires c !in a
    ensures SplitOn(a, c) == [a]
  {
    if |a| > 0 {
      SplitOnNoSep(a[1..], c);
      assert a == [a[0]] + a[1..];
    }
  }

  /** The text before the first separator is the first part. */
  lemma {:induction false} SplitOnFirst(a: string, b: string, c: char)
    requires c !in a
    ensures SplitOn(a + [c] + b, c) == [a] + SplitOn(b, c)
  {
    if |a| == 0 {
      assert a + [c] + b == [c] + b;
      assert ([c] + b)[1..] == b;
    } else {
      assert (a + [c] + b)[1..] == a[1..] + [c] + b;
      SplitOnFirst(a[1..], b, c);
      assert a == [a[0]] + a[1..];
    }
  }

  /** Python `s.lstrip()` */
  function LStrip(s: string): (r: string)
    ensures |r| <= |s| && r == s[|s| - |r|..]
    ensures forall k :: 0 <= k < |s| - |r| ==> IsSpace(s[k])
    ensures |r| == 0 || !IsSpace(r[0])
  {
    if |s| > 0 && IsSpace(s[0]) then LStrip(s[1..]) else s
  }

  /** Python `s.rstrip()` */
  function RStrip(s: string): (r: string)
    ensures |r| <= |s| && r == s[..|r|]
    ensures forall k :: |r| <= k < |s| ==> IsSpace(s[k])
    ensures |r| == 0 || !IsSpace(r[|r| - 1])
  {
    if |s| > 0 && IsSpace(s[|s| - 1]) then RStrip(s[..|s| - 1]) else s
  }

  /** Python `s.strip()` */
  function Strip(s: string): string {
    RStrip(LStrip(s))
  }

  /** Every character is whitespace. */
  predicate AllSpace(s: string) {
    forall k :: 0 <= k < |s| ==> IsSpace(s[k])
  }

  /** `not s.strip()` holds exactly for the strings made only of whitespace. */
  lemma StripEmpty(s: string)
    ensures Strip(s) == "" <==> AllSpace(s)
  {
    var l := LStrip(s);
    if |l| > 0 {
      assert !IsSpace(l[0]);
    }
  }

  /** A string with no whitespace at either end is its own strip. */
  lemma StripTrimmed(s: string)
    requires |s| == 0 || (!IsSpace(s[0]) && !IsSpace(s[|s| - 1]))
    ensures Strip(s) == s
  {
  }

  /** A stripped string has no whitespace at either end. */
  lemma StripEnds(s: string)
    ensures |Strip(s)| == 0 || (!IsSpace(Strip(s)[0]) && !IsSpace(Strip(s)[|Strip(s)| - 1]))
  {
    var l := LStrip(s);
    var r := RStrip(l);
    if |r| > 0 {
      assert r[0] == l[0];
    }
  }

  /** Length of the leading run of non-whitespace characters. */
  function WordLen(s: string): (n: nat)
    ensures n <= |s|
    ensures forall k :: 0 <= k < n ==> !IsSpace(s[k])
    ensures n == |s| || IsSpace(s[n])
  {
    if |s| == 0 || IsSpace(s[0]) then 0 else 1 + WordLen(s[1..])
  }

  /** Python `s.split()` with no argument: the maximal runs of non-whitespace. */
  function SplitWhitespace(s: string): (words: seq<string>)
    ensures forall k :: 0 <= k < |words| ==> |words[k]| > 0
    ensures forall k, j :: 0 <= k < |words| && 0 <= j < |words[k]| ==> !IsSpace(words[k][j])
  {
    if |s| == 0 then []
    else if IsSpace(s[0]) then SplitWhitespace(s[1..])
    else
      var n := WordLen(s);
      [s[..n]] + SplitWhitespace(s[n..])
  }

  predicate NoSpace(s: string) {
    forall k :: 0 <= k < |s| ==> !IsSpace(s[k])
  }

  /** Leading whitespace does not change the words. */
  lemma {:induction false} SplitWhitespaceSkip(pre: string, s: string)
    requires forall k :: 0 <= k < |pre| ==> IsSpace(pre[k])
    ensures SplitWhitespace(pre + s) == SplitWhitespace(s)
    decreases |pre|
  {
    if |pre| > 0 {
      assert IsSpace((pre + s)[0]);
      assert (pre + s)[1..] == pre[1..] + s;
      SplitWhitespaceSkip(pre[1..], s);
    } else {
      assert pre + s == s;
    }
  }

  /** A non-empty word with no whitespace splits to itself. */
  lemma SplitWhitespaceWord(w: string)
    requires |w| > 0 && NoSpace(w)
    ensures SplitWhitespace(w) == [w]
  {
    assert !IsSpace(w[0]);
    assert WordLen(w) == |w| by {
      WordLenAll(w);
    }
    assert w[..|w|] == w;
    assert w[|w|..] == [];
  }

  lemma {:induction false} WordLenAll(w: string)
    requires NoSpace(w)
    ensures WordLen(w) == |w|
  {
    if |w| > 0 {
      WordLenAll(w[1..]);
    }
  }

  /** `w1 + " " + w2` splits into exactly the two words. */
  lemma {:induction false} SplitWhitespaceTwo(w1: string, w2: string)
    requires |w1| > 0 && NoSpace(w1)
    requires |w2| > 0 && NoSpace(w2)
    ensures SplitWhitespace(w1 + " " + w2) == [w1, w2]
  {
    var s := w1 + " " + w2;
    assert s[..|w1|] == w1;
    assert WordLen(s) == |w1| by {
      WordLenPrefix(w1, " " + w2);
      assert s == w1 + (" " + w2);
    }
    assert s[|w1|..] == " " + w2;
    SplitWhitespaceSkip(" ", w2);
    SplitWhitespaceWord(w2);
  }

  /** A word followed by whitespace splits into the word and the words of the rest. */
  lemma {:induction false} SplitWhitespaceCons(w: string, rest: string)
    requires |w| > 0 && NoSpace(w)
    requires |rest| > 0 && IsSpace(rest[0])
    ensures SplitWhitespace(w + rest) == [w] + SplitWhitespace(rest)
  {
    var s := w + rest;
    assert !IsSpace(s[0]);
    WordLenPrefix(w, rest);
    assert s[..|w|] == w;
    assert s[|w|..] == rest;
  }

  /** `w1 + " " + w2 + " " + w3` splits into exactly the three words. */
  lemma {:induction false} SplitWhitespaceThree(w1: string, w2: string, w3: string)
    requires |w1| > 0 && NoSpace(w1)
    requires |w2| > 0 && NoSpace(w2)
    requires |w3| > 0 && NoSpace(w3)
    ensures SplitWhitespace(w1 + " " + w2 + " " + w3) == [w1, w2, w3]
  {
    var tail := w2 + " " + w3;
    var rest := " " + tail;
    assert w1 + " " + w2 + " " + w3 == w1 + rest;
    assert SplitWhitespace(tail) == [w2, w3] by {
      SplitWhitespaceTwo(w2, w3);
    }
    assert SplitWhitespace(rest) == SplitWhitespace(tail) by {
      SplitWhitespaceSkip(" ", tail);
    }
    SplitWhitespaceCons(w1, rest);
  }

  lemma {:induction false} WordLenPrefix(w: string, rest: string)
    requires NoSpace(w)
    requires |rest| > 0 && IsSpace(rest[0])
    ensures WordLen(w + rest) == |w|
    decreases |w|
  {
    if |w| > 0 {
      assert (w + rest)[1..] == w[1..] + rest;
      WordLenPrefix(w[1..], rest);
    } else {
      assert w + rest == rest;
    }
  }

  /** Python slicing `xs[:n]`, including the negative-bound case that drops from the end. */
  function PyTake<T>(xs: seq<T>, n: int): (r: seq<T>)
    ensures r <= xs
    ensures n >= 0 ==> |r| == if n < |xs| then n else |xs|
    ensures n < 0 ==> |r| == if |xs| + n > 0 then |xs| + n else 0
  {
    if n >= 0 then (if n < |xs| then xs[..n] else xs)
    else if |xs| + n > 0 then xs[..|xs| + n] else []
  }

  /** Python's `<=` on strings: lexicographic by code point, a proper prefix first. */
  predicate LexLe(a: string, b: string) {
    if |a| == 0 then true
    else if |b| == 0 then false
    else if a[0] != b[0] then a[0] < b[0]
    else LexLe(a[1..], b[1..])
  }

  lemma {:induction false} LexLeTotal(a: string, b: string)
    ensures LexLe(a, b) || LexLe(b, a)
  {
    if |a| > 0 && |b| > 0 && a[0] == b[0] {
      LexLeTotal(a[1..], b[1..]);
    }
  }

  lemma {:induction false} LexLeTrans(a: string, b: string, c: string)
    requires LexLe(a, b) && LexLe(b, c)
    ensures LexLe(a, c)
  {
    if |a| > 0 && |b| > 0 && |c| > 0 && a[0] == b[0] && b[0] == c[0] {
      LexLeTrans(a[1..], b[1..], c[1..]);
    }
  }
}

=== FILE: tracked_symbols.dfy ===
/** A portfolio's list of tracked symbols, as both stores edit it: `append` when absent,
    `list.remove` (first occurrence) when present. */
module TrackedSymbols {

  /** `list.remove(x)`: drops the first occurrence. */
  function RemoveFirst(xs: seq<string>, x: string): (r: seq<string>)
    requires x in xs
    ensures multiset(r) == multiset(xs) - multiset{x}
    ensures |r| == |xs| - 1
  {
    assert xs == [xs[0]] + xs[1..];
    if xs[0] == x then xs[1..] else [xs[0]] + RemoveFirst(xs[1..], x)
  }

  /** `list.index(x)`: the position of the first occurrence. */
  function FirstAt(xs: seq<string>, x: string): (i: nat)
    requires x in xs
    ensures i < |xs| && xs[i] == x && x !in xs[..i]
  {
    if xs[0] == x then 0
    else
      var j := FirstAt(xs[1..], x);
      assert xs[..j + 1] == [xs[0]] + xs[1..][..j];
      j + 1
  }

  /** `list.remove(x)` cuts out the first occurrence of `x` and keeps everything else in order. */
  lemma {:induction false} RemoveFirstSplits(xs: seq<string>, x: string)
    requires x in xs
    ensures RemoveFirst(xs, x) == xs[..FirstAt(xs, x)] + xs[FirstAt(xs, x) + 1..]
  {
    if xs[0] == x {
      assert FirstAt(xs, x) == 0 && RemoveFirst(xs, x) == xs[1..];
      assert xs[..0] + xs[1..] == xs[1..];
    } else {
      var tail := xs[1..];
      var j := FirstAt(tail, x);
      var cut := [xs[0]] + (tail[..j] + tail[j + 1..]);
      assert FirstAt(xs, x) == j + 1;
      assert RemoveFirst(xs, x) == cut by {
        RemoveFirstSplits(tail, x);
      }
      assert xs[..j + 1] + xs[j + 1 + 1..] == cut by {
        CutAfterHead(xs, j);
      }
    }
  }

  /** Cutting out index `j + 1` of `xs` is keeping its head and cutting index `j` of its tail. */
  lemma CutAfterHead(xs: seq<string>, j: nat)
    requires j + 1 < |xs|
    ensures xs[..j + 1] + xs[j + 2..] == [xs[0]] + (xs[1..][..j] + xs[1..][j + 1..])
  {
    assert xs[..j + 1] == [xs[0]] + xs[1..][..j];
    assert xs[j + 2..] == xs[1..][j + 1..];
  }

  predicate NoDuplicates(xs: seq<string>) {
    forall i, j :: 0 <= i < j < |xs| ==> xs[i] != xs[j]
  }

  lemma NoDuplicatesTail(xs: seq<string>)
    requires NoDuplicates(xs) && |xs| > 0
    ensures NoDuplicates(xs[1..]) && xs[0] !in xs[1..]
  {
    assert forall k :: 0 <= k < |xs[1..]| ==> xs[1..][k] == xs[k + 1];
  }

  /** In a list without duplicates, removing `x` removes it altogether and keeps the rest. */
  lemma {:induction false} RemoveFirstGone(xs: seq<string>, x: string)
    requires x in xs && NoDuplicates(xs)
    ensures x !in RemoveFirst(xs, x)
    ensures NoDuplicates(RemoveFirst(xs, x))
    ensures forall y :: y != x ==> (y in RemoveFirst(xs, x) <==> y in xs)
  {
    NoDuplicatesTail(xs);
    var r := RemoveFirst(xs, x);
    if xs[0] != x {
      RemoveFirstGone(xs[1..], x);
      var rest := RemoveFirst(xs[1..], x);
      assert r == [xs[0]] + rest;
      assert xs[0] !in rest by {
        RemoveFirstOthers(xs[1..], x);
      }
      assert forall k :: 0 <= k < |rest| ==> r[k + 1] == rest[k];
    }
    RemoveFirstOthers(xs, x);
  }

  /** Removing `x` keeps every other symbol's membership. */
  lemma RemoveFirstOthers(xs: seq<string>, x: string)
    requires x in xs
    ensures forall y :: y != x ==> (y in RemoveFirst(xs, x) <==> y in xs)
  {
    var r := RemoveFirst(xs, x);
    forall y | y != x
      ensures y in r <==> y in xs
    {
      assert multiset(r)[y] == multiset(xs)[y];
    }
  }

  /** The tracked symbols after `add_tracked_symbol`. */
  function Added(xs: seq<string>, symbol: string): seq<string> {
    if symbol in xs then xs else xs + [symbol]
  }

  /** The tracked symbols after `remove_tracked_symbol`. */
  function Removed(xs: seq<string>, symbol: string): seq<string> {
    if symbol in xs then RemoveFirst(xs, symbol) else xs
  }

  /** Adding never creates a duplicate and always leaves the symbol tracked; removing from a
      duplicate-free list leaves the symbol untracked and every other symbol as it was. */
  lemma TrackedSymbolsEffect(xs: seq<string>, symbol: string)
    requires NoDuplicates(xs)
    ensures NoDuplicates(Added(xs, symbol)) && symbol in Added(xs, symbol)
    ensures forall y :: y in xs ==> y in Added(xs, symbol)
    ensures NoDuplicates(Removed(xs, symbol)) && symbol !in Removed(xs, symbol)
    ensures forall y :: y != symbol ==> (y in Removed(xs, symbol) <==> y in xs)
  {
    if symbol in xs {
      RemoveFirstGone(xs, symbol);
    }
  }
}

=== FILE: trade_analysis.dfy ===
/** The keyword rules of the `trade_analysis` handler in backend/app.py: which ticker an idea
    mentions, which action it asks for, and which recommendation the critic's text carries.
    All matching is by substring. */
module TradeAnalysis {
  import opened Wrappers
  import opened Text

  /** The tickers checked, in order. */
  const Tickers: seq<string> := ["BTC", "ETH", "AAPL", "TSLA", "NVDA", "GOOGL", "MSFT", "AMZN", "META"]

  /** Crypto tickers get a "-USD" suffix for the market-data lookup. */
  function MarketSymbol(ticker: string): string {
    if ticker == "BTC" || ticker == "ETH" then ticker + "-USD" else ticker
  }

  /** The first of `tickers` that occurs in `text`. */
  function FirstMentioned(tickers: seq<string>, text: string): (r: Option<nat>)
    ensures r.None? <==> forall k :: 0 <= k < |tickers| ==> !Contains(text, tickers[k])
    ensures r.Some? ==> r.value < |tickers| && Contains(text, tickers[r.value])
    ensures r.Some? ==> forall k :: 0 <= k < r.value ==> !Contains(text, tickers[k])
  {
    if |tickers| == 0 then None
    else if Contains(text, tickers[0]) then Some(0)
    else
      match FirstMentioned(tickers[1..], text)
      case None => None
      case Some(k) => Some(k + 1)
  }

  /** `detected_symbol`: the first listed ticker found in the upper-cased idea, as a market
      symbol, or None. */
  function DetectSymbol(idea: string): (r: Option<string>)
    ensures r.None? <==> forall k :: 0 <= k < |Tickers| ==> !Contains(UpperStr(idea), Tickers[k])
    ensures r.Some? ==> exists k :: (0 <= k < |Tickers| && r.value == MarketSymbol(Tickers[k])
                                     && Contains(UpperStr(idea), Tickers[k])
                                     && forall j :: 0 <= j < k ==> !Contains(UpperStr(idea), Tickers[j]))
  {
    match FirstMentioned(Tickers, UpperStr(idea))
    case None => None
    case Some(k) => Some(MarketSymbol(Tickers[k]))
  }

  /** Mentioning "btc" in any letter case selects the BTC-USD market, whatever else the idea says. */
  lemma BitcoinFirst(idea: string)
    requires Contains(UpperStr(idea), "BTC")
    ensures DetectSymbol(idea) == Some("BTC-USD")
  {
    assert Tickers[0] == "BTC";
    assert FirstMentioned(Tickers, UpperStr(idea)) == Some(0);
    assert MarketSymbol("BTC") == "BTC-USD";
  }

  /** `action`: "buy" if the lower-cased idea contains "buy", else "sell" if it contains "sell",
      else "hold". */
  function Action(idea: string): (r: string)
    ensures r == "buy" <==> Contains(LowerStr(idea), "buy")
    ensures r == "sell" <==> !Contains(LowerStr(idea), "buy") && Contains(LowerStr(idea), "sell")
    ensures r == "hold" <==> !Contains(LowerStr(idea), "buy") && !Contains(LowerStr(idea), "sell")
  {
    var lower := LowerStr(idea);
    if Contains(lower, "buy") then "buy" else if Contains(lower, "sell") then "sell" else "hold"
  }

  /** `recommendation_action`: BUY only when "BUY" occurs with neither "DON'T" nor "NOT"; then
      SELL, WAIT and HOLD in that order; HOLD by default. */
  function Recommendation(critic: string): (r: string)
    ensures r in {"BUY", "SELL", "WAIT", "HOLD"}
    ensures r == "BUY" <==> (Contains(UpperStr(critic), "BUY") && !Contains(UpperStr(critic), "DON'T")
                             && !Contains(UpperStr(critic), "NOT"))
    ensures r == "SELL" ==> Contains(UpperStr(critic), "SELL")
    ensures r == "WAIT" ==> Contains(UpperStr(critic), "WAIT") && !Contains(UpperStr(critic), "SELL")
    ensures r == "HOLD" ==> !Contains(UpperStr(critic), "SELL") && !Contains(UpperStr(critic), "WAIT")
  {
    var upper := UpperStr(critic);
    if Contains(upper, "BUY") && !Contains(upper, "DON'T") && !Contains(upper, "NOT") then "BUY"
    else if Contains(upper, "SELL") then "SELL"
    else if Contains(upper, "WAIT") then "WAIT"
    else "HOLD"
  }

  /** Any word containing "not" (such as "note" or "cannot") vetoes BUY. */
  lemma NotVetoesBuy(critic: string, i: nat)
    requires i + 3 <= |critic| && UpperStr(critic)[i..i + 3] == "NOT"
    ensures Recommendation(critic) != "BUY"
  {
    ContainsAt(UpperStr(critic), "NOT", i);
  }
}

=== FILE: trade_order.dfy ===
/** The newest-first ordering both trade stores apply before truncating a trade list:
    Python's stable `sort(key=..., reverse=True)` on a string timestamp. */
module TradeOrder {
  import opened Text

  /** Every element's key is at least that of the element after it. */
  predicate NewestFirst<T>(xs: seq<T>, key: T -> string) {
    forall i :: 0 < i < |xs| ==> LexLe(key(xs[i]), key(xs[i - 1]))
  }

  /** Places `x` in front of the first element whose key is not greater than its own, so an
      element that came earlier stays ahead of later ones with an equal key (stability). */
  function Insert<T>(x: T, ys: seq<T>, key: T -> string): (r: seq<T>)
    ensures |r| == |ys| + 1
    ensures multiset(r) == multiset(ys) + multiset{x}
    ensures |ys| > 0 ==> r[0] == x || r[0] == ys[0]
  {
    if |ys| == 0 then [x]
    else if LexLe(key(ys[0]), key(x)) then [x] + ys
    else
      assert ys == [ys[0]] + ys[1..];
      [ys[0]] + Insert(x, ys[1..], key)
  }

  lemma {:induction false} InsertNewestFirst<T>(x: T, ys: seq<T>, key: T -> string)
    requires NewestFirst(ys, key)
    ensures NewestFirst(Insert(x, ys, key), key)
  {
    if |ys| > 0 && !LexLe(key(ys[0]), key(x)) {
      var rest := Insert(x, ys[1..], key);
      assert NewestFirst(ys[1..], key) by {
        forall i | 0 < i < |ys[1..]|
          ensures LexLe(key(ys[1..][i]), key(ys[1..][i - 1]))
        {
          assert ys[1..][i] == ys[i + 1] && ys[1..][i - 1] == ys[i];
        }
      }
      InsertNewestFirst(x, ys[1..], key);
      LexLeTotal(key(ys[0]), key(x));
      var r := [ys[0]] + rest;
      forall i | 0 < i < |r|
        ensures LexLe(key(r[i]), key(r[i - 1]))
      {
        if i == 1 {
          if rest[0] != x {
            assert rest[0] == ys[1];
          }
        } else {
          assert r[i] == rest[i - 1] && r[i - 1] == rest[i - 2];
        }
      }
    }
  }

  /** `xs.sort(key=key, reverse=True)` */
  function SortNewestFirst<T>(xs: seq<T>, key: T -> string): (r: seq<T>)
    ensures multiset(r) == multiset(xs)
    ensures NewestFirst(r, key)
  {
    if |xs| == 0 then []
    else
      var rest := SortNewestFirst(xs[1..], key);
      InsertNewestFirst(xs[0], rest, key);
      assert xs == [xs[0]] + xs[1..];
      Insert(xs[0], rest, key)
  }

  /** A prefix of a newest-first list is newest-first. */
  lemma PrefixNewestFirst<T>(xs: seq<T>, n: int, key: T -> string)
    requires NewestFirst(xs, key)
    ensures NewestFirst(PyTake(xs, n), key)
  {
    var r := PyTake(xs, n);
    forall i | 0 < i < |r|
      ensures LexLe(key(r[i]), key(r[i - 1]))
    {
      assert r[i] == xs[i] && r[i - 1] == xs[i - 1];
    }
  }
}

=== FILE: wrappers.dfy ===
/** Failure-carrying results shared by every module of the model.
    `Err` stands for a raised Python exception; its text is the exception message. */
module Wrappers {

  datatype Option<+T> = None | Some(value: T) {
    function GetOr(default: T): T {
      match this
      case Some(v) => v
      case None => default
    }
  }

  datatype Result<+T> = Ok(value: T) | Err(msg: string)
}
